=== FILE: README.md ===
# A model of the abik.ee site's request logic

The site is a bilingual (Estonian `ee`, Russian `ru`) marketing site with an
admin backend. Underneath its pages sit route loaders and actions that decide,
step by step, what a request may change:

- the gallery asset store (category records paired with folders of images);
- the service catalogue (categories with an ordered list of priced items);
- the two public forms (service request, feedback) and their check ladders;
- the admin inbox, where requests go pending → completed → deleted and
  feedback goes unread → read → deleted;
- the language and category resolution of the public pages;
- the client stores (the gallery lightbox and the admin modal);
- the sitemap and the contact-info singleton.

The model is functional. Each collection is a `seq` in storage order and the
public asset folders are a `map` from folder name to an ordered list of
entries. Every loader and action is a pure function from its inputs to a
`Reply`, or to a `Step` pairing the reply with the new state. A session is a
boolean `isAdmin`, and only routes whose code checks the session take one.
Database, filesystem and clock failures are explicit parameters (`dbDown`,
fault enumerations, a map from batch positions to write faults, `now`). MongoDB ObjectId
parsing is `ValidObjectId` (24 hex digits of either case). A query built from
such a string matches the stored id `Canonical(s)`, its lower-case form.

The URL an image card posts its delete to is read back by React Router, a
library outside the repository. `RouteUrl` models the part of its matching the
image delete route depends on. The path ends at the first `?` or `#` and splits
at `/` (and `\`). It is percent-decoded when every `%` starts an escape and
kept raw otherwise. Both dynamic segments must be non-empty.

Modules, one per file:

| module | file | models |
|---|---|---|
| Common | common.dfy | form values, replies, error keys, duplicate-key mapping, ObjectId strings, first-match index |
| SearchParams | search_params.dfy | `URLSearchParams` get/set on an ordered pair list |
| Paths | paths.dfy | POSIX `basename` and `/`-splitting |
| JsNumber | js_number.dfy | JavaScript `Number(string)` on decimal strings |
| GalleryStore | gallery_store.dfy | gallery records and folders: list, create, delete |
| GalleryImages | gallery_images.dfy | batch upload, single-image delete, category page, the delete action URL of an image card |
| RouteUrl | route_url.dfy | how the router reads an action URL back: path, segments, percent-decoding, the image delete route |
| ServiceCatalogue | service_catalogue.dfy | categories and items: create, rename, delete, append, change, pull |
| PublicForms | public_forms.dfy | service-request and feedback submission |
| Inbox | inbox.dfy | pending/completed requests, unread/read feedback, admin layout counts |
| ContactInfo | contact_info.dfy | the contact singleton's page |
| Language | language.dfy | root loader language handling, home page meta |
| HomeLoader | home_loader.dfy | the home page's parameter resolution, redirect and content |
| Lightbox | lightbox.dfy | lightbox store, navigation, button states, counter |
| AdminModal | admin_modal.dfy | admin modal store |
| Sitemap | sitemap.dfy | the sitemap generator |

## Model

| member | source | states |
|---|---|---|
| Common.DuplicateKey | app/routes/adminGallery.tsx:139-156 | a clash is reported by its first key: `title.ee` before `title.ru`; none iff neither language is already used |
| Common.MissingNames | app/routes/adminGallery.tsx:98-112 | each empty name sets its own error, so both can be reported together; empty iff both names are filled |
| Common.IndexOf | app/routes/admin.tsx:121-129 | the position `findOne`/`findOneAndUpdate` act on: the first record with the id, or -1 exactly when none has it |
| Common.CanonicalIsCanonical | app/routes/admin.tsx:121-129 | a parsed id prints in lower case, and printing a stored id gives it back |
| SearchParams.GetAfterSet | app/root.tsx:94-98 | after `set(k, v)`, `get(k)` answers `v` |
| SearchParams.GetOtherAfterSet | app/root.tsx:94-98 | `set(k, v)` leaves every other key's value as it was |
| SearchParams.WithoutKeepsGet | app/root.tsx:94-98 | removing one key leaves every other key's value |
| SearchParams.WithoutTwice | app/root.tsx:94-98 | removing a key is idempotent |
| SearchParams.SetKeepsOtherPairs | app/root.tsx:94-98 | `set` keeps every pair of the other keys, in order |
| SearchParams.WithoutHasNoKey | app/root.tsx:94-98 | after removal no pair with the key remains |
| SearchParams.SetLeavesOnePair | app/root.tsx:94-98 | after `set` exactly one pair carries the key |
| Paths.BasenameOfJoin | app/routes/adminSelectedGalleryCategoryDeleteImage.ts:90 | the basename of `dir/e` is `e`, so a joined target lies directly in the folder |
| Paths.LastSegmentOfJoin | app/routes/adminSelectedGalleryCategory.tsx:139-140 | splitting `dir/e` on `/` and taking the last piece gives back `e` |
| Paths.BasenameIdempotent | app/routes/adminSelectedGalleryCategoryNewImages.tsx:333-355 | a basename is its own basename |
| JsNumber.TrimBlank | app/routes/processServiceRequest.ts:26-28 | trimming leaves no surrounding white space and is empty only for a blank string |
| JsNumber.ParseUnsigned | app/routes/processServiceRequest.ts:51-54 | a finite reading is never negative and lies below 2^1024 - 2^970 |
| JsNumber.ParseDecimal | app/routes/processServiceRequest.ts:51-54 | digits, a point and fraction digits read as whole part plus fraction over its power of ten, or as `Infinity` from 2^1024 - 2^970 on |
| JsNumber.ToNumberOfTwelveAndAHalf | app/routes/processServiceRequest.ts:51-54 | the literal `12.5` reads as the number 12.5 |
| JsNumber.ToNumberOfDecimal | app/routes/processServiceRequest.ts:51-54 | `Number` of such a literal with digits on both sides is its unsigned reading |
| JsNumber.ToNumberOfIntToString | app/routes/processServiceRequest.ts:51-54 | `Number` of the decimal form of a safe integer (magnitude at most 2^53 - 1) is that integer, and finite |
| JsNumber.ToNumberOfHuge | app/routes/processServiceRequest.ts:51-54 | the decimal form of a whole number at or past 2^1024 - 2^970 reads as `Infinity`, and with a minus sign as `-Infinity` |
| GalleryStore.ListGalleries | app/routes/adminGallery.tsx:57-81 | every gallery in storage order, or `serverSideError` exactly when the database fails |
| GalleryStore.Find | app/routes/adminGallery.tsx:119-133 | the found record is stored under the parsed id; none means no record has it |
| GalleryStore.RemoveId | app/routes/adminSelectedGalleryCategoryDelete.ts:47-58 | exactly the records with other ids remain |
| GalleryStore.RemoveIdSubsequence | app/models/galleryModel.ts:3-9 | deleting records keeps ids and both title languages unique |
| GalleryStore.CreateGallery | app/routes/adminGallery.tsx:92-165 | missing names, a duplicate title or a failing insert write nothing, the last answering `serverSideError`; a redirect back with the same query happens iff record and folder were both made; a failed mkdir keeps the record (`serverSideError`); every other folder is untouched; the title rules keep holding |
| GalleryStore.DeleteGallery | app/routes/adminSelectedGalleryCategoryDelete.ts:14-69 | no session or no `itemId` changes nothing; `ok` iff a well-formed id met a working database and `rm` did not fail; the record goes first and only the folder named by the raw id is removed (an absent one is no error) |
| GalleryStore.CreateKeepsPairing | app/routes/adminGallery.tsx:119-133 | without failures every record keeps a folder and every folder a record |
| GalleryStore.DeleteKeepsPairing | app/routes/adminSelectedGalleryCategoryDelete.ts:47-63 | without failures deleting by a stored id removes record and folder together |
| GalleryStore.MkdirFailureBreaksPairing | app/routes/adminGallery.tsx:158-165 | a failed mkdir leaves a record without a folder, since nothing is rolled back |
| GalleryStore.UpperCaseIdLeavesFolder | app/routes/adminSelectedGalleryCategoryDelete.ts:47-63 | an upper-case id deletes the record but leaves its lower-case folder behind |
| GalleryImages.FileParts | app/routes/adminSelectedGalleryCategoryNewImages.tsx:287-295 | exactly the file values of the field, each as often as it was sent |
| GalleryImages.FilePartsAppend | app/routes/adminSelectedGalleryCategoryNewImages.tsx:287-295 | the filter keeps the files in the order they were sent |
| GalleryImages.Pick | app/routes/adminSelectedGalleryCategoryNewImages.tsx:350-364 | each listed name is a batch name whose write had one of the given outcomes |
| GalleryImages.WrittenEarlier | app/routes/adminSelectedGalleryCategoryNewImages.tsx:350-364 | a new name was left in the folder by an earlier write iff an earlier write of it got past the open |
| GalleryImages.ConflictFromListing | app/routes/adminSelectedGalleryCategoryNewImages.tsx:353-362 | a write is refused as existing iff its name is a directory alias, was in the folder, or was left there by an earlier write |
| GalleryImages.WriteOne | app/routes/adminSelectedGalleryCategoryNewImages.tsx:351-363 | one exclusive create: an existing target is conflicted, a failed open leaves nothing, a failed write leaves the file unreported |
| GalleryImages.WriteAll | app/routes/adminSelectedGalleryCategoryNewImages.tsx:348-364 | the sequential write loop: the two lists are the created and the conflicted names in batch order, and the folder gains every name a write left behind, partial ones included |
| GalleryImages.AppendFile | app/routes/adminSelectedGalleryCategoryNewImages.tsx:348-364 | one create keeps the folder's names distinct and plain and lists the new name last |
| GalleryImages.Upload | app/routes/adminSelectedGalleryCategoryNewImages.tsx:264-384 | session, then files, then MIME, then record, then folder; a failure before the loop writes nothing; an unreadable file ends the loop as `noGalleryDirectory` with the earlier writes kept; on `ok` only this folder changes |
| GalleryImages.WriteBatch | app/routes/adminSelectedGalleryCategoryNewImages.tsx:346-383 | the write stage: `ok` iff every file was read, otherwise `noGalleryDirectory`; either way the folder keeps the writes made before the stop |
| GalleryImages.PartitionCounts | app/routes/adminSelectedGalleryCategoryNewImages.tsx:351-363 | created, conflicted, lost and partial writes add up to the batch size; without faults none is lost or partial |
| GalleryImages.NoFaultWritesUploaded | app/routes/adminSelectedGalleryCategoryNewImages.tsx:351-363 | without write faults the folder gains exactly the names reported as uploaded |
| GalleryImages.RepeatedNameConflicts | app/routes/adminSelectedGalleryCategoryNewImages.tsx:350-364 | a name repeated in one batch is conflicted after its first write that got past the open |
| GalleryImages.ExistingNameConflicts | app/routes/adminSelectedGalleryCategoryNewImages.tsx:353-362 | a name already in the folder is conflicted and no write of the batch leaves a file under it |
| GalleryImages.UploadExample | app/routes/adminSelectedGalleryCategoryNewImages.tsx:333-364 | `a.png`, `dir/a.png`, `b.png` into a folder holding `b.png` uploads `a.png` once and conflicts `a.png`, `b.png` |
| GalleryImages.PartialWriteExample | app/routes/adminSelectedGalleryCategoryNewImages.tsx:351-363 | a first `a.png` whose content fails after the create stays in the folder unreported, and the second `a.png` of the batch is refused as conflicted |
| GalleryImages.Lookup | app/routes/adminSelectedGalleryCategoryDeleteImage.ts:93-106 | `stat` finds the entry of that name, or nothing exactly when the name is absent |
| GalleryImages.RemoveEntry | app/routes/adminSelectedGalleryCategoryDeleteImage.ts:107-118 | exactly the entries of other names remain |
| GalleryImages.UnlinkIn | app/routes/adminSelectedGalleryCategoryDeleteImage.ts:90-118 | `notAFile`, `noFileExists` and `errorDuringDelete` each under their exact condition, with no change; `ok` iff a regular file of that name existed, and then only it is gone |
| GalleryImages.DeleteImage | app/routes/adminSelectedGalleryCategoryDeleteImage.ts:14-118 | missing parameters reported together, then the record, then the folder; the target is the basename inside the folder; records and other folders never change |
| GalleryImages.UnlinkInFolder | app/routes/adminSelectedGalleryCategoryDeleteImage.ts:90-118 | the unlink acts on the category's folder only: records and every other folder are kept, and a failure changes nothing |
| GalleryImages.DeleteReachesFolder | app/routes/adminSelectedGalleryCategoryDeleteImage.ts:14-118 | with both parameters present, a valid id of an existing record and its folder in place, the route ends in the unlink of the basename in that folder |
| GalleryImages.RemoveEntryKeepsNodeOk | app/routes/adminSelectedGalleryCategoryDeleteImage.ts:107-118 | deleting a file keeps the folder's names distinct and leaves none with that name |
| GalleryImages.RemoveEntryCount | app/routes/adminSelectedGalleryCategoryDeleteImage.ts:107-118 | deleting a present file leaves exactly one entry fewer |
| GalleryImages.NameAbsentKeepsAll | app/routes/adminSelectedGalleryCategoryDeleteImage.ts:99-106 | an absent name leaves the folder as it was |
| GalleryImages.LoadCategoryPage | app/routes/adminSelectedGalleryCategory.tsx:192-250 | no session redirects to login, no parameter throws 400, an unknown category redirects back with the query, other failures throw 500; `ok` lists one `/gallery/<id>/<entry>` path per entry in listing order |
| GalleryImages.ImageNameOfPath | app/routes/adminSelectedGalleryCategory.tsx:139-140 | the card name read back from a listed path is the folder entry's name |
| GalleryImages.DeleteRoute | app/routes/adminSelectedGalleryCategory.tsx:161-164 | the card's action URL, for an id and name without `/`, `\\`, `?`, `#` or `%`, matches the delete route and hands back that id and name whatever query follows |
| GalleryImages.CardOfEntry | app/routes/adminSelectedGalleryCategory.tsx:136-140 | card `i` of the category page shows the name of folder entry `i` and carries the stored id |
| GalleryImages.DeleteThroughPage | app/routes/adminSelectedGalleryCategory.tsx:155-166 | for such a name, the delete button of a card removes exactly the file the card shows |
| GalleryImages.EscapedNameReadsDecoded | app/routes/adminSelectedGalleryCategory.tsx:161-164 | the action URL of `a%20b.png` reaches the delete action as `a b.png` |
| GalleryImages.EscapedCardDeletesOther | app/routes/adminSelectedGalleryCategory.tsx:155-166 | with `a b.png` and `a%20b.png` in the folder, the button of the card `a%20b.png` deletes `a b.png` and keeps the file it shows |
| GalleryImages.LoneEscapeKeptRaw | app/routes/adminSelectedGalleryCategory.tsx:161-164 | a `%` that starts no escape leaves the path undecoded, so `100%.png` reaches the action unchanged |
| GalleryImages.DelimiterCutsRoute | app/routes/adminSelectedGalleryCategory.tsx:161-164 | a `?` or `#` inside the name ends the path early and the URL matches no delete route |
| GalleryImages.DeleteKeepsOther | app/routes/adminSelectedGalleryCategoryDeleteImage.ts:90-118 | deleting a listed file keeps every entry of another name |
| RouteUrl.PathOfSearch | app/routes/adminSelectedGalleryCategory.tsx:161-164 | the `search` appended to the action is not part of the path the route is matched on |
| RouteUrl.SegmentsOfJoin | app/routes.ts:75-94 | splitting a path at `/` gives back the separator-free segments it was joined from |
| RouteUrl.DecodeOneEscape | app/routes.ts:91-94 | one escape between plain texts decodes to its character and leaves the path decodable |
| GalleryImages.DeleteListed | app/routes/adminSelectedGalleryCategoryDeleteImage.ts:90-118 | a listed regular file given by its name is deleted and only it |
| ServiceCatalogue.IndexOfId | app/routes/adminSelectedServiceCategoryRename.tsx:173-186 | the first category with the id, or -1 exactly when there is none |
| ServiceCatalogue.IndexOfItem | app/routes/adminSelectedServiceCategoryContentItemChange.tsx:355-368 | the first item with the id, or -1 exactly when there is none |
| ServiceCatalogue.OtherTitles | app/models/serviceModel.ts:6-7 | the titles of every other category and only those |
| ServiceCatalogue.ListCategories | app/routes/adminServices.tsx:57-81 | every category in storage order, or `serverSideError` exactly when the database fails |
| ServiceCatalogue.CreateCategory | app/routes/adminServices.tsx:96-151 | missing names reported together and nothing written; on success one category with that title and empty content is appended; a clash reports its first key; the title rules keep holding |
| ServiceCatalogue.LoadRename | app/routes/adminSelectedServiceCategoryRename.tsx:108-131 | no parameter throws 400, everything else that fails throws 500; `ok` returns a stored category |
| ServiceCatalogue.Rename | app/routes/adminSelectedServiceCategoryRename.tsx:150-212 | missing fields reported together; both languages replaced at once and content kept; an unknown id changes nothing but still redirects; a clash reports its first key |
| ServiceCatalogue.RetitleKeepsCatalogueOk | app/models/serviceModel.ts:6-7 | a required title no other category uses keeps the title rules |
| ServiceCatalogue.RenameToSameTitle | app/routes/adminSelectedServiceCategoryRename.tsx:173-186 | renaming to the current title changes nothing and is no clash |
| ServiceCatalogue.RemoveCategory | app/routes/adminSelectedServiceCategoryDelete.ts:34-37 | exactly the categories with other ids remain |
| ServiceCatalogue.RemoveCategoryKeepsOk | app/models/serviceModel.ts:6-29 | deleting categories keeps the title and id rules |
| ServiceCatalogue.DeleteCategory | app/routes/adminSelectedServiceCategoryDelete.ts:20-47 | no `itemId` reports `noItemProvided`; a malformed id or failing database is `ok:false`; otherwise `ok` even without a match, and the category goes with all its items |
| ServiceCatalogue.SubmittedPrice | app/routes/adminSelectedServiceCategoryNewService.tsx:379-397 | the stored price is the submitted string itself |
| ServiceCatalogue.NewServiceErrors | app/routes/adminSelectedServiceCategoryNewService.tsx:335-365 | each error flag is set exactly under its own condition; the price fails only when empty |
| ServiceCatalogue.NewService | app/routes/adminSelectedServiceCategoryNewService.tsx:335-409 | any error writes nothing; otherwise one item is appended at the end of that category with the submitted price and missing info as `""`, other categories unchanged, and the reply redirects with the query |
| ServiceCatalogue.NumericPriceStoredAsText | app/models/serviceModel.ts:13-20 | a numeric price typed in the form is stored as text, which the schema's price rule does not accept |
| ServiceCatalogue.ItemsWithPrintedId | app/routes/adminSelectedServiceCategoryContentItemChange.tsx:283-296 | exactly the items whose printed id is the parameter, the first one first |
| ServiceCatalogue.LoadItem | app/routes/adminSelectedServiceCategoryContentItemChange.tsx:254-302 | missing parameters reported together; `ok` iff the category and an item with that printed id exist, returning the first such item and its parent |
| ServiceCatalogue.ChangeErrors | app/routes/adminSelectedServiceCategoryContentItemChange.tsx:323-349 | each error flag is set exactly under its own condition |
| ServiceCatalogue.SetItemFields | app/routes/adminSelectedServiceCategoryContentItemChange.tsx:355-368 | only `ee`, `ru`, `price` and `priceType` of the first matching item change; other items and the ids stay |
| ServiceCatalogue.ChangeItem | app/routes/adminSelectedServiceCategoryContentItemChange.tsx:323-380 | any error writes nothing; otherwise only the matched item of the matched category changes, and an unmatched one still redirects |
| ServiceCatalogue.ChangeThenLoad | app/routes/adminSelectedServiceCategoryContentItemChange.tsx:283-368 | after a change the change page shows the new values and the old additional info |
| ServiceCatalogue.PullItems | app/routes/adminSelectedServiceCategoryContentItemDelete.ts:30-39 | exactly the items with other ids remain, in their order |
| ServiceCatalogue.PullKeepsContentOk | app/models/serviceModel.ts:11-29 | pulling keeps the remaining item ids distinct |
| ServiceCatalogue.DeleteItem | app/routes/adminSelectedServiceCategoryContentItemDelete.ts:12-48 | missing parameters reported together; `ok` even without a match; only the named category loses items |
| ServiceCatalogue.PullAbsent | app/routes/adminSelectedServiceCategoryContentItemDelete.ts:28-42 | pulling an unused id changes nothing |
| ServiceCatalogue.PullAppended | app/routes/adminSelectedServiceCategoryContentItemDelete.ts:30-39 | pulling a just-appended item restores the content, so append and pull are inverse |
| ServiceCatalogue.NewServiceThenDelete | app/routes/adminSelectedServiceCategoryNewService.tsx:379-397 | adding an item through the form and deleting it through its route restores the catalogue |
| ServiceCatalogue.NewServiceAppends | app/routes/adminSelectedServiceCategoryNewService.tsx:379-397 | a fully filled form appends the item at the end of the category it names and touches nothing else |
| ServiceCatalogue.DeleteItemAt | app/routes/adminSelectedServiceCategoryContentItemDelete.ts:12-48 | given a stored category id and item id, the route pulls that item id from that category only |
| ServiceCatalogue.DeleteAppended | app/routes/adminSelectedServiceCategoryContentItemDelete.ts:12-48 | deleting an item appended under an id no sibling carries gives back the catalogue as it was |
| PublicForms.CheckTimestamp | app/routes/processServiceRequest.ts:51-71 | invalid iff not finite; too fast iff younger than 1500 ms, future stamps included; expired iff older than one hour; the closed window proceeds |
| PublicForms.TimestampWindow | app/routes/processServiceRequest.ts:57-71 | for a whole-millisecond stamp within the safe-integer range the verdict depends only on the age `now - stamp` |
| PublicForms.FindService | app/routes/processServiceRequest.ts:93-105 | the first item in storage order with the id, with its category's title; none iff no category holds it |
| PublicForms.SnapshotPrice | app/routes/processServiceRequest.ts:107-128 | the stored price always passes the request schema; `volumeBased` stays and only it |
| PublicForms.SnapshotOfFractionPrice | app/routes/processServiceRequest.ts:107-128 | a text price `12.5` reaches the request as the number 12.5 |
| PublicForms.SnapshotOfTypedPrice | app/routes/processServiceRequest.ts:107-128 | an item price typed as a decimal safe integer becomes that number in the request |
| PublicForms.PhoneOf | app/models/serviceRequestModel.ts:4-10 | the phone is stored iff it was sent as a non-empty string |
| PublicForms.RequestChecks | app/routes/processServiceRequest.ts:16-80 | agreement first, then the honeypot's silent `ok`, then credentials, timestamp and e-mail; passes iff every check does |
| PublicForms.SubmitServiceRequest | app/routes/processServiceRequest.ts:16-141 | at most one record is written, only when every check passed and the item was found; it is schema-valid, not completed, and answered `ok`; otherwise `serverSideError` |
| PublicForms.RequestForListedItem | app/routes/processServiceRequest.ts:93-133 | a request for a catalogued item snapshots its titles and price and is accepted |
| PublicForms.FeedbackChecks | app/routes/feedbackFormSubmissionHandle.ts:15-89 | agreement, honeypot, credentials, timestamp, then message length before e-mail; passes iff every check does |
| PublicForms.SubmitFeedback | app/routes/feedbackFormSubmissionHandle.ts:95-114 | one unread `{email, message}` record is written iff every check passes and the database answers; a failure is `errorDuringRequest` |
| PublicForms.HoneypotSilentlyDrops | app/routes/feedbackFormSubmissionHandle.ts:25-27 | a filled honeypot is answered `ok` and stores nothing |
| PublicForms.InstantSubmitSilentlyDrops | app/routes/feedbackFormSubmissionHandle.ts:56-60 | a form with a safe-integer stamp sent within 1.5 s is answered `ok` and stores nothing |
| PublicForms.HugeStampInvalid | app/routes/processServiceRequest.ts:51-54 | a stamp of either sign too large for a double is invalid, never too fast or expired |
| PublicForms.HugeStampRefused | app/routes/feedbackFormSubmissionHandle.ts:48-51 | a feedback form with such a stamp is answered `invalidTs` and stores nothing, whether or not the database is up |
| Inbox.Filter | app/routes/admin.tsx:71-86 | exactly the records with the flag value, in storage order |
| Inbox.FilterAppend | app/routes/admin.tsx:71-86 | filtering a concatenation filters each part in order |
| Inbox.FilterPartition | app/layouts/AdminLayout.tsx:79-90 | every record is in exactly one of a flag's two listings |
| Inbox.RemoveFirst | app/routes/completedRequests.tsx:120-127 | the first record with the id leaves, the others keep their order |
| Inbox.RemoveUnique | app/routes/completedRequests.tsx:120-127 | with distinct ids, no record with the deleted id remains |
| Inbox.LoadPending | app/routes/admin.tsx:55-90 | login redirect without a session, 500 on failure, otherwise exactly the requests not completed |
| Inbox.LoadCompleted | app/routes/completedRequests.tsx:54-89 | login redirect without a session, 500 on failure, otherwise exactly the completed requests |
| Inbox.SetCompleted | app/routes/admin.tsx:121-129 | only the first match's completion flag changes, and it becomes set |
| Inbox.ItemIdCheck | app/routes/admin.tsx:107-137 | no `itemId` is `noItemIdProvided`; a malformed id or failing database is `serverSideError` |
| Inbox.MarkCompleted | app/routes/admin.tsx:92-138 | `ok` iff a session and a valid id met a working database; then only that request is flagged completed, otherwise nothing changes |
| Inbox.MarkCompletedIdempotent | app/routes/admin.tsx:121-129 | marking twice equals marking once |
| Inbox.DeleteRequest | app/routes/completedRequests.tsx:91-136 | `ok` iff a session and a valid id met a working database; then the request goes whatever its flag and nothing else changes |
| Inbox.CompleteMovesRequest | app/routes/admin.tsx:121-129 | completing a pending request takes one from the pending listing and adds it to the completed one |
| Inbox.FilterUpdateDrops | app/routes/admin.tsx:121-129 | replacing one listed element by one the filter rejects shortens the filtered listing by exactly one |
| Inbox.RequestLifecycle | app/routes/completedRequests.tsx:120-127 | after completing and then deleting a request, no record with its id remains |
| Inbox.SubmittedRequestIsPending | app/models/serviceRequestModel.ts:42-45 | an accepted public request shows up last in the pending listing |
| Inbox.LoadUnread | app/routes/adminFeedbackUnred.tsx:43-82 | login redirect without a session, 500 on failure, otherwise exactly the unread messages |
| Inbox.LoadRead | app/routes/adminFeedbackRed.tsx:40-65 | no session check; 500 on failure, otherwise exactly the read messages |
| Inbox.SetRed | app/routes/adminFeedbackUnred.tsx:114-124 | only the first match's read flag changes, and it becomes set |
| Inbox.MarkRead | app/routes/adminFeedbackUnred.tsx:84-133 | `ok` iff a session and a valid id met a working database; then only that message is flagged read |
| Inbox.MarkReadIdempotent | app/routes/adminFeedbackUnred.tsx:114-124 | marking read twice equals marking once |
| Inbox.DeleteFeedback | app/routes/adminFeedbackRed.tsx:67-110 | any method but DELETE answers `null` and changes nothing; DELETE removes the first match whatever its flag |
| Inbox.ReadMovesFeedback | app/routes/adminFeedbackUnred.tsx:114-124 | reading an unread message moves it from the unread listing to the read one |
| Inbox.SubmittedFeedbackIsUnread | app/models/feedbackModel.ts:16-19 | accepted public feedback shows up last in the unread listing |
| Inbox.LoadLayout | app/layouts/AdminLayout.tsx:52-93 | login redirect without a session; no `lang` redirects to the same path with `lang=ru` and the other parameters kept; `ok` carries the unread and pending counts |
| Inbox.ApplyCounts | app/layouts/AdminLayout.tsx:29-38 | the badges take the counts only when the load succeeded |
| Inbox.BadgesAfterLoad | app/layouts/AdminLayout.tsx:29-90 | after a load the badges show exactly the unread messages and pending requests |
| ContactInfo.LoadContact | app/routes/adminContact.tsx:174-204 | login redirect without a session; `ok` iff the `contactInfo` record exists and the database answers, returning the first such record |
| ContactInfo.FirstMissing | app/routes/adminContact.tsx:223-251 | e-mail, then tel, then address: exactly the first missing field is reported |
| ContactInfo.UpdateContact | app/routes/adminContact.tsx:206-279 | any missing field or failure writes nothing; on `ok` only the singleton's three fields take the submitted values |
| ContactInfo.UpdateThenLoad | app/routes/adminContact.tsx:189-269 | a saved update is what the page loads next, and the record stays schema-valid |
| Language.SafeLang | app/root.tsx:18-22 | a supported language is kept and anything else becomes `ee` |
| Language.HtmlLang | app/root.tsx:19-22 | the document language is `ru` exactly for `ru`, `et` for everything else |
| Language.RootLoader | app/root.tsx:90-106 | without `lang` a redirect to the same path with `lang=ee` and every other parameter kept; otherwise the mapped document language |
| Language.HomeMeta | app/routes/home.tsx:14-61 | `ru` iff the raw parameter is `ru`; canonical and Open Graph URLs carry that language; three alternates |
| HomeLoader.Resolve | app/routes/home.tsx:159-230 | absent, `"none"`, existing, unknown and malformed parameters each settle as the page does, to `"none"` or the first id, and say when the URL must be rewritten |
| HomeLoader.ResolvesToExisting | app/routes/home.tsx:159-230 | the settled value is `"none"` or names a stored category |
| HomeLoader.ResolveSettles | app/routes/home.tsx:159-230 | a rewritten value resolves to itself without a further rewrite |
| HomeLoader.ServiceContent | app/routes/home.tsx:329-365 | nothing for `"none"` or a failure; otherwise the items of the first category with the selected id (none when no category has it) and all categories in stored order |
| HomeLoader.GalleryContent | app/routes/home.tsx:367-417 | nothing for `"none"` or a failure; an unknown gallery shows no images but all galleries; a known gallery without a folder throws and empties both lists; with a folder, one `gallery/<id>/<entry>` path per entry in listing order, and all galleries |
| HomeLoader.ContactContent | app/routes/home.tsx:419-444 | the contact details shown iff the singleton exists and the lookup worked; otherwise all absent |
| HomeLoader.LoadHome | app/routes/home.tsx:150-455 | redirect iff `lang` is missing or either parameter needs a rewrite; otherwise the page with the settled selections, their service and gallery content and the contact details |
| HomeLoader.RedirectCarriesAll | app/routes/home.tsx:305-311 | the rewritten URL carries `lang`, `service` and `gallery` with the settled values |
| HomeLoader.RedirectSettles | app/routes/home.tsx:305-311 | following the redirect renders the page, unless a lookup fell into its catch |
| HomeLoader.SettledStays | app/routes/home.tsx:159-230 | re-resolving a settled value asks for no rewrite, except a caught `"none"` |
| HomeLoader.MalformedIdRedirectsTwice | app/routes/home.tsx:228-230 | a malformed id without `lang` costs two redirects before the page renders |
| HomeLoader.FirstLoadOfMalformed | app/routes/home.tsx:152-310 | the first load of a malformed service id without `lang` redirects with `lang=ee`, `service=none` and `gallery=none` |
| HomeLoader.SecondLoadOfNone | app/routes/home.tsx:184-199 | following it, `service=none` is replaced by the first category while `lang` and `gallery` stay |
| HomeLoader.ThirdLoadSettles | app/routes/home.tsx:202-311 | with a stored service id and an empty gallery collection the page renders |
| HomeLoader.GalleryPathsRoundTrip | app/routes/home.tsx:389-401 | each public image path ends with its folder entry's name |
| Lightbox.SetImages | app/stores/LightBoxStore.ts:22 | only the list changes; the active image is not reset |
| Lightbox.SetActiveImage | app/stores/LightBoxStore.ts:23 | only the active image changes, with no membership check |
| Lightbox.FirstIndex | app/components/LightBox.tsx:56-58 | the first position of the active image, or -1 exactly when it is not in the list |
| Lightbox.Next | app/components/LightBox.tsx:54-67 | moves to `images[i+1]` when `0 ≤ i < n-1`, otherwise changes nothing |
| Lightbox.Previous | app/components/LightBox.tsx:109-122 | moves to `images[i-1]` when `i > 0`, otherwise changes nothing |
| Lightbox.PreviousUndoesNext | app/components/LightBox.tsx:54-122 | without repeats, previous undoes next wherever next moves |
| Lightbox.RepeatedEntryCycles | app/components/LightBox.tsx:56-58 | with a repeated entry navigation follows the first copy and cycles |
| Lightbox.Refresh | app/components/LightBox.tsx:70-106 | previous disabled iff `i = 0`; next disabled iff `i ≠ 0` and `i = n-1`; the tracked index is `i` |
| Lightbox.ButtonsMatchMoves | app/components/LightBox.tsx:90-104 | with two or more distinct images, a button is disabled exactly when its move would change nothing |
| Lightbox.EdgeLists | app/components/LightBox.tsx:73-98 | one image: previous disabled, next enabled but inert; empty list: next disabled |
| Lightbox.Counter | app/components/LightBox.tsx:195-196 | each half of `i+1 / n` is blank exactly while its source is undefined |
| Lightbox.CounterOfStrayImage | app/components/LightBox.tsx:195-196 | an active image outside the list shows as `0 / n` |
| Lightbox.ThumbnailClick | app/components/LightBox.tsx:49-51 | clicking thumbnail k of a list without repeats shows `k+1 / n` |
| AdminModal.ToggleModal | app/stores/adminModalStore.ts:28 | flips `open` and nothing else |
| AdminModal.OpenModal | app/stores/adminModalStore.ts:29 | opens with the variant and nothing else |
| AdminModal.CloseModal | app/stores/adminModalStore.ts:30-31 | closes and clears variant, route and item id, keeping the content |
| AdminModal.SetActionRoute | app/stores/adminModalStore.ts:33 | changes only the action route |
| AdminModal.SetItemId | app/stores/adminModalStore.ts:35 | changes only the item id |
| AdminModal.SetInnerContent | app/stores/adminModalStore.ts:37 | changes only the content |
| Sitemap.UrlOf | app/routes/sitemap.xml.ts:9-15 | weekly, with priority `1.0` exactly for `/` and `0.3` otherwise |
| Sitemap.Urls | app/routes/sitemap.xml.ts:6-19 | one entry per page and language |
| Sitemap.UrlAt | app/routes/sitemap.xml.ts:6-19 | entry p·n + l, where n is the number of languages, is page p with language l: page-major order |
| Sitemap.Loader | app/routes/sitemap.xml.ts:21-28 | a Sitemaps 0.9 `urlset` served as `application/xml; charset=utf-8` |
| Sitemap.FourEntries | app/routes/sitemap.xml.ts:2-19 | exactly four entries: `/` in ee and ru, then `/privacy-policy` in ee and ru |

## Left out

- File bytes: uploads are modelled by name and browser-reported MIME type only; the bytes written are not modelled.
- The 300 ms pause after an upload (app/routes/adminSelectedGalleryCategoryNewImages.tsx:366-370) has no logical effect.
- The `createdAt` default of service requests is evaluated once at module load and is not modelled.
- Record ids come from the database and are a parameter (`freshId`); the reply ids derived from `Date.now()` are not modelled.
- Sessions, login and logout are reduced to the boolean `isAdmin`; bcrypt and cookie handling are not modelled.
- The database connection in the home page's loader sits outside its `try` blocks; its failure is not modelled.
- The lightbox's scroll lock and `scrollIntoView` are DOM effects and are not modelled.
- Rendering, toasts and the effect de-duplication of the form components are React-only and not modelled.
- JsNumber.ToNumber: decimal strings with sign, fraction, white space and `Infinity` are modelled; exponent and hex forms map to NaN, so such timestamps read as invalid. Overflow to an infinity is modelled, but a finite value is kept exact rather than rounded to the nearest double: integers past 2^53 and fractions are not rounded, and tiny values do not underflow to 0.
- JsNumber.ToNumberOfIntToString: promised only for safe integers, because past 2^53 the source rounds to a double and the model does not.
- PublicForms.TimestampWindow: promised only for safe-integer stamps, for the same rounding reason; stamps past the double range are covered by PublicForms.HugeStampInvalid.
- PublicForms.SnapshotOfTypedPrice: promised only for safe-integer prices, for the same rounding reason.
- PublicForms.CheckTimestamp: `now - ts` is computed on exact reals, not on binary floating point.
- PublicForms.FeedbackChecks: string length is the number of characters, not UTF-16 code units.
- PublicForms.RequestChecks: the 200 limit on the e-mail counts characters, not UTF-16 code units, so an address holding characters outside the Basic Multilingual Plane can pass in the model where the source rejects it as too long.
- PublicForms.EmailShape: the length bound counts characters, not UTF-16 code units, as in RequestChecks and FeedbackChecks.
- GalleryImages.WriteAll: a folder lists its entries in creation order; the operating system's listing order is not modelled, nor the content of a partial file.
- GalleryImages.DeleteThroughPage: proved only for names without `%`, `?`, `#`, `/` or `\\`; the other names reach a different file or none, as EscapedCardDeletesOther, LoneEscapeKeptRaw and DelimiterCutsRoute show.
- RouteUrl.PercentDecode: each escape decodes to one character of its code; multi-byte UTF-8 sequences, the browser's own encoding of spaces and non-ASCII characters in the action URL (which decoding undoes), case-insensitive matching of the static segments and trailing slashes are not modelled.
- GalleryImages.UnlinkIn: a file removed by another request between `stat` and `unlink` is not modelled.
- Common.ValidObjectId: only the 24-hex-digit form is modelled; the 12-byte string form of an ObjectId is not.
- Sitemap.Loader: the document is modelled as a structure (namespace, entries, content type), not as its XML text.
- Lightbox.Next: without a list the next handler throws on `images!`; the model leaves the store unchanged instead.
- Lightbox.Previous: without a list the previous handler throws on `images!` too; the model leaves the store unchanged instead.
- HomeLoader.GalleryContent: a caught failure empties both the image list and the category list, as the page's single `catch` does.
- The error boundaries and static pages (privacy policy, robots.txt, the route table) hold no decision logic and are not modelled.

=== FILE: admin_modal.dfy ===
/** The admin modal store: whether the modal is open, which variant it shows,
    the action route and item id its form submits to, and its inner content. */
module AdminModal {
  import opened Common

  /** The inner content is a rendered element; the model only tells contents apart. */
  type Content = string

  datatype Modal = Modal(
    open: bool, variant: Option<string>, actionRoute: Option<string>, itemId: Option<string>,
    innerContent: Option<Content>)

  /** Closed, and every other field null. */
  const Initial := Modal(false, None, None, None, None)

  function ToggleModal(m: Modal): (r: Modal)
    ensures r.open == !m.open
    ensures r.(open := m.open) == m
  {
    m.(open := !m.open)
  }

  function OpenModal(m: Modal, variant: string): (r: Modal)
    ensures r.open && r.variant == Some(variant)
    ensures r.(open := m.open, variant := m.variant) == m
  {
    m.(open := true, variant := Some(variant))
  }

  /** Closing clears the variant, the route and the item id, but not the content. */
  function CloseModal(m: Modal): (r: Modal)
    ensures !r.open && r.variant.None? && r.actionRoute.None? && r.itemId.None?
    ensures r.innerContent == m.innerContent
  {
    m.(open := false, actionRoute := None, itemId := None, variant := None)
  }

  function SetActionRoute(m: Modal, route: string): (r: Modal)
    ensures r.actionRoute == Some(route)
    ensures r.(actionRoute := m.actionRoute) == m
  {
    m.(actionRoute := Some(route))
  }

  function SetItemId(m: Modal, id: string): (r: Modal)
    ensures r.itemId == Some(id)
    ensures r.(itemId := m.itemId) == m
  {
    m.(itemId := Some(id))
  }

  function SetInnerContent(m: Modal, c: Content): (r: Modal)
    ensures r.innerContent == Some(c)
    ensures r.(innerContent := m.innerContent) == m
  {
    m.(innerContent := Some(c))
  }

  /** Toggling twice changes nothing. */
  lemma ToggleTwice(m: Modal)
    ensures ToggleModal(ToggleModal(m)) == m
  {
  }

  /** Closing after any sequence of opens and setters leaves the initial
      state, except for the inner content, which survives. */
  lemma CloseForgetsAllButContent(m: Modal)
    ensures CloseModal(m) == Initial.(innerContent := m.innerContent)
  {
  }

  /** Closing twice is closing once. */
  lemma CloseIdempotent(m: Modal)
    ensures CloseModal(CloseModal(m)) == CloseModal(m)
  {
  }

  /** Toggling a closed modal open shows whatever variant it had, which is
      none after a close: only `OpenModal` sets the variant. */
  lemma ToggleAfterClose(m: Modal)
    ensures var r := ToggleModal(CloseModal(m));
            r.open && r.variant.None? && r.innerContent == m.innerContent
  {
  }
}

=== FILE: common.dfy ===
/** Shared vocabulary of the site's route handlers: optional values, form
    fields, the error keys the handlers report, redirect targets, bilingual
    titles, and MongoDB ObjectId strings. */
module Common {

  datatype Option<+T> = None | Some(value: T) {
    function GetOr(default: T): T {
      match this
      case Some(v) => v
      case None => default
    }
  }

  /** One key/value pair of a URL query string, in order of appearance. */
  datatype Param = Param(key: string, value: string)

  type Query = seq<Param>

  /** A redirect target: a path plus the query parameters appended to it. */
  datatype Location = Location(path: string, query: Query)

  /** What `formData.get(name)` yields: nothing, a text value or an uploaded file. */
  datatype FormValue = Missing | Text(text: string) | Blob

  /** The handlers' `!x || typeof x !== "string"` test, negated: a non-empty string. */
  predicate Filled(v: FormValue) {
    v.Text? && v.text != ""
  }

  /** The same test for a route parameter, which is a string or undefined. */
  predicate FilledParam(p: Option<string>) {
    p.Some? && p.value != ""
  }

  /** JavaScript's `x || ""` on a form value. */
  function TextOrEmpty(v: FormValue): string {
    if v.Text? then v.text else ""
  }

  /** A title given in both site languages: Estonian (ee) and Russian (ru). */
  datatype Title = Title(ee: string, ru: string)

  /** The boolean flags that the handlers put into `errors: {...}`. */
  datatype ErrorKey =
    | NoFilesSelected | ErrorWithFiles | NoGalleryExists | NoGalleryDirectory
    | NoSelectedGalleryCategory | NoImage | NotAFile | NoFileExists | ErrorDuringDelete
    | NoCategoryNameEE | NoCategoryNameRU | NoCategoryId
    | DuplicatedFieldEE | DuplicatedFieldRU | ServerSideError
    | NoItemProvided | NoParentItemProvided
    | NewServiceTitleEE | NewServiceTitleRU | NoNewServicePrice
    | CategoryToAppendItemIn | NewServicePriceType | InvalidAdditionalInfo | ContentItemToChange
    | ProceedAgreementWasNotProvided | NoCredentialsProvided | InvalidTs | FormExpired
    | InvalidEmail | HugeMessage | ErrorDuringRequest
    | NoItemIdProvided | NoEmailProvided | NoTelProvided | NoAddressProvided

  /** What a loader or action hands back to the router. */
  datatype Reply<+T> =
    | Ok(value: T)                 // `{ ok: true, ... }`
    | Fail(errors: set<ErrorKey>)  // `{ ok: false, errors: { ... } }`
    | FailWithError                // `{ ok: false, error }`: the caught exception is passed on
    | Redirect(to: Location)       // `redirect(...)`, returned or thrown
    | Throw(status: nat)           // `throw new Response(..., { status })`
    | NoReply                      // `null`

  /** A handler's reply together with the state it leaves behind. */
  datatype Step<+S, +T> = Step(reply: Reply<T>, state: S)

  function LoginRedirect<T>(): Reply<T> {
    Redirect(Location("/login", []))
  }

  /** The schema's `unique: true` on `title.ee` and on `title.ru`: no two
      records share an Estonian title, and no two share a Russian one. */
  predicate UniqueTitles(ts: seq<Title>) {
    forall i, j :: 0 <= i < j < |ts| ==> ts[i].ee != ts[j].ee && ts[i].ru != ts[j].ru
  }

  /** The schema's `required: true` on both title fields (an empty string fails it). */
  predicate TitleRequired(t: Title) {
    t.ee != "" && t.ru != ""
  }

  /** The error a duplicate-key failure (code 11000) is mapped to when `t` is
      written next to `others`: the first violated key, `title.ee` before
      `title.ru`, or none when both indexes accept `t`. */
  function DuplicateKey(others: seq<Title>, t: Title): (r: Option<ErrorKey>)
    ensures r == Some(DuplicatedFieldEE) <==> exists i :: 0 <= i < |others| && others[i].ee == t.ee
    ensures r == Some(DuplicatedFieldRU) <==>
              (forall i :: 0 <= i < |others| ==> others[i].ee != t.ee)
              && exists i :: 0 <= i < |others| && others[i].ru == t.ru
    ensures r == None <==> forall i :: 0 <= i < |others| ==> others[i].ee != t.ee && others[i].ru != t.ru
  {
    if exists i :: 0 <= i < |others| && others[i].ee == t.ee then Some(DuplicatedFieldEE)
    else if exists i :: 0 <= i < |others| && others[i].ru == t.ru then Some(DuplicatedFieldRU)
    else None
  }

  /** Appending a title that the duplicate-key check accepts keeps titles unique. */
  lemma AppendUniqueTitle(ts: seq<Title>, t: Title)
    requires UniqueTitles(ts)
    requires DuplicateKey(ts, t) == None
    ensures UniqueTitles(ts + [t])
  {
  }

  /** One `errors.key = true` assignment under a condition. */
  function Flag(cond: bool, key: ErrorKey): (r: set<ErrorKey>)
    ensures key in r <==> cond
    ensures r <= {key}
  {
    if cond then {key} else {}
  }

  /** The two name checks of the create forms: one flag per missing name. */
  function MissingNames(ee: FormValue, ru: FormValue): (r: set<ErrorKey>)
    ensures NoCategoryNameEE in r <==> !Filled(ee)
    ensures NoCategoryNameRU in r <==> !Filled(ru)
    ensures r <= {NoCategoryNameEE, NoCategoryNameRU}
  {
    (if Filled(ee) then {} else {NoCategoryNameEE}) + (if Filled(ru) then {} else {NoCategoryNameRU})
  }

  // ----- ObjectId strings -----

  predicate IsHexDigit(c: char) {
    '0' <= c <= '9' || 'a' <= c <= 'f' || 'A' <= c <= 'F'
  }

  /** Strings that `new mongoose.Types.ObjectId(s)` accepts; any other string makes it throw. */
  predicate ValidObjectId(s: string) {
    |s| == 24 && forall i :: 0 <= i < |s| ==> IsHexDigit(s[i])
  }

  function LowerHex(c: char): char {
    if 'A' <= c <= 'F' then (c as int + 32) as char else c
  }

  /** `new ObjectId(s).toString()`: the id with its hex digits in lower case. */
  function Canonical(s: string): (r: string)
    ensures |r| == |s|
    ensures forall i :: 0 <= i < |s| ==> r[i] == LowerHex(s[i])
  {
    seq(|s|, i requires 0 <= i < |s| => LowerHex(s[i]))
  }

  /** The form in which the database stores and prints an id. */
  predicate CanonicalId(s: string) {
    ValidObjectId(s) && forall i :: 0 <= i < |s| ==> !('A' <= s[i] <= 'F')
  }

  /** Parsing a valid id yields a stored-form id, and a stored-form id parses to itself. */
  lemma CanonicalIsCanonical(s: string)
    requires ValidObjectId(s)
    ensures CanonicalId(Canonical(s))
    ensures CanonicalId(s) ==> Canonical(s) == s
  {
  }

  lemma NoneIsNotAnId()
    ensures !ValidObjectId("none")
  {
  }

  // ----- lookup of a record by its key -----

  /** The position of the first record whose key is `id`, or -1: the record
      that `findOne`, `findOneAndUpdate`, `deleteOne` and `findOneAndDelete`
      act on when they match one field. */
  function IndexOf<T>(xs: seq<T>, idOf: T -> string, id: string): (r: int)
    ensures -1 <= r < |xs|
    ensures r >= 0 ==> idOf(xs[r]) == id && forall j :: 0 <= j < r ==> idOf(xs[j]) != id
    ensures r < 0 <==> forall j :: 0 <= j < |xs| ==> idOf(xs[j]) != id
  {
    if |xs| == 0 then -1
    else if idOf(xs[0]) == id then 0
    else
      var k := IndexOf(xs[1..], idOf, id);
      assert forall j :: 1 <= j < |xs| ==> xs[j] == xs[1..][j - 1];
      if k < 0 then -1 else k + 1
  }

  /** Two sequences with the same ids position-wise find an id at the same place. */
  lemma IndexOfSameIds<T>(xs: seq<T>, ys: seq<T>, idOf: T -> string, id: string)
    requires |xs| == |ys|
    requires forall j :: 0 <= j < |xs| ==> idOf(xs[j]) == idOf(ys[j])
    ensures IndexOf(xs, idOf, id) == IndexOf(ys, idOf, id)
  {
  }

  /** With pairwise distinct ids, the record found is the only one with that id. */
  lemma IndexOfDistinct<T>(xs: seq<T>, idOf: T -> string, i: int)
    requires 0 <= i < |xs|
    requires forall a, b :: 0 <= a < b < |xs| ==> idOf(xs[a]) != idOf(xs[b])
    ensures IndexOf(xs, idOf, idOf(xs[i])) == i
  {
  }

  // ----- small string helpers -----

  predicate StartsWith(s: string, prefix: string) {
    |prefix| <= |s| && s[..|prefix|] == prefix
  }

  predicate ContainsChar(s: string, c: char) {
    exists i :: 0 <= i < |s| && s[i] == c
  }

  /** Sequence elements pairwise distinct. */
  predicate Distinct<T(==)>(xs: seq<T>) {
    forall i, j :: 0 <= i < j < |xs| ==> xs[i] != xs[j]
  }
}

=== FILE: contact_info.dfy ===
/** The site's contact details: a single record with key `"contactInfo"`,
    read by the admin page and overwritten by its form. */
module ContactInfo {
  import opened Common

  datatype Contact = Contact(id: string, tel: string, email: string, address: string)

  /** The key of the one record the pages read and write. */
  const SingletonKey := "contactInfo"

  /** The schema: every field required. */
  predicate ValidContact(c: Contact) {
    c.id != "" && c.tel != "" && c.email != "" && c.address != ""
  }

  function ContactKey(c: Contact): string { c.id }

  /** The admin page's loader. A missing record makes it throw a bare
      `Response`, whose status is 200. */
  function LoadContact(isAdmin: bool, db: seq<Contact>, dbDown: bool): (r: Reply<Contact>)
    ensures !isAdmin ==> r == LoginRedirect()
    ensures isAdmin && !r.Ok? ==> r == Throw(200)
    ensures r.Ok? <==> isAdmin && !dbDown && exists j :: 0 <= j < |db| && db[j].id == SingletonKey
    ensures r.Ok? ==> r.value.id == SingletonKey
                      && exists i :: 0 <= i < |db| && db[i] == r.value
                                     && forall j :: 0 <= j < i ==> db[j].id != SingletonKey
  {
    if !isAdmin then LoginRedirect()
    else if dbDown then Throw(200)
    else
      var i := IndexOf(db, ContactKey, SingletonKey);
      if i < 0 then Throw(200) else Ok(db[i])
  }

  /** The fields in the order the action checks them; only the first missing
      one is reported. */
  function FirstMissing(email: FormValue, tel: FormValue, address: FormValue): (r: Option<ErrorKey>)
    ensures r == Some(NoEmailProvided) <==> !Filled(email)
    ensures r == Some(NoTelProvided) <==> Filled(email) && !Filled(tel)
    ensures r == Some(NoAddressProvided) <==> Filled(email) && Filled(tel) && !Filled(address)
    ensures r == None <==> Filled(email) && Filled(tel) && Filled(address)
  {
    if !Filled(email) then Some(NoEmailProvided)
    else if !Filled(tel) then Some(NoTelProvided)
    else if !Filled(address) then Some(NoAddressProvided)
    else None
  }

  /** The admin page's action: overwrite tel, e-mail and address of the
      singleton. Without the record the update matches nothing and still
      answers `ok`. */
  function UpdateContact(isAdmin: bool, db: seq<Contact>, email: FormValue, tel: FormValue, address: FormValue,
                         dbDown: bool): (r: Step<seq<Contact>, ()>)
    ensures !isAdmin ==> r == Step(LoginRedirect(), db)
    ensures isAdmin && FirstMissing(email, tel, address).Some? ==>
              r == Step(Fail({FirstMissing(email, tel, address).value}), db)
    ensures isAdmin && FirstMissing(email, tel, address).None? && dbDown ==> r == Step(Fail({ServerSideError}), db)
    ensures r.reply.Ok? <==> isAdmin && FirstMissing(email, tel, address).None? && !dbDown
    ensures |r.state| == |db|
    ensures r.reply.Ok? ==> forall j :: 0 <= j < |db| ==>
              r.state[j] == if j == IndexOf(db, ContactKey, SingletonKey)
                            then Contact(db[j].id, tel.text, email.text, address.text) else db[j]
  {
    if !isAdmin then Step(LoginRedirect(), db)
    else match FirstMissing(email, tel, address)
      case Some(k) => Step(Fail({k}), db)
      case None =>
        if dbDown then Step(Fail({ServerSideError}), db)
        else
          var i := IndexOf(db, ContactKey, SingletonKey);
          if i < 0 then Step(Ok(()), db)
          else Step(Ok(()), db[i := Contact(db[i].id, tel.text, email.text, address.text)])
  }

  /** A saved update is what the page shows next, and the record stays valid. */
  lemma UpdateThenLoad(db: seq<Contact>, email: string, tel: string, address: string)
    requires IndexOf(db, ContactKey, SingletonKey) >= 0
    requires email != "" && tel != "" && address != ""
    ensures var r := UpdateContact(true, db, Text(email), Text(tel), Text(address), false);
            && r.reply.Ok?
            && LoadContact(true, r.state, false) == Ok(Contact(SingletonKey, tel, email, address))
            && ValidContact(LoadContact(true, r.state, false).value)
  {
    var r := UpdateContact(true, db, Text(email), Text(tel), Text(address), false);
    IndexOfSameIds(db, r.state, ContactKey, SingletonKey);
  }

  /** A form missing both the e-mail and the phone reports only the e-mail. */
  lemma OnlyFirstMissingReported(db: seq<Contact>, address: FormValue)
    ensures UpdateContact(true, db, Missing, Missing, address, false).reply == Fail({NoEmailProvided})
  {
  }
}

=== FILE: gallery_images.dfy ===
/** The images of one gallery category: the batch upload into
    `public/gallery/<id>`, the single-image delete, the admin loader that lists
    the folder as `/gallery/<id>/<entry>` paths, and the delete action URL an
    image card builds from such a path, as the router reads it back. */
module GalleryImages {
  import opened Common
  import opened Paths
  import opened GalleryStore
  import opened RouteUrl

  // ----- batch upload -----

  /** One value of the multipart field `images`: a text value, or a file with
      its client-side name and the browser-supplied MIME type. */
  datatype Part = TextPart(text: string) | FilePart(name: string, mime: string)

  /** `formData.getAll("images").filter(v => v instanceof File)`. */
  function FileParts(parts: seq<Part>): (r: seq<Part>)
    ensures forall p :: p in r <==> p in parts && p.FilePart?
    ensures forall p: Part :: p.FilePart? ==> multiset(r)[p] == multiset(parts)[p]
    ensures |r| <= |parts|
  {
    if |parts| == 0 then []
    else
      var rest := FileParts(parts[1..]);
      assert parts == [parts[0]] + parts[1..];
      (if parts[0].FilePart? then [parts[0]] else []) + rest
  }

  /** The filter keeps the order of the files: filtering a concatenation
      concatenates the filtered halves. */
  lemma {:induction false} FilePartsAppend(a: seq<Part>, b: seq<Part>)
    ensures FileParts(a + b) == FileParts(a) + FileParts(b)
  {
    if |a| == 0 {
      assert a + b == b;
    } else {
      assert (a + b)[1..] == a[1..] + b;
      FilePartsAppend(a[1..], b);
    }
  }

  /** The MIME check `file.type.startsWith("image/")`. */
  predicate IsImageType(mime: string) {
    StartsWith(mime, "image/")
  }

  /** How one exclusive create (`writeFile` with flag `wx`) fails other than
      with "exists": the open fails and leaves nothing behind, or the open
      creates the file and the write into it fails, leaving an empty or partial
      file under the name. */
  datatype WriteFault = OpenFails | WriteFails

  /** What one write of the batch did; a `Partial` write leaves an entry that
      neither reply list reports. */
  datatype Outcome = Created | Conflicted | Lost | Partial

  /** The outcomes that leave a file under the name. */
  const Written: set<Outcome> := {Created, Partial}

  /** The entry names of a folder. */
  function Listing(entries: seq<Entry>): seq<string> {
    Names(entries)
  }

  /** The `k`-th write created its file, whether or not its content got written. */
  predicate Opened(faults: map<nat, WriteFault>, k: nat) {
    k !in faults || faults[k] == WriteFails
  }

  /** Closed form of the outcome of the `k`-th write of a batch of basenames
      `names` into a folder whose names were `existing`, when the writes at the
      positions in `faults` fail as given. A write conflicts when its target
      resolves to a directory, is already in the folder, or was created by an
      earlier write of the same batch, even one whose content then failed. */
  function Classify(existing: seq<string>, names: seq<string>, faults: map<nat, WriteFault>, k: nat): Outcome
    requires k < |names|
  {
    if DirectoryAlias(names[k]) || names[k] in existing
       || exists j :: 0 <= j < k && names[j] == names[k] && Opened(faults, j)
    then Conflicted
    else if k !in faults then Created
    else if faults[k] == OpenFails then Lost
    else Partial
  }

  /** The names among the first `k` of the batch whose outcome is in `os`, in batch order. */
  function Pick(existing: seq<string>, names: seq<string>, faults: map<nat, WriteFault>, os: set<Outcome>, k: nat): (r: seq<string>)
    requires k <= |names|
    ensures |r| <= k
    ensures forall n :: n in r ==> exists j :: 0 <= j < k && names[j] == n && Classify(existing, names, faults, j) in os
  {
    if k == 0 then []
    else
      Pick(existing, names, faults, os, k - 1)
      + (if Classify(existing, names, faults, k - 1) in os then [names[k - 1]] else [])
  }

  /** The directory entries that the written names become. */
  function NewFiles(names: seq<string>): (r: seq<Entry>)
    ensures |r| == |names|
    ensures forall i :: 0 <= i < |names| ==> r[i] == Entry(names[i], RegularFile)
  {
    seq(|names|, i requires 0 <= i < |names| => Entry(names[i], RegularFile))
  }

  /** A name new to the folder was left there by an earlier write of the batch
      exactly when an earlier write of it got past the open. */
  lemma {:induction false} WrittenEarlier(existing: seq<string>, names: seq<string>, faults: map<nat, WriteFault>, k: nat, n: string)
    requires k <= |names|
    requires !DirectoryAlias(n) && n !in existing
    ensures n in Pick(existing, names, faults, Written, k) <==>
            exists j :: 0 <= j < k && names[j] == n && Opened(faults, j)
  {
    if k > 0 {
      WrittenEarlier(existing, names, faults, k - 1, n);
      var p := Pick(existing, names, faults, Written, k - 1);
      if exists j :: 0 <= j < k && names[j] == n && Opened(faults, j) {
        if !(exists j :: 0 <= j < k - 1 && names[j] == n && Opened(faults, j)) {
          assert names[k - 1] == n && Opened(faults, k - 1);
          assert Classify(existing, names, faults, k - 1) in Written;
        }
      }
      if n in Pick(existing, names, faults, Written, k) && n !in p {
        assert Classify(existing, names, faults, k - 1) in Written;
      }
    }
  }

  /** A write conflicts exactly when its name is a directory alias or is
      already listed: in the folder before the batch or left by an earlier write. */
  lemma ConflictFromListing(existing: seq<string>, names: seq<string>, faults: map<nat, WriteFault>, k: nat)
    requires k < |names|
    ensures Classify(existing, names, faults, k) == Conflicted <==>
            DirectoryAlias(names[k]) || names[k] in existing + Pick(existing, names, faults, Written, k)
  {
    if !DirectoryAlias(names[k]) && names[k] !in existing {
      WrittenEarlier(existing, names, faults, k, names[k]);
    }
  }

  /** The folder after the first `i` writes of the batch, with the two reply
      lists and the names left behind so far. */
  predicate WritesUpTo(entries: seq<Entry>, names: seq<string>, faults: map<nat, WriteFault>, i: nat,
                       cur: seq<Entry>, written: seq<string>, uploaded: seq<string>, conflicted: seq<string>)
    requires i <= |names|
  {
    var existing := Listing(entries);
    && uploaded == Pick(existing, names, faults, {Created}, i)
    && conflicted == Pick(existing, names, faults, {Conflicted}, i)
    && written == Pick(existing, names, faults, Written, i)
    && cur == entries + NewFiles(written)
    && Listing(cur) == existing + written
    && NodeOk(Folder(cur))
  }

  /** Write `i` of the batch: create `names[i]` with `wx`; an existing target
      is reported as conflicted, a failed open leaves nothing, a failed write
      leaves the file unreported. */
  method WriteOne(entries: seq<Entry>, names: seq<string>, faults: map<nat, WriteFault>, i: nat,
                  cur: seq<Entry>, written: seq<string>, uploaded: seq<string>, conflicted: seq<string>)
    returns (cur': seq<Entry>, written': seq<string>, uploaded': seq<string>, conflicted': seq<string>)
    requires forall k :: 0 <= k < |names| ==> PlainName(names[k]) || DirectoryAlias(names[k])
    requires i < |names|
    requires WritesUpTo(entries, names, faults, i, cur, written, uploaded, conflicted)
    ensures WritesUpTo(entries, names, faults, i + 1, cur', written', uploaded', conflicted')
  {
    var existing := Listing(entries);
    var n := names[i];
    ConflictFromListing(existing, names, faults, i);
    cur', written', uploaded', conflicted' := cur, written, uploaded, conflicted;
    if DirectoryAlias(n) || n in Listing(cur) {
      conflicted' := conflicted + [n];
    } else if i in faults && faults[i] == OpenFails {
    } else {
      assert PlainName(n);
      AppendFile(cur, n);
      NewFilesSnoc(written, n);
      cur' := cur + [Entry(n, RegularFile)];
      written' := written + [n];
      if i !in faults {
        uploaded' := uploaded + [n];
      }
    }
  }

  /** The write loop of the upload action over the first `stop` names, one
      `WriteOne` per name in batch order. */
  method WriteAll(entries: seq<Entry>, names: seq<string>, faults: map<nat, WriteFault>, stop: nat)
    returns (entries': seq<Entry>, uploaded: seq<string>, conflicted: seq<string>)
    requires NodeOk(Folder(entries))
    requires forall k :: 0 <= k < |names| ==> PlainName(names[k]) || DirectoryAlias(names[k])
    requires stop <= |names|
    ensures uploaded == Pick(Listing(entries), names, faults, {Created}, stop)
    ensures conflicted == Pick(Listing(entries), names, faults, {Conflicted}, stop)
    ensures entries' == entries + NewFiles(Pick(Listing(entries), names, faults, Written, stop))
    ensures NodeOk(Folder(entries'))
  {
    var written: seq<string> := [];
    entries', uploaded, conflicted := entries, [], [];
    assert entries + NewFiles([]) == entries;
    var i := 0;
    while i < stop
      invariant 0 <= i <= stop
      invariant WritesUpTo(entries, names, faults, i, entries', written, uploaded, conflicted)
    {
      entries', written, uploaded, conflicted := WriteOne(entries, names, faults, i, entries', written, uploaded, conflicted);
      i := i + 1;
    }
  }

  /** Adding a new plain name to a well-formed folder keeps it well-formed
      and lists the name last. */
  lemma AppendFile(entries: seq<Entry>, n: string)
    requires NodeOk(Folder(entries)) && PlainName(n) && n !in Listing(entries)
    ensures NodeOk(Folder(entries + [Entry(n, RegularFile)]))
    ensures Listing(entries + [Entry(n, RegularFile)]) == Listing(entries) + [n]
  {
    assert Listing(entries + [Entry(n, RegularFile)]) == Listing(entries) + [n];
  }

  lemma NewFilesSnoc(names: seq<string>, n: string)
    ensures NewFiles(names + [n]) == NewFiles(names) + [Entry(n, RegularFile)]
  {
    assert NewFiles(names + [n]) == NewFiles(names) + [Entry(n, RegularFile)];
  }

  /** The reply of a successful upload. */
  datatype Uploaded = Uploaded(uploaded: seq<string>, conflicted: seq<string>)

  /** Every check before the write loop passes: an admin, a filled category,
      at least one file, only images, a stored category and its folder. */
  predicate ReachesWrites(isAdmin: bool, st: State, param: Option<string>, parts: seq<Part>, dbDown: bool) {
    && isAdmin && FilledParam(param) && |FileParts(parts)| > 0
    && (forall p :: p in FileParts(parts) ==> IsImageType(p.mime))
    && !dbDown && ValidObjectId(param.value) && Find(st.db, param.value).Some?
    && IsFolder(st.root, param.value)
  }

  /** The target basenames of the file parts, in order. */
  function BatchNames(parts: seq<Part>): (r: seq<string>)
    ensures |r| == |FileParts(parts)|
  {
    var files := FileParts(parts);
    seq(|files|, k requires 0 <= k < |files| => Basename(files[k].name))
  }

  /** Reading the content of file `readFails.value` of a batch of `n` rejects. */
  predicate ReadStops(readFails: Option<nat>, n: nat) {
    readFails.Some? && readFails.value < n
  }

  /** `POST /admin/gallery/:selectedGalleryCategory/new-images`. `dbDown`
      stands for a failing database; `faults` maps batch positions to the way
      their write fails other than with "exists"; `readFails` is the position
      whose content cannot be read, if any, which ends the loop. */
  method Upload(isAdmin: bool, st: State, param: Option<string>, parts: seq<Part>,
                dbDown: bool, faults: map<nat, WriteFault>, readFails: Option<nat>)
    returns (r: Step<State, Uploaded>)
    requires StateOk(st)
    ensures StateOk(r.state)
    ensures r.state.db == st.db
    ensures !isAdmin ==> r == Step(LoginRedirect(), st)
    ensures isAdmin && !FilledParam(param) ==> r == Step(Redirect(Location("/admin/gallery", [])), st)
    // a failed reply writes nothing, unless the loop had begun
    ensures !r.reply.Ok? && !(ReachesWrites(isAdmin, st, param, parts, dbDown) && ReadStops(readFails, |FileParts(parts)|))
            ==> r.state == st
    ensures isAdmin && FilledParam(param) && |FileParts(parts)| == 0 ==> r.reply == Fail({NoFilesSelected})
    ensures (isAdmin && FilledParam(param) && |FileParts(parts)| > 0
             && exists p :: p in FileParts(parts) && !IsImageType(p.mime)) ==> r.reply == Fail({ErrorWithFiles})
    ensures r.reply.Ok? ==> ReachesWrites(isAdmin, st, param, parts, dbDown) && !ReadStops(readFails, |FileParts(parts)|)
    ensures isAdmin && FilledParam(param) && |FileParts(parts)| > 0
            && (forall p :: p in FileParts(parts) ==> IsImageType(p.mime))
            && (dbDown || !ValidObjectId(param.value) || Find(st.db, param.value).None?)
            ==> r.reply == Fail({NoGalleryExists})
    ensures r.reply == Fail({NoGalleryDirectory}) <==>
              && isAdmin && FilledParam(param) && |FileParts(parts)| > 0
              && (forall p :: p in FileParts(parts) ==> IsImageType(p.mime))
              && !dbDown && ValidObjectId(param.value) && Find(st.db, param.value).Some?
              && (!IsFolder(st.root, param.value) || ReadStops(readFails, |FileParts(parts)|))
    // an unreadable file ends the loop: the writes before it stay
    ensures ReachesWrites(isAdmin, st, param, parts, dbDown) && ReadStops(readFails, |FileParts(parts)|) ==>
              var entries := st.root[param.value].entries;
              r.state.root == st.root[param.value := Folder(entries + NewFiles(
                Pick(Listing(entries), BatchNames(parts), faults, Written, readFails.value)))]
    // success: the lists are the created and the conflicted names, and the
    // folder gains every name some write left behind, at its end
    ensures r.reply.Ok? ==>
              var names := BatchNames(parts);
              var entries := st.root[param.value].entries;
              var existing := Listing(entries);
              && r.reply.value.uploaded == Pick(existing, names, faults, {Created}, |names|)
              && r.reply.value.conflicted == Pick(existing, names, faults, {Conflicted}, |names|)
              && r.state.root == st.root[param.value := Folder(entries + NewFiles(Pick(existing, names, faults, Written, |names|)))]
  {
    if !isAdmin {
      return Step(LoginRedirect(), st);
    }
    if !FilledParam(param) {
      return Step(Redirect(Location("/admin/gallery", [])), st);
    }
    var files := FileParts(parts);
    if |files| == 0 {
      return Step(Fail({NoFilesSelected}), st);
    }
    if exists p :: p in files && !IsImageType(p.mime) {
      return Step(Fail({ErrorWithFiles}), st);
    }
    var key := param.value;
    if dbDown || !ValidObjectId(key) || Find(st.db, key).None? {
      return Step(Fail({NoGalleryExists}), st);
    }
    if !IsFolder(st.root, key) {
      return Step(Fail({NoGalleryDirectory}), st);
    }
    r := WriteBatch(st, key, BatchNames(parts), faults, readFails);
  }

  /** The write stage of the upload into the existing folder `key`: the loop
      over the batch, cut short by an unreadable file. */
  method WriteBatch(st: State, key: string, names: seq<string>, faults: map<nat, WriteFault>, readFails: Option<nat>)
    returns (r: Step<State, Uploaded>)
    requires StateOk(st) && IsFolder(st.root, key)
    requires forall k :: 0 <= k < |names| ==> PlainName(names[k]) || DirectoryAlias(names[k])
    ensures StateOk(r.state) && r.state.db == st.db
    ensures r.reply.Ok? <==> !ReadStops(readFails, |names|)
    ensures !r.reply.Ok? ==> r.reply == Fail({NoGalleryDirectory})
    ensures var entries := st.root[key].entries;
            var stop := if ReadStops(readFails, |names|) then readFails.value else |names|;
            r.state.root == st.root[key := Folder(entries + NewFiles(Pick(Listing(entries), names, faults, Written, stop)))]
    ensures r.reply.Ok? ==>
              var existing := Listing(st.root[key].entries);
              && r.reply.value.uploaded == Pick(existing, names, faults, {Created}, |names|)
              && r.reply.value.conflicted == Pick(existing, names, faults, {Conflicted}, |names|)
  {
    var stop := if ReadStops(readFails, |names|) then readFails.value else |names|;
    var entries', uploaded, conflicted := WriteAll(st.root[key].entries, names, faults, stop);
    var st' := State(st.db, st.root[key := Folder(entries')]);
    if ReadStops(readFails, |names|) {
      r := Step(Fail({NoGalleryDirectory}), st');
    } else {
      r := Step(Ok(Uploaded(uploaded, conflicted)), st');
    }
  }

  /** Every write of the batch has exactly one outcome, so the four lists
      together are as long as the batch; without faults nothing is lost or
      partial. */
  lemma {:induction false} PartitionCounts(existing: seq<string>, names: seq<string>, faults: map<nat, WriteFault>, k: nat)
    requires k <= |names|
    ensures |Pick(existing, names, faults, {Created}, k)| + |Pick(existing, names, faults, {Conflicted}, k)|
            + |Pick(existing, names, faults, {Lost}, k)| + |Pick(existing, names, faults, {Partial}, k)| == k
    ensures (forall j :: 0 <= j < k ==> j !in faults) ==>
              |Pick(existing, names, faults, {Lost}, k)| == 0 && |Pick(existing, names, faults, {Partial}, k)| == 0
  {
    if k > 0 {
      PartitionCounts(existing, names, faults, k - 1);
    }
  }

  /** Without faults the folder gains exactly the names the reply calls uploaded. */
  lemma {:induction false} NoFaultWritesUploaded(existing: seq<string>, names: seq<string>, faults: map<nat, WriteFault>, k: nat)
    requires k <= |names|
    requires forall j :: 0 <= j < k ==> j !in faults
    ensures Pick(existing, names, faults, Written, k) == Pick(existing, names, faults, {Created}, k)
  {
    if k > 0 {
      NoFaultWritesUploaded(existing, names, faults, k - 1);
      assert Classify(existing, names, faults, k - 1) != Partial;
    }
  }

  /** A name repeated within one batch is created at most once: every later
      occurrence after a write that got past the open is reported as conflicted. */
  lemma RepeatedNameConflicts(existing: seq<string>, names: seq<string>, faults: map<nat, WriteFault>, j: nat, k: nat)
    requires j < k < |names| && names[j] == names[k] && Opened(faults, j)
    ensures Classify(existing, names, faults, k) == Conflicted
  {
  }

  /** A name already in the folder is never overwritten: it is reported as
      conflicted, and no write of the batch leaves a file under it. */
  lemma ExistingNameConflicts(existing: seq<string>, names: seq<string>, faults: map<nat, WriteFault>, k: nat)
    requires k < |names| && names[k] in existing
    ensures Classify(existing, names, faults, k) == Conflicted
    ensures names[k] !in Pick(existing, names, faults, Written, |names|)
  {
  }

  /** An example batch: uploading `a.png`, `dir/a.png` and `b.png` into a
      folder that already holds `b.png` creates `a.png` once and reports the
      other two as conflicted, in batch order. */
  lemma UploadExample()
    ensures var names := [Basename("a.png"), Basename("dir/a.png"), Basename("b.png")];
            && Pick(["b.png"], names, map[], {Created}, 3) == ["a.png"]
            && Pick(["b.png"], names, map[], {Conflicted}, 3) == ["a.png", "b.png"]
  {
    ExampleBasenames();
    ExamplePick();
  }

  lemma ExampleBasenames()
    ensures [Basename("a.png"), Basename("dir/a.png"), Basename("b.png")] == ["a.png", "a.png", "b.png"]
  {
    assert NoSlash("a.png") && NoSlash("b.png");
    BasenameOfJoin("dir", "a.png");
    assert "dir/a.png" == "dir" + "/" + "a.png";
  }

  lemma ExamplePick()
    ensures Pick(["b.png"], ["a.png", "a.png", "b.png"], map[], {Created}, 3) == ["a.png"]
    ensures Pick(["b.png"], ["a.png", "a.png", "b.png"], map[], {Conflicted}, 3) == ["a.png", "b.png"]
  {
    var e := ["b.png"];
    var names := ["a.png", "a.png", "b.png"];
    var none: map<nat, WriteFault> := map[];
    assert "a.png" != "b.png" by { assert "a.png"[0] != "b.png"[0]; }
    assert Classify(e, names, none, 0) == Created;
    assert Classify(e, names, none, 1) == Conflicted by { assert names[0] == names[1]; }
    assert Classify(e, names, none, 2) == Conflicted by { assert names[2] in e; }
    assert Pick(e, names, none, {Created}, 1) == ["a.png"];
    assert Pick(e, names, none, {Conflicted}, 1) == [];
  }

  /** A write that creates `a.png` and then fails leaves a file nobody is told
      about, and the retry of `a.png` in the same batch is refused as
      conflicted: the folder holds `a.png`, the reply lists none as uploaded. */
  lemma PartialWriteExample()
    ensures var f := map[0 := WriteFails];
            && Pick([], ["a.png", "a.png"], f, {Created}, 2) == []
            && Pick([], ["a.png", "a.png"], f, {Conflicted}, 2) == ["a.png"]
            && Pick([], ["a.png", "a.png"], f, Written, 2) == ["a.png"]
  {
    var names := ["a.png", "a.png"];
    var f: map<nat, WriteFault> := map[0 := WriteFails];
    assert Classify([], names, f, 0) == Partial;
    assert Classify([], names, f, 1) == Conflicted by { assert names[0] == names[1] && Opened(f, 0); }
  }

  // ----- single image delete -----

  /** I/O failures the delete can meet besides a missing target. */
  datatype IoFault = NoIoFault | StatFails | UnlinkFails

  /** The entry at `name` in `entries`, if any. */
  function Lookup(entries: seq<Entry>, name: string): (r: Option<Entry>)
    ensures r.Some? ==> r.value in entries && r.value.name == name
    ensures r.None? <==> name !in Names(entries)
  {
    if |entries| == 0 then None
    else if entries[0].name == name then Some(entries[0])
    else
      var r := Lookup(entries[1..], name);
      assert Names(entries) == [entries[0].name] + Names(entries[1..]);
      r
  }

  /** `entries` without the entry called `name`. */
  function RemoveEntry(entries: seq<Entry>, name: string): (r: seq<Entry>)
    ensures forall e :: e in r <==> e in entries && e.name != name
  {
    if |entries| == 0 then []
    else if entries[0].name == name then RemoveEntry(entries[1..], name)
    else [entries[0]] + RemoveEntry(entries[1..], name)
  }

  /** The file stage of the delete, inside an existing folder: `stat` the
      target `name`, refuse anything that is not a regular file, then unlink it. */
  function UnlinkIn(entries: seq<Entry>, name: string, fault: IoFault): (r: Step<seq<Entry>, ()>)
    requires NodeOk(Folder(entries))
    requires PlainName(name) || DirectoryAlias(name)
    ensures NodeOk(Folder(r.state))
    ensures !r.reply.Ok? ==> r.state == entries
    ensures r.reply.Ok? || r.reply.Fail?
    ensures r.reply == Fail({ErrorDuringDelete}) <==>
              fault == StatFails || (fault == UnlinkFails && PlainName(name) && Entry(name, RegularFile) in entries)
    ensures r.reply == Fail({NotAFile}) <==>
              fault != StatFails && (DirectoryAlias(name) || Entry(name, Subdirectory) in entries)
    ensures r.reply == Fail({NoFileExists}) <==>
              fault != StatFails && PlainName(name) && name !in Names(entries)
    ensures r.reply.Ok? <==> fault == NoIoFault && PlainName(name) && Entry(name, RegularFile) in entries
    // exactly that one file is gone, every other entry stays
    ensures r.reply.Ok? ==>
              && r.state == RemoveEntry(entries, name)
              && name !in Names(r.state)
              && (forall e :: e in entries && e.name != name ==> e in r.state)
              && |r.state| == |entries| - 1
  {
    if fault == StatFails then Step(Fail({ErrorDuringDelete}), entries)
    else if DirectoryAlias(name) then
      NamesArePlain(entries);
      Step(Fail({NotAFile}), entries)
    else
      LookupByEntry(entries, name);
      match Lookup(entries, name)
      case None => Step(Fail({NoFileExists}), entries)
      case Some(e) =>
        if e.kind == Subdirectory then Step(Fail({NotAFile}), entries)
        else
          assert e.kind.RegularFile? && e == Entry(name, RegularFile);
          if fault == UnlinkFails then Step(Fail({ErrorDuringDelete}), entries)
          else
          assert fault == NoIoFault && name in Names(entries);
          RemoveEntryKeepsNodeOk(entries, name);
          RemoveEntryCount(entries, name);
          Step(Ok(()), RemoveEntry(entries, name))
  }

  lemma NamesArePlain(entries: seq<Entry>)
    requires NodeOk(Folder(entries))
    ensures forall e :: e in entries ==> PlainName(e.name)
  {
  }

  /** In a folder with distinct names, looking a name up finds the entry of that name. */
  lemma LookupByEntry(entries: seq<Entry>, name: string)
    requires NodeOk(Folder(entries))
    ensures forall k :: Entry(name, k) in entries <==> Lookup(entries, name) == Some(Entry(name, k))
    ensures name in Names(entries) <==> Lookup(entries, name).Some?
  {
    forall k | Entry(name, k) in entries ensures Lookup(entries, name) == Some(Entry(name, k)) {
      var i :| 0 <= i < |entries| && entries[i] == Entry(name, k);
      var l := Lookup(entries, name).value;
      var j :| 0 <= j < |entries| && entries[j] == l;
      assert Names(entries)[i] == Names(entries)[j];
    }
  }

  /** `POST /admin/gallery/:selectedGalleryCategory/:image/delete`: check the
      parameters, the record and the folder, then unlink
      `<folder>/basename(image)` if it is a regular file. */
  function DeleteImage(isAdmin: bool, st: State, category: Option<string>, image: Option<string>,
                       dbDown: bool, fault: IoFault): (r: Step<State, ()>)
    requires StateOk(st)
    ensures StateOk(r.state) && r.state.db == st.db
    ensures !r.reply.Ok? ==> r.state == st
    ensures !isAdmin ==> r == Step(LoginRedirect(), st)
    ensures isAdmin && (!FilledParam(category) || !FilledParam(image)) ==>
              && r.reply.Fail?
              && (NoSelectedGalleryCategory in r.reply.errors <==> !FilledParam(category))
              && (NoImage in r.reply.errors <==> !FilledParam(image))
              && r.reply.errors <= {NoSelectedGalleryCategory, NoImage}
    ensures isAdmin && FilledParam(category) && FilledParam(image)
            && (dbDown || !ValidObjectId(category.value) || Find(st.db, category.value).None?) ==>
              r.reply == Fail({NoGalleryExists})
    ensures isAdmin && FilledParam(category) && FilledParam(image)
            && !dbDown && ValidObjectId(category.value) && Find(st.db, category.value).Some?
            && !IsFolder(st.root, category.value) ==>
              r.reply == Fail({NoGalleryDirectory})
    // inside the folder, only the entry named by the basename is considered
    ensures isAdmin && FilledParam(category) && FilledParam(image)
            && !dbDown && ValidObjectId(category.value) && Find(st.db, category.value).Some?
            && IsFolder(st.root, category.value) ==>
              var step := UnlinkIn(st.root[category.value].entries, Basename(image.value), fault);
              && r.reply == step.reply
              && r.state.root == st.root[category.value := Folder(step.state)]
  {
    if !isAdmin then Step(LoginRedirect(), st)
    else if !FilledParam(category) || !FilledParam(image) then
      Step(Fail((if FilledParam(category) then {} else {NoSelectedGalleryCategory})
                + (if FilledParam(image) then {} else {NoImage})), st)
    else
      var key := category.value;
      if dbDown || !ValidObjectId(key) || Find(st.db, key).None? then Step(Fail({NoGalleryExists}), st)
      else if !IsFolder(st.root, key) then Step(Fail({NoGalleryDirectory}), st)
      else UnlinkInFolder(st, key, Basename(image.value), fault)
  }

  /** The file stage run on the folder `key` of the whole state. */
  function UnlinkInFolder(st: State, key: string, name: string, fault: IoFault): (r: Step<State, ()>)
    requires StateOk(st) && IsFolder(st.root, key)
    requires PlainName(name) || DirectoryAlias(name)
    ensures StateOk(r.state) && r.state.db == st.db
    ensures !r.reply.Ok? ==> r.state == st
    ensures var step := UnlinkIn(st.root[key].entries, name, fault);
            && r.reply == step.reply
            && r.state.root == st.root[key := Folder(step.state)]
  {
    var step := UnlinkIn(st.root[key].entries, name, fault);
    if step.reply.Ok? then
      ReplaceFolderKeepsStateOk(st, key, step.state);
      Step(Ok(()), State(st.db, st.root[key := Folder(step.state)]))
    else
      SameFolderKeepsRoot(st.root, key);
      Step(step.reply, st)
  }

  /** Writing a folder's own entries back leaves the directory as it was. */
  lemma SameFolderKeepsRoot(root: map<string, Node>, key: string)
    requires IsFolder(root, key)
    ensures root[key := Folder(root[key].entries)] == root
  {
  }

  /** Replacing one folder by a well-formed one keeps the whole state well formed. */
  lemma ReplaceFolderKeepsStateOk(st: State, key: string, entries: seq<Entry>)
    requires StateOk(st) && NodeOk(Folder(entries))
    ensures StateOk(State(st.db, st.root[key := Folder(entries)]))
  {
  }

  /** Removing an entry keeps the folder's names distinct and plain. */
  lemma {:induction false} RemoveEntryKeepsNodeOk(entries: seq<Entry>, name: string)
    requires NodeOk(Folder(entries))
    ensures NodeOk(Folder(RemoveEntry(entries, name)))
    ensures name !in Names(RemoveEntry(entries, name))
  {
    if |entries| > 0 {
      var tail := entries[1..];
      assert Names(tail) == Names(entries)[1..];
      RemoveEntryKeepsNodeOk(tail, name);
      var rest := RemoveEntry(tail, name);
      if entries[0].name != name {
        forall e | e in rest ensures e.name != entries[0].name {
          var k :| 0 <= k < |tail| && tail[k] == e;
          assert Names(entries)[k + 1] == e.name;
        }
        ConsFolderOk(entries[0], rest);
        NamesOfCons(entries[0], rest);
      }
    }
  }

  lemma NamesOfCons(e: Entry, rest: seq<Entry>)
    ensures Names([e] + rest) == [e.name] + Names(rest)
  {
  }

  lemma ConsFolderOk(e: Entry, rest: seq<Entry>)
    requires NodeOk(Folder(rest)) && PlainName(e.name)
    requires forall x :: x in rest ==> x.name != e.name
    ensures NodeOk(Folder([e] + rest))
  {
    var r := [e] + rest;
    forall i, j | 0 <= i < j < |r| ensures Names(r)[i] != Names(r)[j] {
      assert r[j] == rest[j - 1];
      if i > 0 { assert Names(rest)[i - 1] != Names(rest)[j - 1]; }
    }
  }

  /** In a folder with distinct names, deleting a file leaves one entry fewer. */
  lemma {:induction false} RemoveEntryCount(entries: seq<Entry>, name: string)
    requires Distinct(Names(entries)) && name in Names(entries)
    ensures |RemoveEntry(entries, name)| == |entries| - 1
  {
    if entries[0].name == name {
      NameAbsentKeepsAll(entries[1..], name);
    } else {
      assert Names(entries[1..]) == Names(entries)[1..];
      assert name in Names(entries[1..]);
      RemoveEntryCount(entries[1..], name);
    }
  }

  lemma {:induction false} NameAbsentKeepsAll(entries: seq<Entry>, name: string)
    requires name !in Names(entries)
    ensures RemoveEntry(entries, name) == entries
  {
    if |entries| > 0 {
      assert Names(entries[1..]) == Names(entries)[1..];
      assert entries[0].name == Names(entries)[0];
      NameAbsentKeepsAll(entries[1..], name);
    }
  }

  // ----- admin category page: listing and delete links -----

  /** What the category page's loader hands to the page: the stored-form id
      and one public path per folder entry. */
  datatype CategoryPage = CategoryPage(id: string, title: Title, images: seq<string>)

  /** `path.join("/gallery", id, entry)` for a plain entry name and a hex id. */
  function ImagePath(id: string, entry: string): string {
    "/gallery/" + id + "/" + entry
  }

  /** `GET /admin/gallery/:selectedGalleryCategory`. */
  function LoadCategoryPage(isAdmin: bool, st: State, param: Option<string>, query: Query, dbDown: bool): (r: Reply<CategoryPage>)
    ensures !isAdmin ==> r == LoginRedirect()
    ensures isAdmin && !FilledParam(param) ==> r == Throw(400)
    ensures isAdmin && FilledParam(param) && (dbDown || !ValidObjectId(param.value)) ==> r == Throw(500)
    ensures isAdmin && FilledParam(param) && !dbDown && ValidObjectId(param.value) && Find(st.db, param.value).None? ==>
              r == Redirect(Location("/admin/gallery", query))
    ensures r.Ok? <==> isAdmin && FilledParam(param) && !dbDown && ValidObjectId(param.value)
                        && Find(st.db, param.value).Some? && IsFolder(st.root, param.value)
    ensures r.Ok? ==>
              var entries := st.root[param.value].entries;
              && r.value.id == Canonical(param.value)
              && |r.value.images| == |entries|
              && forall i :: 0 <= i < |entries| ==> r.value.images[i] == ImagePath(param.value, entries[i].name)
  {
    if !isAdmin then LoginRedirect()
    else if !FilledParam(param) then Throw(400)
    else
      var key := param.value;
      if dbDown || !ValidObjectId(key) then Throw(500)
      else match Find(st.db, key)
        case None => Redirect(Location("/admin/gallery", query))
        case Some(g) =>
          if !IsFolder(st.root, key) then Throw(500)
          else
            var entries := st.root[key].entries;
            Ok(CategoryPage(g.id, g.title, seq(|entries|, i requires 0 <= i < |entries| => ImagePath(key, entries[i].name))))
  }

  /** The name shown on an image card: the last element of `path.split("/")`. */
  function ImageName(path: string): (r: string)
    ensures NoSlash(r)
  {
    LastSegment(path)
  }

  /** The action route of the delete button of an image card: the id and the
      card's name are pasted into the path unencoded, then the page's own
      search string follows. Read back by the router, it gives the id and the
      name again whenever both are segment-safe. */
  function DeleteRoute(id: string, imageName: string, search: string): (r: string)
    ensures SegmentSafe(id) && SegmentSafe(imageName) && id != "" && imageName != "" && IsSearch(search) ==>
              MatchImageDelete(r) == Some(ImageDeleteParams(id, imageName))
  {
    var r := "/admin/gallery/" + id + "/" + imageName + "/delete" + search;
    if SegmentSafe(id) && SegmentSafe(imageName) && id != "" && imageName != "" && IsSearch(search) then
      DeleteRouteParses(id, imageName, search);
      r
    else r
  }

  /** The path of a delete route, split into its six segments. */
  lemma DeleteRouteSegments(id: string, imageName: string)
    requires SeparatorFree(id) && SeparatorFree(imageName)
    ensures Segments("/admin/gallery/" + id + "/" + imageName + "/delete") == ["", "admin", "gallery", id, imageName, "delete"]
  {
    var fixed := "" + "/" + "admin" + "/" + "gallery" + "/";
    assert "/admin/gallery/" == fixed;
    LeadSegments("admin", "gallery", id);
    SegmentsOfSnoc(fixed + id, imageName);
    var y := fixed + id + "/" + imageName;
    assert y + "/delete" == y + "/" + "delete";
    SegmentsOfSnoc(y, "delete");
  }

  /** Three separator-free segments after a leading `/` split back apart. */
  lemma LeadSegments(a: string, b: string, c: string)
    requires SeparatorFree(a) && SeparatorFree(b) && SeparatorFree(c)
    ensures Segments("" + "/" + a + "/" + b + "/" + c) == ["", a, b, c]
  {
    var p0: string := "";
    SegmentsOfSnoc(p0, a);
    SegmentsOfSnoc(p0 + "/" + a, b);
    SegmentsOfSnoc(p0 + "/" + a + "/" + b, c);
  }

  /** Any delete route whose id and name hold no delimiter or separator
      matches, with the two segments as the router decodes them. */
  lemma DeleteRouteReadBack(id: string, imageName: string, search: string)
    requires SeparatorFree(id) && SeparatorFree(imageName) && NoDelimiter(id) && NoDelimiter(imageName)
    requires id != "" && imageName != "" && IsSearch(search)
    ensures var path := "/admin/gallery/" + id + "/" + imageName + "/delete";
            MatchImageDelete(path + search) == Some(ImageDeleteParams(RouteParam(path, id), RouteParam(path, imageName)))
  {
    var path := "/admin/gallery/" + id + "/" + imageName + "/delete";
    NoDelimiterConcat("/admin/gallery/", id);
    NoDelimiterConcat("/admin/gallery/" + id, "/");
    NoDelimiterConcat("/admin/gallery/" + id + "/", imageName);
    NoDelimiterConcat("/admin/gallery/" + id + "/" + imageName, "/delete");
    PathOfSearch(path, search);
    DeleteRouteSegments(id, imageName);
  }

  /** When every piece decodes, so does the whole delete path. */
  lemma DeleteRouteDecodable(id: string, imageName: string)
    requires Decodable(id) && Decodable(imageName)
    ensures Decodable("/admin/gallery/" + id + "/" + imageName + "/delete")
  {
    DecodableConcat("/admin/gallery/", id);
    DecodableConcat("/admin/gallery/" + id, "/");
    DecodableConcat("/admin/gallery/" + id + "/", imageName);
    DecodableConcat("/admin/gallery/" + id + "/" + imageName, "/delete");
  }

  lemma DeleteRouteParses(id: string, imageName: string, search: string)
    requires SegmentSafe(id) && SegmentSafe(imageName) && id != "" && imageName != "" && IsSearch(search)
    ensures MatchImageDelete("/admin/gallery/" + id + "/" + imageName + "/delete" + search)
              == Some(ImageDeleteParams(id, imageName))
  {
    DeleteRouteReadBack(id, imageName, search);
    DeleteRouteDecodable(id, imageName);
  }

  /** An escape in a listed name is decoded on the way back: the card of
      `a%20b.png` hands the action the name `a b.png`. */
  lemma EscapedNameReadsDecoded(id: string, search: string)
    requires CanonicalId(id) && IsSearch(search)
    ensures MatchImageDelete(DeleteRoute(id, "a%20b.png", search)) == Some(ImageDeleteParams(id, "a b.png"))
  {
    var name := "a%20b.png";
    assert SeparatorFree(name) && NoDelimiter(name);
    DeleteRouteReadBack(id, name, search);
    SpaceInName();
    DeleteRouteDecodable(id, name);
  }

  lemma SpaceInName()
    ensures Decodable("a%20b.png") && PercentDecode("a%20b.png") == "a b.png"
  {
    EscapeOfSpace();
    var e := Escape(' ');
    assert "a%20b.png" == "a" + e + "b.png";
    DecodeOneEscape("a", ' ', "b.png");
    assert "a" + [' '] + "b.png" == "a b.png";
  }

  lemma EscapeOfSpace()
    ensures Escape(' ') == "%20"
  {
    assert ' ' as int / 16 == 2 && ' ' as int % 16 == 0;
    assert HexDigit(2) == '2' && HexDigit(0) == '0';
  }

  /** A `%` that starts no escape makes the decode fail, and the router then
      hands over the raw segment: `100%.png` survives. */
  lemma LoneEscapeKeptRaw(id: string, search: string)
    requires CanonicalId(id) && IsSearch(search)
    ensures MatchImageDelete(DeleteRoute(id, "100%.png", search)) == Some(ImageDeleteParams(id, "100%.png"))
  {
    var name := "100%.png";
    assert SeparatorFree(name) && NoDelimiter(name);
    DeleteRouteReadBack(id, name, search);
    LoneEscapeUndecodable("/admin/gallery/" + id + "/", "/delete");
  }

  /** `100%.png` anywhere in a path makes the whole path undecodable. */
  lemma LoneEscapeUndecodable(pre: string, post: string)
    ensures !Decodable(pre + "100%.png" + post)
  {
    var s := pre + "100%.png" + post;
    assert s[|pre| + 3] == '%' && s[|pre| + 4] == '.';
    assert !EscapeAt(s, |pre| + 3);
  }

  /** A `?` or `#` in a name ends the path inside the name, and the request
      never reaches the delete route. */
  lemma DelimiterCutsRoute(id: string, search: string, cut: char)
    requires CanonicalId(id) && EndsPath(cut)
    ensures MatchImageDelete(DeleteRoute(id, ['a', cut] + "b.png", search)).None?
  {
    var prefix := "/admin/gallery/" + id + "/a";
    var rest := [cut] + "b.png/delete" + search;
    CutRouteShape(id, cut, search);
    NoDelimiterConcat("/admin/gallery/", id);
    NoDelimiterConcat("/admin/gallery/" + id, "/a");
    PathOfSearch(prefix, rest);
    var fixed := "" + "/" + "admin" + "/" + "gallery" + "/";
    assert "/admin/gallery/" == fixed;
    LeadSegments("admin", "gallery", id);
    assert prefix == fixed + id + "/" + "a";
    SegmentsOfSnoc(fixed + id, "a");
  }

  lemma CutRouteShape(id: string, cut: char, search: string)
    ensures "/admin/gallery/" + id + "/" + (['a', cut] + "b.png") + "/delete" + search
            == ("/admin/gallery/" + id + "/a") + ([cut] + "b.png/delete" + search)
  {
    var p := "/admin/gallery/" + id + "/";
    assert p + (['a', cut] + "b.png") == (p + "a") + ([cut] + "b.png");
    assert ([cut] + "b.png") + "/delete" == [cut] + "b.png/delete";
  }

  /** A stored id is hexadecimal, so it reads back as one segment. */
  lemma IdIsSegmentSafe(id: string)
    requires ValidObjectId(id)
    ensures SegmentSafe(id) && id != ""
  {
  }

  /** The displayed name of every listed path is the name of its directory entry. */
  lemma ImageNameOfPath(id: string, entry: string)
    requires PlainName(entry)
    ensures ImageName(ImagePath(id, entry)) == entry
    ensures Basename(ImageName(ImagePath(id, entry))) == entry
  {
    assert ImagePath(id, entry) == ("/gallery/" + id) + "/" + entry;
    BasenameOfJoin("/gallery/" + id, entry);
  }

  /** The folder `key` exists and holds exactly `entries`. */
  predicate FolderHolds(root: map<string, Node>, key: string, entries: seq<Entry>) {
    key in root && root[key] == Folder(entries)
  }

  /** The page is shown and its card `i` carries the name `name`. */
  predicate CardShows(page: Reply<CategoryPage>, i: nat, name: string) {
    page.Ok? && i < |page.value.images| && ImageName(page.value.images[i]) == name
  }

  /** Deleting an image through its card removes exactly the file the card
      shows, when the name reads back unchanged from the action URL: the
      category page lists the folder, the card's name is read back from the
      path, the card pastes it into the delete route, and the router hands the
      action the same id and name. */
  lemma DeleteThroughPage(st: State, id: string, i: nat, search: string)
    requires StateOk(st)
    requires CanonicalId(id) && Find(st.db, id).Some? && IsFolder(st.root, id)
    requires i < |st.root[id].entries| && st.root[id].entries[i].kind == RegularFile
    requires SegmentSafe(st.root[id].entries[i].name) && IsSearch(search)
    ensures var name := st.root[id].entries[i].name;
            var page := LoadCategoryPage(true, st, Some(id), [], false);
            && CardShows(page, i, name)
            && page.value.id == id
            && var m := MatchImageDelete(DeleteRoute(page.value.id, ImageName(page.value.images[i]), search));
               && m == Some(ImageDeleteParams(id, name))
               && var r := DeleteImage(true, st, Some(m.value.category), Some(m.value.image), false, NoIoFault);
                  && r.reply.Ok?
                  && FolderHolds(r.state.root, id, RemoveEntry(st.root[id].entries, name))
  {
    var e := st.root[id].entries[i];
    CardOfEntry(st, id, i);
    IdIsSegmentSafe(id);
    assert PlainName(e.name);
    DeleteRouteParses(id, e.name, search);
    assert e == Entry(e.name, RegularFile) && e in st.root[id].entries;
    DeleteListed(st, id, e.name);
  }

  /** The card of entry `i` shows that entry's name and carries the stored id. */
  lemma CardOfEntry(st: State, id: string, i: nat)
    requires StateOk(st)
    requires CanonicalId(id) && Find(st.db, id).Some? && IsFolder(st.root, id)
    requires i < |st.root[id].entries|
    ensures var page := LoadCategoryPage(true, st, Some(id), [], false);
            CardShows(page, i, st.root[id].entries[i].name) && page.value.id == id
  {
    var e := st.root[id].entries[i];
    CanonicalIsCanonical(id);
    var page := LoadCategoryPage(true, st, Some(id), [], false);
    assert page.value.id == id && page.value.images[i] == ImagePath(id, e.name);
    assert PlainName(e.name);
    ImageNameOfPath(id, e.name);
  }

  /** With `a b.png` and `a%20b.png` both in the folder, the delete button of
      the card `a%20b.png` removes `a b.png` and leaves the file it shows. */
  lemma EscapedCardDeletesOther(st: State, id: string, i: nat, search: string)
    requires StateOk(st)
    requires CanonicalId(id) && Find(st.db, id).Some? && IsFolder(st.root, id)
    requires i < |st.root[id].entries| && st.root[id].entries[i] == Entry("a%20b.png", RegularFile)
    requires Entry("a b.png", RegularFile) in st.root[id].entries
    requires IsSearch(search)
    ensures var page := LoadCategoryPage(true, st, Some(id), [], false);
            && CardShows(page, i, "a%20b.png")
            && var m := MatchImageDelete(DeleteRoute(page.value.id, ImageName(page.value.images[i]), search));
               && m == Some(ImageDeleteParams(id, "a b.png"))
               && var r := DeleteImage(true, st, Some(m.value.category), Some(m.value.image), false, NoIoFault);
                  && r.reply.Ok?
                  && FolderHolds(r.state.root, id, RemoveEntry(st.root[id].entries, "a b.png"))
                  && Entry("a%20b.png", RegularFile) in r.state.root[id].entries
  {
    CardOfEntry(st, id, i);
    var page := LoadCategoryPage(true, st, Some(id), [], false);
    assert ImageName(page.value.images[i]) == "a%20b.png";
    EscapedNameReadsDecoded(id, search);
    DeleteKeepsOther(st, id, "a b.png", Entry("a%20b.png", RegularFile));
  }

  /** Deleting one listed file leaves every entry of another name in place. */
  lemma DeleteKeepsOther(st: State, id: string, name: string, other: Entry)
    requires StateOk(st)
    requires ValidObjectId(id) && Find(st.db, id).Some? && IsFolder(st.root, id)
    requires Entry(name, RegularFile) in st.root[id].entries
    requires other in st.root[id].entries && other.name != name
    ensures var r := DeleteImage(true, st, Some(id), Some(name), false, NoIoFault);
            && r.reply.Ok?
            && FolderHolds(r.state.root, id, RemoveEntry(st.root[id].entries, name))
            && other in r.state.root[id].entries
  {
    DeleteListed(st, id, name);
  }

  /** The delete action removes a listed regular file when given its name. */
  lemma DeleteListed(st: State, id: string, name: string)
    requires StateOk(st)
    requires ValidObjectId(id) && Find(st.db, id).Some? && IsFolder(st.root, id)
    requires Entry(name, RegularFile) in st.root[id].entries
    ensures var r := DeleteImage(true, st, Some(id), Some(name), false, NoIoFault);
            r.reply.Ok? && FolderHolds(r.state.root, id, RemoveEntry(st.root[id].entries, name))
  {
    NamesArePlain(st.root[id].entries);
    assert PlainName(name) && Basename(name) == name;
    DeleteReachesFolder(st, id, name, NoIoFault);
    var step := UnlinkIn(st.root[id].entries, name, NoIoFault);
    assert step.reply.Ok? && step.state == RemoveEntry(st.root[id].entries, name);
  }

  /** Once the record and the folder are found, the delete is the folder stage. */
  lemma DeleteReachesFolder(st: State, id: string, image: string, fault: IoFault)
    requires StateOk(st)
    requires ValidObjectId(id) && Find(st.db, id).Some? && IsFolder(st.root, id) && image != ""
    ensures DeleteImage(true, st, Some(id), Some(image), false, fault) == UnlinkInFolder(st, id, Basename(image), fault)
  {
    assert FilledParam(Some(id)) && FilledParam(Some(image));
  }
}

=== FILE: gallery_store.dfy ===
/** Gallery categories: the `Gallery` collection (a bilingual title per
    record, no image data) and the `public/gallery/<id>` folders that hold each
    category's images, with the admin handlers that create, list and delete a
    category. The database write and the folder operation are two separate
    steps; neither is undone when the other fails. */
module GalleryStore {
  import opened Common
  import opened Paths

  /** A record of the gallery collection: its id and its title, nothing else. */
  datatype Gallery = Gallery(id: string, title: Title)

  datatype Kind = RegularFile | Subdirectory

  /** One directory entry of a category folder. */
  datatype Entry = Entry(name: string, kind: Kind)

  /** What sits at `public/gallery/<key>`: a folder with its entries in listing
      order, or something that is not a folder. */
  datatype Node = Folder(entries: seq<Entry>) | NotAFolder

  /** The gallery collection in storage order and the `public/gallery` directory. */
  datatype State = State(db: seq<Gallery>, root: map<string, Node>)

  function Titles(db: seq<Gallery>): (r: seq<Title>)
    ensures |r| == |db| && forall i :: 0 <= i < |db| ==> r[i] == db[i].title
  {
    seq(|db|, i requires 0 <= i < |db| => db[i].title)
  }

  function Ids(db: seq<Gallery>): (r: seq<string>)
    ensures |r| == |db| && forall i :: 0 <= i < |db| ==> r[i] == db[i].id
  {
    seq(|db|, i requires 0 <= i < |db| => db[i].id)
  }

  function Names(entries: seq<Entry>): (r: seq<string>)
    ensures |r| == |entries| && forall i :: 0 <= i < |entries| ==> r[i] == entries[i].name
  {
    seq(|entries|, i requires 0 <= i < |entries| => entries[i].name)
  }

  /** The collection respects the gallery schema: both title fields required
      and unique, ids in stored form and distinct. */
  predicate DbOk(db: seq<Gallery>) {
    && Distinct(Ids(db))
    && (forall i :: 0 <= i < |db| ==> CanonicalId(db[i].id) && TitleRequired(db[i].title))
    && UniqueTitles(Titles(db))
  }

  /** A folder lists each name once, and only names of entries inside it. */
  predicate NodeOk(n: Node) {
    n.Folder? ==> Distinct(Names(n.entries)) && forall i :: 0 <= i < |n.entries| ==> PlainName(n.entries[i].name)
  }

  predicate StateOk(st: State) {
    DbOk(st.db) && forall k :: k in st.root ==> NodeOk(st.root[k])
  }

  /** `findOne({ _id: new ObjectId(key) })` for a key that parses: the record
      whose id is the parsed key. */
  function Find(db: seq<Gallery>, key: string): (r: Option<Gallery>)
    ensures r.Some? ==> r.value in db && r.value.id == Canonical(key)
    ensures r.None? ==> forall i :: 0 <= i < |db| ==> db[i].id != Canonical(key)
  {
    if |db| == 0 then None
    else if db[0].id == Canonical(key) then Some(db[0])
    else Find(db[1..], key)
  }

  /** `deleteOne({ _id: new ObjectId(key) })` in a collection with distinct ids. */
  function RemoveId(db: seq<Gallery>, id: string): (r: seq<Gallery>)
    ensures forall g :: g in r <==> g in db && g.id != id
    ensures |r| <= |db|
  {
    if |db| == 0 then []
    else if db[0].id == id then RemoveId(db[1..], id)
    else [db[0]] + RemoveId(db[1..], id)
  }

  /** Whether `public/gallery/<key>` is a folder. */
  predicate IsFolder(root: map<string, Node>, key: string) {
    key in root && root[key].Folder?
  }

  // ----- admin/gallery loader -----

  /** `GET /admin/gallery`: every gallery in storage order, or a server error. */
  function ListGalleries(st: State, dbDown: bool): (r: Reply<seq<Gallery>>)
    ensures dbDown <==> r == Fail({ServerSideError})
    ensures r.Ok? ==> r.value == st.db
  {
    if dbDown then Fail({ServerSideError}) else Ok(st.db)
  }

  // ----- admin/gallery action: create a category -----

  datatype CreateFault = NoCreateFault | CreateDbDown | MkdirFails

  /** `POST /admin/gallery`: validate both names, insert the record (the
      database assigns `freshId`), then `mkdir -p public/gallery/<freshId>`
      and redirect back with the same query. */
  function CreateGallery(st: State, nameEE: FormValue, nameRU: FormValue, query: Query,
                         freshId: string, fault: CreateFault): (r: Step<State, ()>)
    requires StateOk(st)
    requires CanonicalId(freshId) && freshId !in Ids(st.db)
    ensures StateOk(r.state)
    // a missing name is reported, and nothing is written
    ensures !Filled(nameEE) || !Filled(nameRU) ==>
              r.reply == Fail(MissingNames(nameEE, nameRU)) && r.state == st
    // a duplicate title is reported by its first key, and nothing is written
    ensures Filled(nameEE) && Filled(nameRU) && fault != CreateDbDown ==>
              var t := Title(nameEE.text, nameRU.text);
              DuplicateKey(Titles(st.db), t).Some? ==>
                r.reply == Fail({DuplicateKey(Titles(st.db), t).value}) && r.state == st
    // a database failure other than a duplicate key is a server error, and nothing is written
    ensures Filled(nameEE) && Filled(nameRU) && fault == CreateDbDown ==>
              r == Step(Fail({ServerSideError}), st)
    // the folder exists iff the record was written and mkdir did not fail
    ensures r.reply.Redirect? <==>
              && Filled(nameEE) && Filled(nameRU) && fault == NoCreateFault
              && DuplicateKey(Titles(st.db), Title(nameEE.text, nameRU.text)).None?
              && (freshId in st.root ==> st.root[freshId].Folder?)
    ensures r.reply.Redirect? ==>
              && r.reply.to == Location("/admin/gallery", query)
              && r.state.db == st.db + [Gallery(freshId, Title(nameEE.text, nameRU.text))]
              && IsFolder(r.state.root, freshId)
              && (freshId in st.root ==> r.state.root == st.root)
              && (forall k :: k != freshId ==> (k in r.state.root <==> k in st.root))
              && (forall k :: k in st.root ==> r.state.root[k] == st.root[k])
    // a failed mkdir leaves the record in place without a folder
    ensures !r.reply.Redirect? && r.state != st ==>
              && r.reply == Fail({ServerSideError})
              && r.state.db == st.db + [Gallery(freshId, Title(nameEE.text, nameRU.text))]
              && r.state.root == st.root
  {
    var missing := MissingNames(nameEE, nameRU);
    if missing != {} then Step(Fail(missing), st)
    else if fault == CreateDbDown then Step(Fail({ServerSideError}), st)
    else
      var t := Title(nameEE.text, nameRU.text);
      match DuplicateKey(Titles(st.db), t)
      case Some(k) => Step(Fail({k}), st)
      case None =>
        AppendUniqueTitle(Titles(st.db), t);
        assert Titles(st.db + [Gallery(freshId, t)]) == Titles(st.db) + [t];
        var db' := st.db + [Gallery(freshId, t)];
        assert Ids(db') == Ids(st.db) + [freshId];
        if fault == MkdirFails || (freshId in st.root && st.root[freshId].NotAFolder?) then
          Step(Fail({ServerSideError}), State(db', st.root))
        else
          assert fault.NoCreateFault?;
          var root' := if freshId in st.root then st.root else st.root[freshId := Folder([])];
          Step(Redirect(Location("/admin/gallery", query)), State(db', root'))
  }

  // ----- admin/gallery/:id/delete action -----

  datatype DeleteFault = NoDeleteFault | DeleteDbDown | RmFails

  /** `POST /admin/gallery/:id/delete`: delete the record, then
      `rm -rf public/gallery/<itemId>` (an absent folder is no error). */
  function DeleteGallery(isAdmin: bool, st: State, itemId: FormValue, fault: DeleteFault): (r: Step<State, ()>)
    requires StateOk(st)
    ensures StateOk(r.state)
    ensures !isAdmin ==> r == Step(LoginRedirect(), st)
    ensures isAdmin && !Filled(itemId) ==> r == Step(Fail({NoItemProvided}), st)
    // nothing changes unless a well-formed id reached a working database
    ensures r.state != st ==> isAdmin && Filled(itemId) && ValidObjectId(itemId.text) && fault != DeleteDbDown
    ensures r.reply.Ok? <==> isAdmin && Filled(itemId) && ValidObjectId(itemId.text) && fault == NoDeleteFault
    ensures isAdmin && Filled(itemId) && (!ValidObjectId(itemId.text) || fault == DeleteDbDown) ==>
              r == Step(FailWithError, st)
    // once the record is gone, only the folder named by the raw id is touched
    ensures isAdmin && Filled(itemId) && ValidObjectId(itemId.text) && fault != DeleteDbDown ==>
              && r.state.db == RemoveId(st.db, Canonical(itemId.text))
              && (forall k :: k != itemId.text ==> (k in r.state.root <==> k in st.root))
              && (forall k :: k in r.state.root ==> k in st.root && r.state.root[k] == st.root[k])
              && (fault == NoDeleteFault ==> itemId.text !in r.state.root)
              && (fault == RmFails ==> r.reply == FailWithError && r.state.root == st.root)
  {
    if !isAdmin then Step(LoginRedirect(), st)
    else if !Filled(itemId) then Step(Fail({NoItemProvided}), st)
    else if fault == DeleteDbDown || !ValidObjectId(itemId.text) then Step(FailWithError, st)
    else
      var db' := RemoveKeepsDbOk(st.db, Canonical(itemId.text));
      if fault == RmFails then Step(FailWithError, State(db', st.root))
      else
        assert fault.NoDeleteFault?;
        Step(Ok(()), State(db', st.root - {itemId.text}))
  }

  /** Removing records keeps the schema's invariants; returns the new collection. */
  function RemoveKeepsDbOk(db: seq<Gallery>, id: string): (r: seq<Gallery>)
    requires DbOk(db)
    ensures r == RemoveId(db, id) && DbOk(r)
  {
    RemoveIdSubsequence(db, id);
    RemoveId(db, id)
  }

  /** Dropping records from a schema-respecting collection keeps it so. */
  lemma {:induction false} RemoveIdSubsequence(db: seq<Gallery>, id: string)
    requires DbOk(db)
    ensures DbOk(RemoveId(db, id))
    decreases |db|
  {
    if |db| > 0 {
      TailDbOk(db);
      RemoveIdSubsequence(db[1..], id);
      if db[0].id != id {
        var rest := RemoveId(db[1..], id);
        HeadDiffers(db);
        forall h | h in rest
          ensures h.id != db[0].id && h.title.ee != db[0].title.ee && h.title.ru != db[0].title.ru
        {
          assert h in db[1..];
        }
        ConsDbOk(db[0], rest);
      }
    }
  }

  lemma TailDbOk(db: seq<Gallery>)
    requires DbOk(db) && |db| > 0
    ensures DbOk(db[1..])
  {
    assert Ids(db[1..]) == Ids(db)[1..];
    assert Titles(db[1..]) == Titles(db)[1..];
  }

  lemma HeadDiffers(db: seq<Gallery>)
    requires DbOk(db) && |db| > 0
    ensures forall h :: h in db[1..] ==> h.id != db[0].id && h.title.ee != db[0].title.ee && h.title.ru != db[0].title.ru
  {
    forall h | h in db[1..]
      ensures h.id != db[0].id && h.title.ee != db[0].title.ee && h.title.ru != db[0].title.ru
    {
      var k :| 0 <= k < |db[1..]| && db[1..][k] == h;
      assert db[k + 1] == h;
      assert Ids(db)[0] != Ids(db)[k + 1];
      assert Titles(db)[0] == db[0].title && Titles(db)[k + 1] == h.title;
    }
  }

  lemma ConsDbOk(g: Gallery, rest: seq<Gallery>)
    requires DbOk(rest) && CanonicalId(g.id) && TitleRequired(g.title)
    requires forall h :: h in rest ==> h.id != g.id && h.title.ee != g.title.ee && h.title.ru != g.title.ru
    ensures DbOk([g] + rest)
  {
    var r := [g] + rest;
    forall i, j | 0 <= i < j < |r| ensures Ids(r)[i] != Ids(r)[j] {
      assert r[j] == rest[j - 1];
      if i > 0 { assert r[i] == rest[i - 1] && Ids(rest)[i - 1] != Ids(rest)[j - 1]; }
    }
    forall i, j | 0 <= i < j < |r| ensures Titles(r)[i].ee != Titles(r)[j].ee && Titles(r)[i].ru != Titles(r)[j].ru {
      assert r[j] == rest[j - 1];
      if i > 0 { assert r[i] == rest[i - 1] && Titles(rest)[i - 1] == rest[i - 1].title && Titles(rest)[j - 1] == rest[j - 1].title; }
    }
  }

  // ----- the record/folder pairing -----

  /** Every gallery has its folder, and every folder belongs to a gallery. */
  predicate Paired(st: State) {
    && (forall i :: 0 <= i < |st.db| ==> IsFolder(st.root, st.db[i].id))
    && (forall k :: k in st.root ==> k in Ids(st.db))
  }

  /** Without failures, creating a category keeps every record paired with a folder. */
  lemma CreateKeepsPairing(st: State, nameEE: FormValue, nameRU: FormValue, query: Query, freshId: string)
    requires StateOk(st) && Paired(st)
    requires CanonicalId(freshId) && freshId !in Ids(st.db)
    ensures Paired(CreateGallery(st, nameEE, nameRU, query, freshId, NoCreateFault).state)
  {
    var r := CreateGallery(st, nameEE, nameRU, query, freshId, NoCreateFault);
    if r.reply.Redirect? {
      assert freshId !in st.root;
      assert Ids(r.state.db) == Ids(st.db) + [freshId];
    }
  }

  /** Without failures, deleting a category by its stored id removes the record
      and its folder together. */
  lemma DeleteKeepsPairing(st: State, id: string)
    requires StateOk(st) && Paired(st)
    requires CanonicalId(id)
    ensures Paired(DeleteGallery(true, st, Text(id), NoDeleteFault).state)
  {
    CanonicalIsCanonical(id);
    var db' := RemoveId(st.db, id);
    var root' := st.root - {id};
    assert DeleteGallery(true, st, Text(id), NoDeleteFault).state == State(db', root');
    forall i | 0 <= i < |db'| ensures IsFolder(root', db'[i].id) {
      FolderOfRecord(st, db'[i]);
    }
    forall k | k in root' ensures k in Ids(db') {
      var g := RecordOfFolder(st, k);
      IdOfMember(db', g);
    }
  }

  /** A paired record's id names a folder. */
  lemma FolderOfRecord(st: State, g: Gallery)
    requires Paired(st) && g in st.db
    ensures IsFolder(st.root, g.id)
  {
    var j :| 0 <= j < |st.db| && st.db[j] == g;
  }

  /** A paired folder belongs to a record. */
  lemma RecordOfFolder(st: State, k: string) returns (g: Gallery)
    requires Paired(st) && k in st.root
    ensures g in st.db && g.id == k
  {
    var j :| 0 <= j < |st.db| && Ids(st.db)[j] == k;
    g := st.db[j];
  }

  lemma IdOfMember(db: seq<Gallery>, g: Gallery)
    requires g in db
    ensures g.id in Ids(db)
  {
    var j :| 0 <= j < |db| && db[j] == g;
    assert Ids(db)[j] == g.id;
  }

  /** The pairing is best effort: a failed mkdir leaves a record without a folder. */
  lemma MkdirFailureBreaksPairing(st: State, ee: string, ru: string, freshId: string)
    requires StateOk(st)
    requires CanonicalId(freshId) && freshId !in Ids(st.db) && freshId !in st.root
    requires ee != "" && ru != "" && DuplicateKey(Titles(st.db), Title(ee, ru)).None?
    ensures !Paired(CreateGallery(st, Text(ee), Text(ru), [], freshId, MkdirFails).state)
  {
    var r := CreateGallery(st, Text(ee), Text(ru), [], freshId, MkdirFails);
    assert r.state.db[|st.db|].id == freshId;
  }

  /** A well-formed id written with upper-case hex digits deletes the record
      (the id parser ignores case) but `rm` looks for a folder under the
      upper-case name, so the category's folder is left behind. */
  lemma UpperCaseIdLeavesFolder(st: State, id: string)
    requires StateOk(st) && Paired(st)
    requires ValidObjectId(id) && !CanonicalId(id)
    requires Find(st.db, id).Some?
    ensures var r := DeleteGallery(true, st, Text(id), NoDeleteFault);
            r.reply.Ok? && Find(r.state.db, id).None? && IsFolder(r.state.root, Canonical(id))
  {
    var c := Canonical(id);
    var db' := RemoveId(st.db, c);
    var root' := st.root - {id};
    assert DeleteGallery(true, st, Text(id), NoDeleteFault) == Step(Ok(()), State(db', root'));
    var g := Find(st.db, id).value;
    var j :| 0 <= j < |st.db| && st.db[j] == g;
    assert IsFolder(st.root, c);
    assert c != id by {
      var i :| 0 <= i < |id| && 'A' <= id[i] <= 'F';
      assert c[i] != id[i];
    }
    assert IsFolder(root', c);
    FindAbsent(db', id);
  }

  lemma FindAbsent(db: seq<Gallery>, key: string)
    requires forall g :: g in db ==> g.id != Canonical(key)
    ensures Find(db, key).None?
  {
  }
}

=== FILE: home_loader.dfy ===
/** The public home page's loader. It settles the `lang`, `service` and
    `gallery` query parameters (redirecting once when any of them had to be
    filled in or replaced) and then gathers the page content. */
module HomeLoader {
  import opened Common
  import opened SearchParams
  import opened Paths
  import GalleryStore
  import ServiceCatalogue
  import ContactInfo

  /** The placeholder for "no category selected". */
  const NoneParam := "none"

  /** A resolved category parameter, and whether the URL has to be rewritten. */
  datatype Resolved = Resolved(value: string, refresh: bool)

  /** One category parameter against the ids of its collection in storage
      order. `fault` stands for a query that throws; like a malformed id it is
      caught, gives `"none"` and by itself asks for no redirect. */
  function Resolve(param: Option<string>, ids: seq<string>, fault: bool): (r: Resolved)
    // the result names an existing category or none
    ensures r.value == NoneParam
            || (|ids| > 0 && r.value == ids[0])
            || (param.Some? && r.value == param.value && ValidObjectId(param.value) && Canonical(param.value) in ids)
    // a parameter that already names a category is kept as it is
    ensures (!fault && FilledParam(param) && param.value != NoneParam && ValidObjectId(param.value)
             && Canonical(param.value) in ids) ==> r == Resolved(param.value, false)
    ensures fault ==> r == Resolved(NoneParam, false)
    ensures r.refresh ==> !fault && r.value == (if |ids| == 0 then NoneParam else ids[0])
    ensures !FilledParam(param) && !fault ==> r.refresh
    ensures param == Some(NoneParam) && !fault ==> (r.refresh <==> |ids| > 0)
  {
    if !FilledParam(param) then
      if fault then Resolved(NoneParam, false)
      else if |ids| == 0 then Resolved(NoneParam, true)
      else Resolved(ids[0], true)
    else if param.value == NoneParam then
      if fault || |ids| == 0 then Resolved(NoneParam, false)
      else Resolved(ids[0], true)
    else if !ValidObjectId(param.value) || fault then Resolved(NoneParam, false)
    else if Canonical(param.value) in ids then Resolved(param.value, false)
    else if |ids| == 0 then Resolved(NoneParam, true)
    else Resolved(ids[0], true)
  }

  /** Ids in the form the database prints them. */
  predicate StoredIds(ids: seq<string>) {
    forall i :: 0 <= i < |ids| ==> CanonicalId(ids[i])
  }

  /** The resolved value is `"none"` or a parameter that finds a stored category. */
  lemma ResolvesToExisting(param: Option<string>, ids: seq<string>, fault: bool)
    requires StoredIds(ids)
    ensures var r := Resolve(param, ids, fault);
            r.value == NoneParam || (ValidObjectId(r.value) && Canonical(r.value) in ids)
  {
    var r := Resolve(param, ids, fault);
    if |ids| > 0 && r.value == ids[0] {
      CanonicalIsCanonical(ids[0]);
    }
  }

  /** A rewritten parameter resolves to itself without a further rewrite: the
      redirect cannot loop. */
  lemma ResolveSettles(param: Option<string>, ids: seq<string>, fault: bool)
    requires StoredIds(ids)
    requires Resolve(param, ids, fault).refresh
    ensures var v := Resolve(param, ids, fault).value;
            Resolve(Some(v), ids, false) == Resolved(v, false)
  {
    if |ids| > 0 {
      CanonicalIsCanonical(ids[0]);
      NoneIsNotAnId();
      assert ids[0] != NoneParam;
    }
  }

  // ----- content -----

  /** A category entry of the pickers: id and title. */
  datatype Choice = Choice(id: string, title: Title)

  /** The contact details shown on the page; all absent when the record is missing. */
  datatype ContactView = ContactView(tel: Option<string>, email: Option<string>, address: Option<string>)

  datatype HomeData = HomeData(
    service: string, gallery: string,
    serviceContent: seq<ServiceCatalogue.ContentItem>, serviceChoices: seq<Choice>,
    galleryImages: seq<string>, galleryChoices: seq<Choice>,
    contact: ContactView)

  /** Which of the loader's database and filesystem steps throw. */
  datatype Faults = Faults(
    serviceLookup: bool, galleryLookup: bool, serviceContent: bool, galleryContent: bool, contact: bool)

  const NoFaults := Faults(false, false, false, false, false)

  /** The `{id, title}` pairs a select offers, one per record, in stored order. */
  function Choices<T>(db: seq<T>, choice: T -> Choice): (r: seq<Choice>)
    ensures |r| == |db| && forall i :: 0 <= i < |db| ==> r[i] == choice(db[i])
  {
    seq(|db|, i requires 0 <= i < |db| => choice(db[i]))
  }

  function ServiceChoice(c: ServiceCatalogue.Category): Choice { Choice(c.id, c.title) }

  function GalleryChoice(g: GalleryStore.Gallery): Choice { Choice(g.id, g.title) }

  /** `path.join("gallery", id, entry)`: relative, unlike the admin page's paths. */
  function PublicImagePath(id: string, entry: string): string {
    "gallery/" + id + "/" + entry
  }

  /** The selected category's items and the list of all categories. */
  function ServiceContent(db: seq<ServiceCatalogue.Category>, service: string, fault: bool)
    : (r: (seq<ServiceCatalogue.ContentItem>, seq<Choice>))
    ensures service == NoneParam || fault ==> r == ([], [])
    ensures service != NoneParam && !fault ==> r.1 == Choices(db, ServiceChoice)
    ensures r.0 != [] ==> exists i :: 0 <= i < |db| && db[i].id == Canonical(service) && db[i].content == r.0
    // a selected category's items are those of the first category with its id
    ensures service != NoneParam && !fault ==>
              forall i :: (&& 0 <= i < |db| && db[i].id == Canonical(service)
                           && forall j :: 0 <= j < i ==> db[j].id != Canonical(service)) ==> r.0 == db[i].content
    ensures (forall i :: 0 <= i < |db| ==> db[i].id != Canonical(service)) ==> r.0 == []
  {
    if service == NoneParam || fault then ([], [])
    else
      var i := ServiceCatalogue.IndexOfId(db, Canonical(service));
      (if i >= 0 then db[i].content else [], Choices(db, ServiceChoice))
  }

  /** The selected gallery's image paths, in listing order, and the list of
      all galleries. A selected gallery without a folder throws, which also
      empties the gallery list. */
  function GalleryContent(st: GalleryStore.State, gallery: string, fault: bool): (r: (seq<string>, seq<Choice>))
    ensures gallery == NoneParam || fault ==> r == ([], [])
    ensures r.1 != [] ==> r.1 == Choices(st.db, GalleryChoice)
    ensures r.0 != [] ==>
              && GalleryStore.Find(st.db, gallery).Some?
              && var id := Canonical(gallery);
                 && GalleryStore.IsFolder(st.root, id)
                 && |r.0| == |st.root[id].entries|
                 && forall k :: 0 <= k < |r.0| ==> r.0[k] == PublicImagePath(id, st.root[id].entries[k].name)
    // an unknown gallery shows no images but still offers every gallery
    ensures gallery != NoneParam && !fault && GalleryStore.Find(st.db, gallery).None? ==>
              r == ([], Choices(st.db, GalleryChoice))
    // a known gallery without a folder throws: both lists are empty
    ensures (&& gallery != NoneParam && !fault && GalleryStore.Find(st.db, gallery).Some?
             && !GalleryStore.IsFolder(st.root, Canonical(gallery))) ==> r == ([], [])
    // a known gallery with a folder shows one path per entry, in listing order
    ensures (&& gallery != NoneParam && !fault && GalleryStore.Find(st.db, gallery).Some?
             && GalleryStore.IsFolder(st.root, Canonical(gallery))) ==>
              && r.1 == Choices(st.db, GalleryChoice)
              && var id := Canonical(gallery);
                 && |r.0| == |st.root[id].entries|
                 && forall k :: 0 <= k < |r.0| ==> r.0[k] == PublicImagePath(id, st.root[id].entries[k].name)
  {
    if gallery == NoneParam || fault then ([], [])
    else match GalleryStore.Find(st.db, gallery)
      case None => ([], Choices(st.db, GalleryChoice))
      case Some(g) =>
        if !GalleryStore.IsFolder(st.root, g.id) then ([], [])
        else
          var entries := st.root[g.id].entries;
          (seq(|entries|, k requires 0 <= k < |entries| => PublicImagePath(g.id, entries[k].name)), Choices(st.db, GalleryChoice))
  }

  function ContactContent(contacts: seq<ContactInfo.Contact>, fault: bool): (r: ContactView)
    ensures r.tel.Some? <==> !fault && exists j :: 0 <= j < |contacts| && contacts[j].id == ContactInfo.SingletonKey
    ensures r.tel.None? ==> r == ContactView(None, None, None)
    ensures r.tel.Some? ==> exists c :: c in contacts && c.id == ContactInfo.SingletonKey
                                        && r == ContactView(Some(c.tel), Some(c.email), Some(c.address))
  {
    var i := IndexOf(contacts, ContactInfo.ContactKey, ContactInfo.SingletonKey);
    if fault || i < 0 then ContactView(None, None, None)
    else ContactView(Some(contacts[i].tel), Some(contacts[i].email), Some(contacts[i].address))
  }

  /** The query of the rewritten URL: the three settled parameters, every
      other parameter kept. */
  function RefreshQuery(query: Query, lang: string, service: string, gallery: string): Query {
    Set(Set(Set(query, "lang", lang), "service", service), "gallery", gallery)
  }

  /** The loader. */
  function LoadHome(path: string, query: Query, services: seq<ServiceCatalogue.Category>,
                    st: GalleryStore.State, contacts: seq<ContactInfo.Contact>, f: Faults): (r: Reply<HomeData>)
    ensures r.Ok? || r.Redirect?
    ensures r.Redirect? ==> r.to.path == path
    ensures r.Redirect? <==> !FilledParam(Get(query, "lang"))
                             || Resolve(Get(query, "service"), ServiceCatalogue.CategoryIds(services), f.serviceLookup).refresh
                             || Resolve(Get(query, "gallery"), GalleryStore.Ids(st.db), f.galleryLookup).refresh
    ensures r.Ok? ==> && r.value.service == Resolve(Get(query, "service"), ServiceCatalogue.CategoryIds(services), f.serviceLookup).value
                      && r.value.gallery == Resolve(Get(query, "gallery"), GalleryStore.Ids(st.db), f.galleryLookup).value
    // the rendered page shows the content of the settled selections
    ensures r.Ok? ==> && (r.value.serviceContent, r.value.serviceChoices) == ServiceContent(services, r.value.service, f.serviceContent)
                      && (r.value.galleryImages, r.value.galleryChoices) == GalleryContent(st, r.value.gallery, f.galleryContent)
                      && r.value.contact == ContactContent(contacts, f.contact)
  {
    var lang := Get(query, "lang");
    var s := Resolve(Get(query, "service"), ServiceCatalogue.CategoryIds(services), f.serviceLookup);
    var g := Resolve(Get(query, "gallery"), GalleryStore.Ids(st.db), f.galleryLookup);
    if !FilledParam(lang) || s.refresh || g.refresh then
      var l := if FilledParam(lang) then lang.value else "ee";
      Redirect(Location(path, RefreshQuery(query, l, s.value, g.value)))
    else
      var sc := ServiceContent(services, s.value, f.serviceContent);
      var gc := GalleryContent(st, g.value, f.galleryContent);
      Ok(HomeData(s.value, g.value, sc.0, sc.1, gc.0, gc.1, ContactContent(contacts, f.contact)))
  }

  /** The rewritten URL carries all three parameters with the settled values. */
  lemma RedirectCarriesAll(path: string, query: Query, services: seq<ServiceCatalogue.Category>,
                           st: GalleryStore.State, contacts: seq<ContactInfo.Contact>, f: Faults)
    requires LoadHome(path, query, services, st, contacts, f).Redirect?
    ensures var q := LoadHome(path, query, services, st, contacts, f).to.query;
            && Get(q, "lang") == Some(if FilledParam(Get(query, "lang")) then Get(query, "lang").value else "ee")
            && Get(q, "service") == Some(Resolve(Get(query, "service"), ServiceCatalogue.CategoryIds(services), f.serviceLookup).value)
            && Get(q, "gallery") == Some(Resolve(Get(query, "gallery"), GalleryStore.Ids(st.db), f.galleryLookup).value)
  {
    var lang := Get(query, "lang");
    var l := if FilledParam(lang) then lang.value else "ee";
    var s := Resolve(Get(query, "service"), ServiceCatalogue.CategoryIds(services), f.serviceLookup).value;
    var g := Resolve(Get(query, "gallery"), GalleryStore.Ids(st.db), f.galleryLookup).value;
    var q1 := Set(query, "lang", l);
    var q2 := Set(q1, "service", s);
    GetAfterSet(query, "lang", l);
    GetOtherAfterSet(q1, "service", s, "lang");
    GetAfterSet(q1, "service", s);
    GetOtherAfterSet(q2, "gallery", g, "lang");
    GetOtherAfterSet(q2, "gallery", g, "service");
    GetAfterSet(q2, "gallery", g);
  }

  /** The lookup ended in the catch although categories exist: the value is
      `"none"` and no rewrite was asked for. */
  predicate Caught(param: Option<string>, ids: seq<string>, fault: bool) {
    Resolve(param, ids, fault) == Resolved(NoneParam, false) && |ids| > 0
  }

  /** Following the redirect (with the database answering) renders the page,
      unless a lookup of the first load ended in the catch. */
  lemma RedirectSettles(path: string, query: Query, services: seq<ServiceCatalogue.Category>,
                        st: GalleryStore.State, contacts: seq<ContactInfo.Contact>, f: Faults)
    requires StoredIds(ServiceCatalogue.CategoryIds(services)) && StoredIds(GalleryStore.Ids(st.db))
    requires LoadHome(path, query, services, st, contacts, f).Redirect?
    requires !Caught(Get(query, "service"), ServiceCatalogue.CategoryIds(services), f.serviceLookup)
    requires !Caught(Get(query, "gallery"), GalleryStore.Ids(st.db), f.galleryLookup)
    ensures var q := LoadHome(path, query, services, st, contacts, f).to.query;
            LoadHome(path, q, services, st, contacts, NoFaults).Ok?
  {
    RedirectCarriesAll(path, query, services, st, contacts, f);
    var sids, gids := ServiceCatalogue.CategoryIds(services), GalleryStore.Ids(st.db);
    var s := Resolve(Get(query, "service"), sids, f.serviceLookup);
    var g := Resolve(Get(query, "gallery"), gids, f.galleryLookup);
    SettledStays(s, Get(query, "service"), sids, f.serviceLookup);
    SettledStays(g, Get(query, "gallery"), gids, f.galleryLookup);
  }

  /** Re-resolving a settled value asks for no rewrite, whether it was
      rewritten or kept. */
  lemma SettledStays(r: Resolved, param: Option<string>, ids: seq<string>, fault: bool)
    requires StoredIds(ids)
    requires r == Resolve(param, ids, fault)
    ensures !Resolve(Some(r.value), ids, false).refresh || (!r.refresh && r.value == NoneParam && |ids| > 0)
  {
    if r.refresh {
      ResolveSettles(param, ids, fault);
    } else {
      ResolvesToExisting(param, ids, fault);
      if r.value != NoneParam {
        NoneIsNotAnId();
      }
    }
  }

  /** A malformed id in a URL without `lang` costs two redirects: the first
      writes `service=none`, and the second replaces `none` by the first
      category. */
  lemma MalformedIdRedirectsTwice(c: ServiceCatalogue.Category, st: GalleryStore.State, contacts: seq<ContactInfo.Contact>)
    requires CanonicalId(c.id)
    requires st.db == []
    ensures var first := LoadHome("/", [Param("service", "zz")], [c], st, contacts, NoFaults);
            && first.Redirect?
            && Get(first.to.query, "service") == Some(NoneParam)
            && var second := LoadHome("/", first.to.query, [c], st, contacts, NoFaults);
               && second.Redirect?
               && Get(second.to.query, "service") == Some(c.id)
               && LoadHome("/", second.to.query, [c], st, contacts, NoFaults).Ok?
  {
    var first := LoadHome("/", [Param("service", "zz")], [c], st, contacts, NoFaults);
    FirstLoadOfMalformed(c, st, contacts);
    SecondLoadOfNone(first.to.query, c, st, contacts);
    var second := LoadHome("/", first.to.query, [c], st, contacts, NoFaults);
    ThirdLoadSettles(second.to.query, c, st, contacts);
  }

  lemma FirstLoadOfMalformed(c: ServiceCatalogue.Category, st: GalleryStore.State, contacts: seq<ContactInfo.Contact>)
    requires st.db == []
    ensures var first := LoadHome("/", [Param("service", "zz")], [c], st, contacts, NoFaults);
            && first.Redirect?
            && Get(first.to.query, "lang") == Some("ee")
            && Get(first.to.query, "service") == Some(NoneParam)
            && Get(first.to.query, "gallery") == Some(NoneParam)
  {
    assert Get([Param("service", "zz")], "lang") == None;
    assert Get([Param("service", "zz")], "service") == Some("zz");
    assert !ValidObjectId("zz");
    RedirectCarriesAll("/", [Param("service", "zz")], [c], st, contacts, NoFaults);
  }

  lemma SecondLoadOfNone(q: Query, c: ServiceCatalogue.Category, st: GalleryStore.State, contacts: seq<ContactInfo.Contact>)
    requires st.db == [] && CanonicalId(c.id)
    requires Get(q, "lang") == Some("ee") && Get(q, "service") == Some(NoneParam) && Get(q, "gallery") == Some(NoneParam)
    ensures var second := LoadHome("/", q, [c], st, contacts, NoFaults);
            && second.Redirect?
            && Get(second.to.query, "lang") == Some("ee")
            && Get(second.to.query, "service") == Some(c.id)
            && Get(second.to.query, "gallery") == Some(NoneParam)
  {
    assert ServiceCatalogue.CategoryIds([c]) == [c.id];
    RedirectCarriesAll("/", q, [c], st, contacts, NoFaults);
  }

  lemma ThirdLoadSettles(q: Query, c: ServiceCatalogue.Category, st: GalleryStore.State, contacts: seq<ContactInfo.Contact>)
    requires st.db == [] && CanonicalId(c.id)
    requires Get(q, "lang") == Some("ee") && Get(q, "service") == Some(c.id) && Get(q, "gallery") == Some(NoneParam)
    ensures LoadHome("/", q, [c], st, contacts, NoFaults).Ok?
  {
    assert ServiceCatalogue.CategoryIds([c]) == [c.id];
    CanonicalIsCanonical(c.id);
    NoneIsNotAnId();
  }

  /** Each image path on the page names its folder entry as its last segment. */
  lemma GalleryPathsRoundTrip(st: GalleryStore.State, gallery: string, k: int)
    requires GalleryStore.StateOk(st)
    requires 0 <= k < |GalleryContent(st, gallery, false).0|
    ensures var id := Canonical(gallery);
            LastSegment(GalleryContent(st, gallery, false).0[k]) == st.root[id].entries[k].name
  {
    var id := Canonical(gallery);
    var name := st.root[id].entries[k].name;
    assert GalleryStore.NodeOk(st.root[id]);
    assert PlainName(name);
    assert PublicImagePath(id, name) == ("gallery/" + id) + "/" + name;
    LastSegmentOfJoin("gallery/" + id, name);
  }
}

=== FILE: inbox.dfy ===
/** The admin inbox. Service requests move from pending to completed and are
    then deleted; feedback moves from unread to read and is then deleted. The
    listings are filters on the flag, and the admin layout shows the number of
    pending requests and unread messages. */
module Inbox {
  import opened Common
  import opened SearchParams
  import opened PublicForms

  // ----- order-preserving filters -----

  /** The records of `xs` that satisfy `p`, in storage order: what `find`
      with a single-field condition returns. */
  function Filter<T(!new)>(xs: seq<T>, p: T -> bool): (r: seq<T>)
    ensures |r| <= |xs|
    ensures forall x :: x in r <==> x in xs && p(x)
  {
    if |xs| == 0 then []
    else
      assert xs == [xs[0]] + xs[1..];
      (if p(xs[0]) then [xs[0]] else []) + Filter(xs[1..], p)
  }

  /** Filtering a concatenation filters each part and keeps them in order. */
  lemma {:induction false} FilterAppend<T(!new)>(xs: seq<T>, ys: seq<T>, p: T -> bool)
    ensures Filter(xs + ys, p) == Filter(xs, p) + Filter(ys, p)
  {
    if |xs| == 0 {
      assert xs + ys == ys;
    } else {
      assert (xs + ys)[1..] == xs[1..] + ys;
      FilterAppend(xs[1..], ys, p);
    }
  }

  /** Every record is in exactly one of the two listings of a flag. */
  lemma {:induction false} FilterPartition<T(!new)>(xs: seq<T>, p: T -> bool, q: T -> bool)
    requires forall x :: q(x) <==> !p(x)
    ensures |Filter(xs, p)| + |Filter(xs, q)| == |xs|
  {
    if |xs| > 0 {
      FilterPartition(xs[1..], p, q);
    }
  }

  /** A one-record listing: the record when it passes, nothing otherwise. */
  lemma FilterSingle<T(!new)>(x: T, p: T -> bool)
    ensures Filter([x], p) == if p(x) then [x] else []
  {
    assert [x][1..] == [];
  }

  /** Changing one record from passing to failing drops exactly one record from the listing. */
  lemma FilterUpdateDrops<T(!new)>(xs: seq<T>, i: int, y: T, p: T -> bool)
    requires 0 <= i < |xs| && p(xs[i]) && !p(y)
    ensures |Filter(xs[i := y], p)| + 1 == |Filter(xs, p)|
  {
    var s := xs[i := y];
    assert xs == xs[..i] + [xs[i]] + xs[i + 1..];
    assert s == xs[..i] + [y] + xs[i + 1..];
    FilterAppend(xs[..i] + [xs[i]], xs[i + 1..], p);
    FilterAppend(xs[..i], [xs[i]], p);
    FilterAppend(xs[..i] + [y], xs[i + 1..], p);
    FilterAppend(xs[..i], [y], p);
    FilterSingle(xs[i], p);
    FilterSingle(y, p);
  }

  /** `deleteOne({_id})`: the first record with that id leaves; the others
      keep their order. */
  function RemoveFirst<T>(xs: seq<T>, idOf: T -> string, id: string): (r: seq<T>)
    ensures IndexOf(xs, idOf, id) < 0 ==> r == xs
    ensures var i := IndexOf(xs, idOf, id);
            i >= 0 ==> |r| == |xs| - 1
                       && (forall j :: 0 <= j < i ==> r[j] == xs[j])
                       && (forall j :: i <= j < |r| ==> r[j] == xs[j + 1])
  {
    var i := IndexOf(xs, idOf, id);
    if i < 0 then xs else RemoveAt(xs, i)
  }

  /** The sequence without its element at `i`, the others in order. */
  function RemoveAt<T>(xs: seq<T>, i: nat): (r: seq<T>)
    requires i < |xs|
    ensures |r| == |xs| - 1
    ensures forall j :: 0 <= j < i ==> r[j] == xs[j]
    ensures forall j :: i <= j < |r| ==> r[j] == xs[j + 1]
  {
    xs[..i] + xs[i + 1..]
  }

  /** Removing a record whose id occurs once leaves no record with that id. */
  lemma RemoveUnique<T>(xs: seq<T>, idOf: T -> string, i: int)
    requires 0 <= i < |xs|
    requires forall a, b :: 0 <= a < b < |xs| ==> idOf(xs[a]) != idOf(xs[b])
    ensures forall x :: x in RemoveFirst(xs, idOf, idOf(xs[i])) ==> idOf(x) != idOf(xs[i])
  {
    IndexOfDistinct(xs, idOf, i);
    var r := RemoveFirst(xs, idOf, idOf(xs[i]));
    forall x | x in r ensures idOf(x) != idOf(xs[i]) {
      var j :| 0 <= j < |r| && r[j] == x;
      if j >= i { assert r[j] == xs[j + 1]; }
    }
  }

  // ----- service requests -----

  function RequestId(r: ServiceRequest): string { r.id }

  predicate IsPending(r: ServiceRequest) { !r.completed }

  predicate IsCompleted(r: ServiceRequest) { r.completed }

  /** The ids under which the database keeps its requests: stored form, pairwise distinct. */
  predicate RequestIdsOk(rs: seq<ServiceRequest>) {
    && (forall i :: 0 <= i < |rs| ==> CanonicalId(rs[i].id))
    && (forall a, b :: 0 <= a < b < |rs| ==> rs[a].id != rs[b].id)
  }

  function Pending(rs: seq<ServiceRequest>): (r: seq<ServiceRequest>)
    ensures forall x :: x in r <==> x in rs && !x.completed
  {
    Filter(rs, IsPending)
  }

  function Completed(rs: seq<ServiceRequest>): (r: seq<ServiceRequest>)
    ensures forall x :: x in r <==> x in rs && x.completed
  {
    Filter(rs, IsCompleted)
  }

  /** Every request is listed on exactly one of the two admin pages. */
  lemma PendingPlusCompleted(rs: seq<ServiceRequest>)
    ensures |Pending(rs)| + |Completed(rs)| == |rs|
  {
    FilterPartition(rs, IsPending, IsCompleted);
  }

  /** The pending-requests page: exactly the requests not yet completed. */
  function LoadPending(isAdmin: bool, rs: seq<ServiceRequest>, dbDown: bool): (r: Reply<seq<ServiceRequest>>)
    ensures !isAdmin ==> r == LoginRedirect()
    ensures isAdmin && dbDown ==> r == Throw(500)
    ensures r.Ok? <==> isAdmin && !dbDown
    ensures r.Ok? ==> forall x :: x in r.value <==> x in rs && !x.completed
  {
    if !isAdmin then LoginRedirect()
    else if dbDown then Throw(500)
    else Ok(Pending(rs))
  }

  /** The completed-requests page: exactly the completed requests. */
  function LoadCompleted(isAdmin: bool, rs: seq<ServiceRequest>, dbDown: bool): (r: Reply<seq<ServiceRequest>>)
    ensures !isAdmin ==> r == LoginRedirect()
    ensures isAdmin && dbDown ==> r == Throw(500)
    ensures r.Ok? <==> isAdmin && !dbDown
    ensures r.Ok? ==> forall x :: x in r.value <==> x in rs && x.completed
  {
    if !isAdmin then LoginRedirect()
    else if dbDown then Throw(500)
    else Ok(Completed(rs))
  }

  /** `findOneAndUpdate({_id}, {completed: true})`: only the completion flag
      of the first request with that id changes. */
  function SetCompleted(rs: seq<ServiceRequest>, id: string): (r: seq<ServiceRequest>)
    ensures |r| == |rs|
    ensures forall j :: 0 <= j < |rs| ==> r[j] == rs[j].(completed := r[j].completed)
    ensures forall j :: 0 <= j < |rs| ==> (r[j].completed <==> rs[j].completed || j == IndexOf(rs, RequestId, id))
  {
    var i := IndexOf(rs, RequestId, id);
    if i < 0 then rs else rs[i := rs[i].(completed := true)]
  }

  /** The shared front of the four item actions: the `itemId` check and the
      id parse. `None` means go on with `Canonical(itemId)`. */
  function ItemIdCheck(itemId: FormValue, dbDown: bool): (r: Option<Reply<()>>)
    ensures !Filled(itemId) ==> r == Some(Fail({NoItemIdProvided}))
    ensures Filled(itemId) ==> (r.None? <==> !dbDown && ValidObjectId(itemId.text))
    ensures r.Some? ==> r.value.Fail? && r.value.errors != {}
  {
    if !Filled(itemId) then Some(Fail({NoItemIdProvided}))
    else if dbDown || !ValidObjectId(itemId.text) then Some(Fail({ServerSideError}))
    else None
  }

  /** The pending page's action: mark one request completed. */
  function MarkCompleted(isAdmin: bool, rs: seq<ServiceRequest>, itemId: FormValue, dbDown: bool): (r: Step<seq<ServiceRequest>, ()>)
    ensures !isAdmin ==> r == Step(LoginRedirect(), rs)
    ensures r.reply.Ok? <==> isAdmin && ItemIdCheck(itemId, dbDown).None?
    ensures !r.reply.Ok? ==> r.state == rs
    ensures |r.state| == |rs|
    ensures r.reply.Ok? ==> forall j :: 0 <= j < |rs| ==>
              r.state[j] == rs[j].(completed := rs[j].completed || j == IndexOf(rs, RequestId, Canonical(itemId.text)))
  {
    if !isAdmin then Step(LoginRedirect(), rs)
    else match ItemIdCheck(itemId, dbDown)
      case Some(reply) => Step(reply, rs)
      case None =>
        Step(Ok(()), SetCompleted(rs, Canonical(itemId.text)))
  }

  /** Marking the same request completed twice is the same as marking it once. */
  lemma MarkCompletedIdempotent(isAdmin: bool, rs: seq<ServiceRequest>, itemId: FormValue, dbDown: bool)
    ensures var once := MarkCompleted(isAdmin, rs, itemId, dbDown);
            MarkCompleted(isAdmin, once.state, itemId, dbDown) == once
  {
    var once := MarkCompleted(isAdmin, rs, itemId, dbDown);
    if once.reply.Ok? {
      IndexOfSameIds(rs, once.state, RequestId, Canonical(itemId.text));
      var twice := MarkCompleted(isAdmin, once.state, itemId, dbDown);
      forall j | 0 <= j < |rs| ensures twice.state[j] == once.state[j] { }
      assert twice.state == once.state;
    }
  }

  /** The completed page's action: delete one request, whatever its flag. */
  function DeleteRequest(isAdmin: bool, rs: seq<ServiceRequest>, itemId: FormValue, dbDown: bool): (r: Step<seq<ServiceRequest>, ()>)
    ensures !isAdmin ==> r == Step(LoginRedirect(), rs)
    ensures r.reply.Ok? <==> isAdmin && ItemIdCheck(itemId, dbDown).None?
    ensures !r.reply.Ok? ==> r.state == rs
    ensures r.reply.Ok? ==> r.state == RemoveFirst(rs, RequestId, Canonical(itemId.text))
    ensures forall x :: x in r.state ==> x in rs
  {
    if !isAdmin then Step(LoginRedirect(), rs)
    else match ItemIdCheck(itemId, dbDown)
      case Some(reply) => Step(reply, rs)
      case None =>
        var r := RemoveFirst(rs, RequestId, Canonical(itemId.text));
        assert forall x :: x in r ==> x in rs by {
          var i := IndexOf(rs, RequestId, Canonical(itemId.text));
          forall x | x in r ensures x in rs {
            var j :| 0 <= j < |r| && r[j] == x;
            if i >= 0 && j >= i { assert r[j] == rs[j + 1]; }
          }
        }
        Step(Ok(()), r)
  }

  /** Marking a pending request completed moves it from the pending listing
      to the completed one. */
  lemma CompleteMovesRequest(rs: seq<ServiceRequest>, i: int)
    requires RequestIdsOk(rs)
    requires 0 <= i < |rs| && !rs[i].completed
    ensures var r := MarkCompleted(true, rs, Text(rs[i].id), false);
            && r.reply.Ok?
            && |Pending(r.state)| == |Pending(rs)| - 1
            && |Completed(r.state)| == |Completed(rs)| + 1
            && r.state[i] in Completed(r.state)
            && r.state[i] !in Pending(r.state)
  {
    CanonicalIsCanonical(rs[i].id);
    IndexOfDistinct(rs, RequestId, i);
    var r := MarkCompleted(true, rs, Text(rs[i].id), false);
    var s := r.state;
    assert s == rs[i := rs[i].(completed := true)] by {
      forall j | 0 <= j < |rs| ensures s[j] == rs[i := rs[i].(completed := true)][j] {
        if j != i { assert rs[j].id != rs[i].id; }
      }
    }
    FilterUpdateDrops(rs, i, s[i], IsPending);
    PendingPlusCompleted(rs);
    PendingPlusCompleted(s);
  }

  /** After a request is completed and then deleted, no record with its id remains. */
  lemma RequestLifecycle(rs: seq<ServiceRequest>, i: int)
    requires RequestIdsOk(rs)
    requires 0 <= i < |rs|
    ensures var done := MarkCompleted(true, rs, Text(rs[i].id), false).state;
            var gone := DeleteRequest(true, done, Text(rs[i].id), false);
            gone.reply.Ok? && forall x :: x in gone.state ==> x.id != rs[i].id
  {
    CanonicalIsCanonical(rs[i].id);
    var done := MarkCompleted(true, rs, Text(rs[i].id), false).state;
    assert forall j :: 0 <= j < |done| ==> done[j].id == rs[j].id;
    RemoveUnique(done, RequestId, i);
  }

  /** A request accepted by the public form shows up at the end of the pending listing. */
  lemma SubmittedRequestIsPending(catalogue: seq<ServiceCatalogue.Category>, rs: seq<ServiceRequest>,
                                  f: RequestForm, now: int, freshId: string)
    ensures var r := SubmitServiceRequest(catalogue, rs, f, now, freshId, false);
            r.state != rs ==> Pending(r.state) == Pending(rs) + [r.state[|rs|]]
  {
    var r := SubmitServiceRequest(catalogue, rs, f, now, freshId, false);
    if r.state != rs {
      assert r.state == rs + [r.state[|rs|]];
      FilterAppend(rs, [r.state[|rs|]], IsPending);
      FilterSingle(r.state[|rs|], IsPending);
    }
  }

  // ----- feedback -----

  function FeedbackId(f: Feedback): string { f.id }

  predicate IsUnread(f: Feedback) { !f.red }

  predicate IsRead(f: Feedback) { f.red }

  function Unread(fs: seq<Feedback>): (r: seq<Feedback>)
    ensures forall x :: x in r <==> x in fs && !x.red
  {
    Filter(fs, IsUnread)
  }

  function Read(fs: seq<Feedback>): (r: seq<Feedback>)
    ensures forall x :: x in r <==> x in fs && x.red
  {
    Filter(fs, IsRead)
  }

  lemma UnreadPlusRead(fs: seq<Feedback>)
    ensures |Unread(fs)| + |Read(fs)| == |fs|
  {
    FilterPartition(fs, IsUnread, IsRead);
  }

  /** The unread-feedback page (admin only). */
  function LoadUnread(isAdmin: bool, fs: seq<Feedback>, dbDown: bool): (r: Reply<seq<Feedback>>)
    ensures !isAdmin ==> r == LoginRedirect()
    ensures isAdmin && dbDown ==> r == Throw(500)
    ensures r.Ok? <==> isAdmin && !dbDown
    ensures r.Ok? ==> forall x :: x in r.value <==> x in fs && !x.red
  {
    if !isAdmin then LoginRedirect()
    else if dbDown then Throw(500)
    else Ok(Unread(fs))
  }

  /** The read-feedback page; its loader checks no session. */
  function LoadRead(fs: seq<Feedback>, dbDown: bool): (r: Reply<seq<Feedback>>)
    ensures dbDown ==> r == Throw(500)
    ensures !dbDown ==> r.Ok? && forall x :: x in r.value <==> x in fs && x.red
  {
    if dbDown then Throw(500) else Ok(Read(fs))
  }

  function SetRed(fs: seq<Feedback>, id: string): (r: seq<Feedback>)
    ensures |r| == |fs|
    ensures forall j :: 0 <= j < |fs| ==> r[j] == fs[j].(red := r[j].red)
    ensures forall j :: 0 <= j < |fs| ==> (r[j].red <==> fs[j].red || j == IndexOf(fs, FeedbackId, id))
  {
    var i := IndexOf(fs, FeedbackId, id);
    if i < 0 then fs else fs[i := fs[i].(red := true)]
  }

  /** The unread page's action: mark one message read. */
  function MarkRead(isAdmin: bool, fs: seq<Feedback>, itemId: FormValue, dbDown: bool): (r: Step<seq<Feedback>, ()>)
    ensures !isAdmin ==> r == Step(LoginRedirect(), fs)
    ensures r.reply.Ok? <==> isAdmin && ItemIdCheck(itemId, dbDown).None?
    ensures !r.reply.Ok? ==> r.state == fs
    ensures |r.state| == |fs|
    ensures r.reply.Ok? ==> forall j :: 0 <= j < |fs| ==>
              r.state[j] == fs[j].(red := fs[j].red || (j == IndexOf(fs, FeedbackId, Canonical(itemId.text))))
  {
    if !isAdmin then Step(LoginRedirect(), fs)
    else match ItemIdCheck(itemId, dbDown)
      case Some(reply) => Step(reply, fs)
      case None => Step(Ok(()), SetRed(fs, Canonical(itemId.text)))
  }

  /** Marking a message read twice is the same as marking it once. */
  lemma MarkReadIdempotent(isAdmin: bool, fs: seq<Feedback>, itemId: FormValue, dbDown: bool)
    ensures var once := MarkRead(isAdmin, fs, itemId, dbDown);
            MarkRead(isAdmin, once.state, itemId, dbDown) == once
  {
    var once := MarkRead(isAdmin, fs, itemId, dbDown);
    if once.reply.Ok? {
      var id := Canonical(itemId.text);
      IndexOfSameIds(fs, once.state, FeedbackId, id);
      var twice := MarkRead(isAdmin, once.state, itemId, dbDown);
      forall j | 0 <= j < |fs| ensures twice.state[j] == once.state[j] { }
      assert twice.state == once.state;
    }
  }

  /** The HTTP methods the read-feedback page's action can be called with. */
  datatype HttpMethod = Post | Delete | Put | Patch

  /** The read page's action: only DELETE does anything, and it checks no session. */
  function DeleteFeedback(m: HttpMethod, fs: seq<Feedback>, itemId: FormValue, dbDown: bool): (r: Step<seq<Feedback>, ()>)
    ensures m != Delete ==> r == Step(NoReply, fs)
    ensures m == Delete ==> (r.reply.Ok? <==> ItemIdCheck(itemId, dbDown).None?)
    ensures !r.reply.Ok? ==> r.state == fs
    ensures r.reply.Ok? ==> r.state == RemoveFirst(fs, FeedbackId, Canonical(itemId.text))
  {
    if m != Delete then Step(NoReply, fs)
    else match ItemIdCheck(itemId, dbDown)
      case Some(reply) => Step(reply, fs)
      case None => Step(Ok(()), RemoveFirst(fs, FeedbackId, Canonical(itemId.text)))
  }

  /** Marking an unread message read moves it from the unread listing to the read one. */
  lemma ReadMovesFeedback(fs: seq<Feedback>, i: int)
    requires forall j :: 0 <= j < |fs| ==> CanonicalId(fs[j].id)
    requires 0 <= i < |fs| && !fs[i].red
    requires forall a, b :: 0 <= a < b < |fs| ==> fs[a].id != fs[b].id
    ensures var r := MarkRead(true, fs, Text(fs[i].id), false);
            && r.reply.Ok?
            && |Unread(r.state)| == |Unread(fs)| - 1
            && |Read(r.state)| == |Read(fs)| + 1
  {
    CanonicalIsCanonical(fs[i].id);
    IndexOfDistinct(fs, FeedbackId, i);
    var s := MarkRead(true, fs, Text(fs[i].id), false).state;
    assert s == fs[i := fs[i].(red := true)];
    FilterUpdateDrops(fs, i, s[i], IsUnread);
    UnreadPlusRead(fs);
    UnreadPlusRead(s);
  }

  /** A message accepted by the public form shows up at the end of the unread listing. */
  lemma SubmittedFeedbackIsUnread(fs: seq<Feedback>, f: FeedbackForm, now: int, freshId: string)
    ensures var r := SubmitFeedback(fs, f, now, freshId, false);
            r.state != fs ==> Unread(r.state) == Unread(fs) + [r.state[|fs|]]
  {
    var r := SubmitFeedback(fs, f, now, freshId, false);
    if r.state != fs {
      FilterAppend(fs, [r.state[|fs|]], IsUnread);
      FilterSingle(r.state[|fs|], IsUnread);
    }
  }

  // ----- the admin layout -----

  /** What the layout loader hands to every admin page. */
  datatype Counts = Counts(unreadFeedback: nat, pendingRequests: nat)

  /** The layout loader: session check, the admin default language `ru`,
      then the two counts. `!lang` also catches an empty `lang=`. */
  function LoadLayout(isAdmin: bool, path: string, query: Query,
                      fs: seq<Feedback>, rs: seq<ServiceRequest>, dbDown: bool): (r: Reply<Counts>)
    ensures !isAdmin ==> r == LoginRedirect()
    ensures isAdmin && !FilledParam(Get(query, "lang")) ==>
              r.Redirect? && r.to.path == path && Get(r.to.query, "lang") == Some("ru")
    ensures r.Ok? <==> isAdmin && FilledParam(Get(query, "lang")) && !dbDown
    ensures r.Ok? ==> r.value == Counts(|Unread(fs)|, |Pending(rs)|)
  {
    if !isAdmin then LoginRedirect()
    else if !FilledParam(Get(query, "lang")) then
      GetAfterSet(query, "lang", "ru");
      Redirect(Location(path, Set(query, "lang", "ru")))
    else if dbDown then Throw(500)
    else Ok(Counts(|Filter(fs, IsUnread)|, |Filter(rs, IsPending)|))
  }

  /** The two client-side badge counters. */
  datatype Badges = Badges(unread: nat, pending: nat)

  /** JavaScript's `x ? x : 0` on a count. */
  function OrZero(x: Option<nat>): nat {
    match x
    case Some(n) => if n != 0 then n else 0
    case None => 0
  }

  /** The layout component's effect: the counts are copied into the badge
      stores only when the loader answered `ok`. */
  function ApplyCounts(b: Badges, data: Reply<Counts>): (r: Badges)
    ensures !data.Ok? ==> r == b
    ensures data.Ok? ==> r == Badges(data.value.unreadFeedback, data.value.pendingRequests)
  {
    if data.Ok? then Badges(OrZero(Some(data.value.unreadFeedback)), OrZero(Some(data.value.pendingRequests)))
    else b
  }

  /** After a page load the badges show exactly the number of unread messages
      and of pending requests, each bounded by its collection. */
  lemma BadgesAfterLoad(b: Badges, path: string, query: Query,
                        fs: seq<Feedback>, rs: seq<ServiceRequest>)
    requires FilledParam(Get(query, "lang"))
    ensures var after := ApplyCounts(b, LoadLayout(true, path, query, fs, rs, false));
            && after.unread + |Read(fs)| == |fs|
            && after.pending + |Completed(rs)| == |rs|
  {
    UnreadPlusRead(fs);
    PendingPlusCompleted(rs);
  }
}

=== FILE: js_number.dfy ===
/** JavaScript's string-to-number conversion (`Number(s)` and unary `+s`) and
    `String.prototype.trim`, as far as the form handlers depend on them:
    surrounding white space is ignored, an empty string is 0, an optional sign
    is followed by decimal digits with an optional fraction or by `Infinity`,
    and anything else is NaN. */
module JsNumber {
  import opened Common

  datatype Number = Finite(v: real) | PosInfinity | NegInfinity | NaN

  /** `Number.isFinite`. */
  predicate IsFinite(n: Number) {
    n.Finite?
  }

  /** The WhiteSpace and LineTerminator characters that `trim` removes. */
  predicate IsWhitespace(c: char) {
    c == ' ' || c == '\t' || c == '\n' || c == '\r' || c == '\U{000B}' || c == '\U{000C}'
    || c == '\U{00A0}' || c == '\U{1680}' || ('\U{2000}' <= c <= '\U{200A}')
    || c == '\U{2028}' || c == '\U{2029}' || c == '\U{202F}' || c == '\U{205F}'
    || c == '\U{3000}' || c == '\U{FEFF}'
  }

  function TrimStart(s: string): (r: string)
    ensures |r| <= |s| && r == s[|s| - |r|..]
    ensures |r| == 0 || !IsWhitespace(r[0])
    ensures (forall i :: 0 <= i < |s| - |r| ==> IsWhitespace(s[i]))
  {
    if |s| > 0 && IsWhitespace(s[0]) then TrimStart(s[1..]) else s
  }

  function TrimEnd(s: string): (r: string)
    ensures |r| <= |s| && r == s[..|r|]
    ensures |r| == 0 || !IsWhitespace(r[|r| - 1])
    ensures (forall i :: |r| <= i < |s| ==> IsWhitespace(s[i]))
  {
    if |s| > 0 && IsWhitespace(s[|s| - 1]) then TrimEnd(s[..|s| - 1]) else s
  }

  /** `s.trim()`: `s` without its leading and trailing white space. */
  function Trim(s: string): (r: string)
    ensures |r| == 0 || (!IsWhitespace(r[0]) && !IsWhitespace(r[|r| - 1]))
  {
    TrimEnd(TrimStart(s))
  }

  /** A string of white space only trims to "". */
  lemma {:induction false} TrimBlank(s: string)
    ensures Trim(s) == "" <==> forall i :: 0 <= i < |s| ==> IsWhitespace(s[i])
  {
    var a := TrimStart(s);
    if forall i :: 0 <= i < |s| ==> IsWhitespace(s[i]) {
      if |a| > 0 {
        assert a[0] == s[|s| - |a|];
      }
    } else {
      var i :| 0 <= i < |s| && !IsWhitespace(s[i]);
      assert i >= |s| - |a|;
      assert a[i - (|s| - |a|)] == s[i];
      var b := TrimEnd(a);
      assert |b| > i - (|s| - |a|);
    }
  }

  predicate IsDigit(c: char) {
    '0' <= c <= '9'
  }

  predicate AllDigits(s: string) {
    forall i :: 0 <= i < |s| ==> IsDigit(s[i])
  }

  function Pow10(n: nat): (r: nat)
    ensures r >= 1
  {
    if n == 0 then 1 else 10 * Pow10(n - 1)
  }

  /** The value of a string of decimal digits, most significant first. */
  function DigitsValue(s: string): nat
    requires AllDigits(s)
  {
    if |s| == 0 then 0
    else DigitsValue(s[..|s| - 1]) * 10 + (s[|s| - 1] as int - '0' as int)
  }

  /** Index of the first `c` in `s`, or -1. */
  function IndexOfChar(s: string, c: char): (r: int)
    ensures -1 <= r < |s|
    ensures r >= 0 ==> s[r] == c && forall i :: 0 <= i < r ==> s[i] != c
    ensures r == -1 ==> forall i :: 0 <= i < |s| ==> s[i] != c
  {
    if |s| == 0 then -1
    else if s[0] == c then 0
    else var r := IndexOfChar(s[1..], c); if r == -1 then -1 else r + 1
  }

  /** 2^1024 - 2^970, halfway between the largest finite double and 2^1024:
      a decimal value at least this large rounds to an infinity (section
      6.1.6.1 of ECMA-262, ties going to the even 2^1024). */
  const OverflowBound: real := 179769313486231580793728971405303415079934132710037826936173778980444968292764750946649017977587207096330286416692887910946555547851940402630657488671505820681908902000708383676273854845817711531764475730270069855571366959622842914819860834936475292719074168444365510704342711559699508093042880177904174497792.0

  /** `Number.MAX_SAFE_INTEGER`, 2^53 - 1: every integer of at most this
      magnitude is a double, so reading its decimal form involves no rounding. */
  const MaxSafeInteger: int := 9007199254740991

  /** A decimal literal without sign: `Infinity`, or digits with an optional
      `.` and fraction digits, at least one digit in all. A value past the
      range of doubles is `Infinity`. */
  function ParseUnsigned(s: string): (r: Number)
    ensures r.Finite? ==> 0.0 <= r.v < OverflowBound
  {
    if s == "Infinity" then PosInfinity
    else
      var dot := IndexOfChar(s, '.');
      var whole := if dot < 0 then s else s[..dot];
      var frac := if dot < 0 then "" else s[dot + 1..];
      if AllDigits(whole) && AllDigits(frac) && |whole| + |frac| > 0 then
        var x := DecimalValue(DigitsValue(whole), DigitsValue(frac), Pow10(|frac|));
        if x >= OverflowBound then PosInfinity else Finite(x)
      else NaN
  }

  /** `whole.frac` with `frac` read over `scale` (a power of ten). */
  function DecimalValue(whole: nat, frac: nat, scale: nat): (r: real)
    requires scale >= 1
    ensures r >= whole as real
  {
    var f := frac as real / scale as real;
    assert f * scale as real == frac as real;
    whole as real + f
  }

  function Negate(n: Number): Number {
    match n
    case Finite(v) => Finite(-v)
    case PosInfinity => NegInfinity
    case NegInfinity => PosInfinity
    case NaN => NaN
  }

  /** `Number(s)` for a string `s`. */
  function ToNumber(s: string): Number
  {
    var t := Trim(s);
    if t == "" then Finite(0.0)
    else if t[0] == '+' then ParseUnsigned(t[1..])
    else if t[0] == '-' then Negate(ParseUnsigned(t[1..]))
    else ParseUnsigned(t)
  }

  // ----- decimal printing, the partner of ToNumber -----

  function DigitChar(d: nat): char
    requires d < 10
  {
    ('0' as int + d) as char
  }

  /** The decimal representation of `n`, as `String(n)` prints it. */
  function NatToString(n: nat): (r: string)
    ensures |r| > 0 && AllDigits(r)
  {
    if n < 10 then [DigitChar(n)] else NatToString(n / 10) + [DigitChar(n % 10)]
  }

  function IntToString(i: int): string {
    if i < 0 then "-" + NatToString(-i) else NatToString(i)
  }

  lemma {:induction false} DigitsOfNat(n: nat)
    ensures DigitsValue(NatToString(n)) == n
  {
    if n >= 10 {
      var s := NatToString(n);
      assert s[..|s| - 1] == NatToString(n / 10);
      DigitsOfNat(n / 10);
    }
  }

  lemma TrimDigits(s: string)
    requires |s| > 0 && AllDigits(s)
    ensures Trim(s) == s
  {
    assert IsDigit(s[0]) && IsDigit(s[|s| - 1]);
    TrimKeepsEdges(s);
  }

  /** A string that starts and ends with non-blank characters trims to itself. */
  lemma TrimKeepsEdges(s: string)
    requires |s| > 0 && !IsWhitespace(s[0]) && !IsWhitespace(s[|s| - 1])
    ensures Trim(s) == s
  {
    assert TrimStart(s) == s;
    assert TrimEnd(s) == s;
  }

  /** Digits alone read as their value, or as `Infinity` past the range of doubles. */
  lemma ParseDigits(d: string)
    requires |d| > 0 && AllDigits(d)
    ensures var x := DigitsValue(d) as real;
            ParseUnsigned(d) == if x >= OverflowBound then PosInfinity else Finite(x)
  {
    var dot := IndexOfChar(d, '.');
    assert dot == -1;
    assert d != "Infinity" by {
      assert IsDigit(d[0]);
      assert !IsDigit("Infinity"[0]);
    }
    assert AllDigits("") && DigitsValue("") == 0 && Pow10(0) == 1;
  }

  /** Digits, a point and fraction digits read as the decimal value, or as
      `Infinity` past the range of doubles. */
  lemma ParseDecimal(w: string, f: string)
    requires AllDigits(w) && AllDigits(f) && |w| + |f| > 0
    ensures var x := DecimalValue(DigitsValue(w), DigitsValue(f), Pow10(|f|));
            ParseUnsigned(w + "." + f) == if x >= OverflowBound then PosInfinity else Finite(x)
  {
    var s := w + "." + f;
    var dot := IndexOfChar(s, '.');
    assert s[|w|] == '.';
    assert dot == |w|;
    assert s[..dot] == w && s[dot + 1..] == f;
    assert s != "Infinity" by {
      if |w| > 0 { assert s[0] == w[0] && IsDigit(w[0]); } else { assert s[0] == '.'; }
    }
  }

  /** `Number` of a decimal with digits on both sides of the point is its
      unsigned reading. */
  lemma ToNumberOfDecimal(w: string, f: string)
    requires |w| > 0 && |f| > 0 && AllDigits(w) && AllDigits(f)
    ensures ToNumber(w + "." + f) == ParseUnsigned(w + "." + f)
  {
    var s := w + "." + f;
    assert s[0] == w[0] && IsDigit(w[0]);
    assert s[|s| - 1] == f[|f| - 1] && IsDigit(f[|f| - 1]);
    TrimKeepsEdges(s);
  }

  /** The literal `12.5` reads as 12.5. */
  lemma ToNumberOfTwelveAndAHalf()
    ensures ToNumber("12.5") == Finite(12.5)
  {
    assert "12.5" == "12" + "." + "5";
    assert AllDigits("12") && AllDigits("5");
    ToNumberOfDecimal("12", "5");
    ParseTwelveAndAHalf();
  }

  lemma ParseTwelveAndAHalf()
    ensures ParseUnsigned("12" + "." + "5") == Finite(12.5)
  {
    assert AllDigits("12") && AllDigits("5");
    ParseDecimal("12", "5");
    DigitsTwelveFive();
    assert DecimalValue(12, 5, 10) == 12.5;
  }

  lemma DigitsTwelveFive()
    ensures AllDigits("12") && DigitsValue("12") == 12
    ensures AllDigits("5") && DigitsValue("5") == 5
  {
    assert "12"[..1] == "1";
    assert "5"[..0] == "";
  }

  /** `Number` of a digit string is the unsigned reading of it. */
  lemma ToNumberOfDigits(d: string)
    requires |d| > 0 && AllDigits(d)
    ensures ToNumber(d) == ParseUnsigned(d)
  {
    TrimDigits(d);
    assert IsDigit(d[0]);
  }

  lemma ToNumberOfNegativeDigits(d: string)
    requires |d| > 0 && AllDigits(d)
    ensures ToNumber("-" + d) == Negate(ToNumber(d))
  {
    SignedIsNegated(d);
    ToNumberOfDigits(d);
  }

  lemma NegateFinite(p: Number, v: real)
    requires p == Finite(v)
    ensures Negate(p) == Finite(-v)
  {
  }

  lemma SignedIsNegated(d: string)
    requires |d| > 0 && AllDigits(d)
    ensures ToNumber("-" + d) == Negate(ParseUnsigned(d))
  {
    var s := "-" + d;
    TrimSignedDigits(d);
    assert s[0] == '-' && s[1..] == d;
  }

  lemma TrimSignedDigits(d: string)
    requires |d| > 0 && AllDigits(d)
    ensures Trim("-" + d) == "-" + d
  {
    var s := "-" + d;
    assert s[|s| - 1] == d[|d| - 1] && IsDigit(d[|d| - 1]);
    TrimKeepsEdges(s);
  }

  /** Printing a safe integer and reading it back gives the same number. */
  lemma {:induction false} ToNumberOfIntToString(i: int)
    requires -MaxSafeInteger <= i <= MaxSafeInteger
    ensures ToNumber(IntToString(i)) == Finite(i as real)
  {
    if i < 0 {
      var n: nat := -i;
      assert IntToString(i) == "-" + NatToString(n);
      ToNumberOfNegative(n);
      assert -(n as real) == i as real;
    } else {
      var d := NatToString(i);
      assert IntToString(i) == d;
      DigitsOfNat(i);
      ToNumberOfDigits(d);
      ParseDigits(d);
    }
  }

  /** A printed negative safe integer reads back as its value. */
  lemma ToNumberOfNegative(n: nat)
    requires n <= MaxSafeInteger
    ensures ToNumber("-" + NatToString(n)) == Finite(-(n as real))
  {
    var d := NatToString(n);
    DigitsOfNat(n);
    ToNumberOfDigits(d);
    ParseDigits(d);
    var x := n as real;
    assert ToNumber(d) == Finite(x);
    ToNumberOfNegativeDigits(d);
    NegateFinite(ToNumber(d), x);
  }

  /** A printed whole number past the range of doubles reads back as an
      infinity of its sign. */
  lemma ToNumberOfHuge(n: nat)
    requires n as real >= OverflowBound
    ensures ToNumber(NatToString(n)) == PosInfinity
    ensures ToNumber("-" + NatToString(n)) == NegInfinity
  {
    var d := NatToString(n);
    DigitsOfNat(n);
    ParseDigits(d);
    ToNumberOfDigits(d);
    ToNumberOfNegativeDigits(d);
  }
}

=== FILE: language.dfy ===
/** Language selection on the public pages. The site language travels in the
    `lang` query parameter as `ee` or `ru`; the document's `lang` attribute
    uses the language tags `et` and `ru` (Estonian's primary subtag is `et`,
    section 2.2.1 of RFC 5646). */
module Language {
  import opened Common
  import opened SearchParams

  const Site := "https://abik.ee"

  /** The public default language. */
  const DefaultLang := "ee"

  predicate Supported(lang: string) {
    lang == "ee" || lang == "ru"
  }

  /** The requested language if supported, else the default. */
  function SafeLang(lang: string): (r: string)
    ensures Supported(r)
    ensures Supported(lang) ==> r == lang
    ensures !Supported(lang) ==> r == DefaultLang
  {
    if Supported(lang) then lang else DefaultLang
  }

  /** The site-language to document-language map, with `et` for anything
      not in the map. */
  function HtmlLang(lang: string): (r: string)
    ensures r == "et" || r == "ru"
    ensures r == "ru" <==> lang == "ru"
  {
    if lang == "ee" then "et" else if lang == "ru" then "ru" else "et"
  }

  /** The root loader: without a (non-empty) `lang` it redirects to the same
      URL with `lang=ee`, every other parameter kept; otherwise it hands the
      document language to the layout. */
  function RootLoader(path: string, query: Query): (r: Reply<string>)
    ensures !FilledParam(Get(query, "lang")) ==>
              && r.Redirect? && r.to.path == path
              && Get(r.to.query, "lang") == Some(DefaultLang)
              && forall k :: k != "lang" ==> Get(r.to.query, k) == Get(query, k)
    ensures FilledParam(Get(query, "lang")) ==>
              r == Ok(HtmlLang(SafeLang(Get(query, "lang").value)))
  {
    var lang := Get(query, "lang");
    if !FilledParam(lang) then
      GetAfterSet(query, "lang", DefaultLang);
      assert forall k :: k != "lang" ==> Get(Set(query, "lang", DefaultLang), k) == Get(query, k) by {
        forall k | k != "lang" ensures Get(Set(query, "lang", DefaultLang), k) == Get(query, k) {
          GetOtherAfterSet(query, "lang", DefaultLang, k);
        }
      }
      Redirect(Location(path, Set(query, "lang", DefaultLang)))
    else Ok(HtmlLang(SafeLang(lang.value)))
  }

  /** The document language: `ru` exactly for `lang=ru`, `et` for everything else. */
  lemma DocumentLanguage(path: string, query: Query)
    requires FilledParam(Get(query, "lang"))
    ensures RootLoader(path, query) == Ok(if Get(query, "lang") == Some("ru") then "ru" else "et")
  {
  }

  /** The head tags of the home page that depend on the language. */
  datatype Meta = Meta(lang: string, canonical: string, alternates: seq<(string, string)>, ogUrl: string)

  function PageUrl(path: string, lang: string): string {
    Site + path + "?lang=" + lang
  }

  /** The home page's `meta`: `ru` iff the raw parameter is `ru`, otherwise
      `ee`; the canonical and Open Graph URLs carry that language, and the
      alternates list both languages plus the default. */
  function HomeMeta(path: string, query: Query): (r: Meta)
    ensures Supported(r.lang)
    ensures r.lang == "ru" <==> Get(query, "lang") == Some("ru")
    ensures r.canonical == r.ogUrl == PageUrl(path, r.lang)
    ensures r.alternates == [("et", PageUrl(path, "ee")), ("ru", PageUrl(path, "ru")), ("x-default", PageUrl(path, "ee"))]
  {
    var raw := Get(query, "lang").GetOr("ee");
    var lang := if raw == "ru" then "ru" else "ee";
    Meta(lang, PageUrl(path, lang), [("et", PageUrl(path, "ee")), ("ru", PageUrl(path, "ru")), ("x-default", PageUrl(path, "ee"))],
         PageUrl(path, lang))
  }

  /** Whenever the root loader renders, the canonical URL's language is the
      one the document is marked with. */
  lemma MetaAgreesWithRoot(path: string, query: Query)
    requires FilledParam(Get(query, "lang"))
    ensures var doc := RootLoader(path, query).value;
            var m := HomeMeta(path, query);
            && m.lang == SafeLang(Get(query, "lang").value)
            && (doc == "ru" <==> m.lang == "ru")
  {
  }
}

=== FILE: lightbox.dfy ===
/** The gallery lightbox: a store holding the image list, the active image
    and the open flag, and the component's navigation, button-disable and
    counter logic, all driven by the first position of the active image. */
module Lightbox {
  import opened Common

  // ----- the store -----

  /** `images` and `activeImage` start out undefined. */
  datatype Store = Store(images: Option<seq<string>>, active: Option<string>, isOpen: bool)

  const Initial := Store(None, None, false)

  function SetImages(s: Store, images: seq<string>): (r: Store)
    ensures r.images == Some(images)
    ensures r.active == s.active && r.isOpen == s.isOpen
  {
    s.(images := Some(images))
  }

  /** Any string is accepted, whether or not it is in the list. */
  function SetActiveImage(s: Store, image: string): (r: Store)
    ensures r.active == Some(image)
    ensures r.images == s.images && r.isOpen == s.isOpen
  {
    s.(active := Some(image))
  }

  function OpenLightbox(s: Store): (r: Store)
    ensures r.isOpen
    ensures r.images == s.images && r.active == s.active
  {
    s.(isOpen := true)
  }

  function CloseLightbox(s: Store): (r: Store)
    ensures !r.isOpen
    ensures r.images == s.images && r.active == s.active
  {
    s.(isOpen := false)
  }

  /** Closing and reopening resumes at the same image of the same list. */
  lemma ReopenResumes(s: Store)
    requires s.isOpen
    ensures OpenLightbox(CloseLightbox(s)) == s
  {
  }

  /** Loading a new list keeps the old active image, which then may not be in it. */
  lemma NewListKeepsActive(s: Store, images: seq<string>)
    requires s.active.Some? && s.active.value !in images
    ensures FirstIndex(SetImages(s, images)) == -1
  {
  }

  // ----- navigation -----

  /** `images.findIndex(item => item === activeImage)` over a defined list:
      the first position of the active image, or -1 (also when no image is
      active, since no string equals `undefined`). */
  function FirstIndex(s: Store): (r: int)
    ensures s.images.None? ==> r == -1
    ensures s.images.Some? ==> -1 <= r < |s.images.value|
    ensures r >= 0 ==> s.active.Some? && s.images.value[r] == s.active.value
                       && forall j :: 0 <= j < r ==> s.images.value[j] != s.active.value
    ensures r == -1 <==> s.images.None? || s.active.None? || s.active.value !in s.images.value
  {
    if s.images.None? || s.active.None? then -1
    else IndexOf(s.images.value, Id, s.active.value)
  }

  function Id(x: string): string { x }

  /** The next-image button. Without a list the handler fails on `images!`
      before it changes anything. */
  function Next(s: Store): (r: Store)
    ensures r.images == s.images && r.isOpen == s.isOpen
    ensures var i := FirstIndex(s);
            0 <= i < |s.images.value| - 1 ==> r.active == Some(s.images.value[i + 1])
    ensures var i := FirstIndex(s);
            !(0 <= i && s.images.Some? && i < |s.images.value| - 1) ==> r == s
  {
    var i := FirstIndex(s);
    if i >= 0 && i < |s.images.value| - 1 then SetActiveImage(s, s.images.value[i + 1]) else s
  }

  /** The previous-image button. */
  function Previous(s: Store): (r: Store)
    ensures r.images == s.images && r.isOpen == s.isOpen
    ensures FirstIndex(s) > 0 ==> r.active == Some(s.images.value[FirstIndex(s) - 1])
    ensures FirstIndex(s) <= 0 ==> r == s
  {
    var i := FirstIndex(s);
    if i > 0 then SetActiveImage(s, s.images.value[i - 1]) else s
  }

  /** Without repeated entries, Previous undoes Next wherever Next moves. */
  lemma PreviousUndoesNext(s: Store)
    requires s.images.Some? && Distinct(s.images.value)
    requires 0 <= FirstIndex(s) < |s.images.value| - 1
    ensures Previous(Next(s)) == s
  {
    var imgs := s.images.value;
    var i := FirstIndex(s);
    var t := Next(s);
    assert FirstIndex(t) == i + 1 by {
      var k := FirstIndex(t);
      assert imgs[i + 1] == t.active.value;
    }
  }

  /** With a repeated entry, navigation follows the first copy: in
      `[a, b, a]` starting at `a`, Next alternates between `b` and `a` and
      never reaches the third position. */
  lemma RepeatedEntryCycles(a: string, b: string)
    requires a != b
    ensures var s := Store(Some([a, b, a]), Some(a), true);
            && Next(s).active == Some(b)
            && Next(Next(s)).active == Some(a)
            && Next(Next(Next(s))) == Next(s)
  {
    var s := Store(Some([a, b, a]), Some(a), true);
    assert FirstIndex(s) == 0;
    assert FirstIndex(Next(s)) == 1;
    assert Next(Next(s)) == s;
  }

  // ----- button states and counter -----

  /** The component's local state: the two disabled flags and the tracked index. */
  datatype View = View(previousDisabled: bool, nextDisabled: bool, index: Option<int>)

  const InitialView := View(false, false, None)

  /** The effect that runs whenever the list or the active image changes; it
      does nothing while the list is undefined. */
  function Refresh(v: View, s: Store): (r: View)
    ensures s.images.None? ==> r == v
    ensures s.images.Some? ==> r.index == Some(FirstIndex(s))
    ensures s.images.Some? ==> (r.previousDisabled <==> FirstIndex(s) == 0)
    ensures s.images.Some? ==> (r.nextDisabled <==> FirstIndex(s) != 0 && FirstIndex(s) == |s.images.value| - 1)
  {
    if s.images.None? then v
    else
      var i := FirstIndex(s);
      if i == 0 then View(true, false, Some(i))
      else if i == |s.images.value| - 1 then View(false, true, Some(i))
      else View(false, false, Some(i))
  }

  /** With at least two distinct images and an active one among them, a
      button is disabled exactly when clicking it would change nothing. */
  lemma ButtonsMatchMoves(v: View, s: Store)
    requires s.images.Some? && |s.images.value| >= 2 && Distinct(s.images.value)
    requires FirstIndex(s) >= 0
    ensures Refresh(v, s).previousDisabled <==> Previous(s) == s
    ensures Refresh(v, s).nextDisabled <==> Next(s) == s
  {
    var imgs := s.images.value;
    var i := FirstIndex(s);
    if i > 0 { assert imgs[i - 1] != imgs[i]; }
    if i < |imgs| - 1 { assert imgs[i + 1] != imgs[i]; }
  }

  /** A single image: previous is disabled, next stays enabled although it
      cannot move. An empty list: next is disabled, previous is enabled. */
  lemma EdgeLists(v: View, x: string, active: Option<string>, isOpen: bool)
    ensures var one := Store(Some([x]), Some(x), isOpen);
            && Refresh(v, one) == View(true, false, Some(0))
            && Next(one) == one
    ensures Refresh(v, Store(Some([]), active, isOpen)) == View(false, true, Some(-1))
  {
    assert FirstIndex(Store(Some([x]), Some(x), isOpen)) == 0;
  }

  /** The counter `index+1 / length`: the left part is blank until the
      effect has run, the right part blank while the list is undefined. */
  function Counter(v: View, s: Store): (r: (Option<int>, Option<nat>))
    ensures r.0.Some? <==> v.index.Some?
    ensures r.1.Some? <==> s.images.Some?
  {
    (if v.index.Some? then Some(v.index.value + 1) else None,
     if s.images.Some? then Some(|s.images.value|) else None)
  }

  /** Clicking thumbnail k of a list without repeats makes it the active
      image, and the counter then reads `k+1 / n`. */
  lemma ThumbnailClick(v: View, s: Store, k: int)
    requires s.images.Some? && Distinct(s.images.value)
    requires 0 <= k < |s.images.value|
    ensures var t := SetActiveImage(s, s.images.value[k]);
            && FirstIndex(t) == k
            && Counter(Refresh(v, t), t) == (Some(k + 1), Some(|s.images.value|))
  {
  }

  /** An active image outside the list shows as `0 / n`. */
  lemma CounterOfStrayImage(v: View, s: Store)
    requires s.images.Some? && s.active.Some? && s.active.value !in s.images.value
    ensures Counter(Refresh(v, s), s) == (Some(0), Some(|s.images.value|))
  {
  }
}

=== FILE: paths.dfy ===
/** POSIX path pieces used by the gallery handlers: Node's `path.basename`,
    the last `/`-segment that the admin page takes from an image path, and
    the entry names a directory can hold. */
module Paths {
  import opened Common

  predicate NoSlash(s: string) {
    forall i :: 0 <= i < |s| ==> s[i] != '/'
  }

  /** A name that denotes an entry inside a directory rather than the
      directory itself ("" and ".") or its parent (".."). */
  predicate PlainName(n: string) {
    n != "" && n != "." && n != ".." && NoSlash(n)
  }

  /** Segment names that `path.join(folder, n)` resolves to an existing directory. */
  predicate DirectoryAlias(n: string) {
    n == "" || n == "." || n == ".."
  }

  /** The text after the last '/', which is the last element of `s.split("/")`. */
  function LastSegment(s: string): (r: string)
    ensures NoSlash(r)
    ensures |r| <= |s| && r == s[|s| - |r|..]
    ensures NoSlash(s) ==> r == s
    decreases |s|
  {
    if |s| == 0 then ""
    else if s[|s| - 1] == '/' then ""
    else LastSegment(s[..|s| - 1]) + [s[|s| - 1]]
  }

  function StripTrailingSlashes(s: string): (r: string)
    ensures |r| <= |s| && r == s[..|r|]
    ensures |r| == 0 || r[|r| - 1] != '/'
    ensures NoSlash(s) ==> r == s
    decreases |s|
  {
    if |s| > 0 && s[|s| - 1] == '/' then StripTrailingSlashes(s[..|s| - 1]) else s
  }

  /** Node's POSIX `path.basename(s)`: trailing separators are ignored and the
      last remaining segment is returned ("" for a path made of slashes only). */
  function Basename(s: string): (r: string)
    ensures NoSlash(r)
    ensures PlainName(r) || DirectoryAlias(r)
    ensures NoSlash(s) ==> r == s
  {
    LastSegment(StripTrailingSlashes(s))
  }

  /** Appending segments after a '/' cannot change what the basename of the
      last segment is: `basename(dir + "/" + e) == e` for a plain entry `e`. */
  lemma {:induction false} BasenameOfJoin(dir: string, e: string)
    requires PlainName(e)
    ensures Basename(dir + "/" + e) == e
    ensures LastSegment(dir + "/" + e) == e
  {
    var s := dir + "/" + e;
    assert StripTrailingSlashes(s) == s;
    LastSegmentOfJoin(dir, e);
  }

  lemma {:induction false} LastSegmentOfJoin(dir: string, e: string)
    requires NoSlash(e)
    ensures LastSegment(dir + "/" + e) == e
    decreases |e|
  {
    if |e| == 0 {
      LastSegmentAfter(dir, '/');
      assert dir + "/" + e == dir + ['/'];
    } else {
      var e' := e[..|e| - 1];
      var c := e[|e| - 1];
      LastSegmentOfJoin(dir, e');
      LastSegmentAfter(dir + "/" + e', c);
      assert dir + "/" + e == (dir + "/" + e') + [c];
      assert e == e' + [c];
    }
  }

  /** One more character: a '/' ends the segment, anything else extends it. */
  lemma LastSegmentAfter(p: string, c: char)
    ensures LastSegment(p + [c]) == if c == '/' then "" else LastSegment(p) + [c]
  {
    assert (p + [c])[..|p|] == p;
  }

  /** `path.basename` of a basename is itself. */
  lemma BasenameIdempotent(s: string)
    ensures Basename(Basename(s)) == Basename(s)
  {
  }
}

=== FILE: public_forms.dfy ===
/** The two public forms: a request for one service of the catalogue, and a
    feedback message. Both run the same fixed ladder of checks (agreement,
    honeypot, required fields, timestamp window, then size and e-mail shape)
    before a single record is written. */
module PublicForms {
  import opened Common
  import opened JsNumber
  import opened ServiceCatalogue

  // ----- stored records -----

  /** A service request: a snapshot of the chosen service taken at submission. */
  datatype ServiceRequest = ServiceRequest(
    id: string, email: string, phoneNumber: Option<string>,
    categoryTitle: Title, serviceTitle: Title, price: Price, priceType: string,
    completed: bool)

  /** A feedback message; `red` records whether an admin has read it. */
  datatype Feedback = Feedback(id: string, email: string, message: string, red: bool)

  /** The request schema's price validator: a number, or the string `"volumeBased"`. */
  predicate ValidRequestPrice(p: Price) {
    p.NumberPrice? || p == TextPrice("volumeBased")
  }

  /** The request schema: e-mail, both service titles, price type and both
      category titles required, and a valid price. */
  predicate ValidServiceRequest(r: ServiceRequest) {
    && r.email != "" && TitleRequired(r.serviceTitle) && TitleRequired(r.categoryTitle)
    && r.priceType != "" && ValidRequestPrice(r.price)
  }

  /** The feedback schema: e-mail and message required. */
  predicate ValidFeedback(f: Feedback) {
    f.email != "" && f.message != ""
  }

  // ----- the shared checks -----

  /** The agreement checkbox must have been sent as exactly `"on"`. */
  predicate Agreed(v: FormValue) {
    v == Text("on")
  }

  /** A honeypot field holding any non-blank text marks the sender as a bot. */
  predicate HoneypotFilled(v: FormValue) {
    v.Text? && Trim(v.text) != ""
  }

  /** The longest accepted e-mail address and feedback message. */
  const MaxLength := 200

  /** Submissions younger than this many milliseconds are dropped silently. */
  const MinAgeMs := 1500

  /** Submissions older than this many milliseconds (one hour) are refused. */
  const MaxAgeMs := 1000 * 60 * 60

  predicate EmailShape(email: string) {
    ContainsChar(email, '@') && |email| <= MaxLength
  }

  /** Where a form timestamp falls relative to `now`. */
  datatype TsVerdict = TsInvalid | TooFast | Expired | InWindow

  function CheckTimestamp(ts: string, now: int): (r: TsVerdict)
    ensures r == TsInvalid <==> !IsFinite(ToNumber(ts))
    ensures r == TooFast <==> IsFinite(ToNumber(ts)) && now as real - ToNumber(ts).v < MinAgeMs as real
    ensures r == Expired <==> IsFinite(ToNumber(ts)) && now as real - ToNumber(ts).v > MaxAgeMs as real
    ensures r == InWindow <==> IsFinite(ToNumber(ts))
                               && MinAgeMs as real <= now as real - ToNumber(ts).v <= MaxAgeMs as real
  {
    var n := ToNumber(ts);
    if !IsFinite(n) then TsInvalid
    else if now as real - n.v < MinAgeMs as real then TooFast
    else if now as real - n.v > MaxAgeMs as real then Expired
    else InWindow
  }

  /** A form stamped with a whole number of milliseconds `age` ms ago falls in
      the window exactly when 1500 <= age <= 3600000. */
  lemma TimestampWindow(stamp: int, now: int)
    requires -MaxSafeInteger <= stamp <= MaxSafeInteger
    ensures var r := CheckTimestamp(IntToString(stamp), now);
            && (r == InWindow <==> MinAgeMs <= now - stamp <= MaxAgeMs)
            && (r == TooFast <==> now - stamp < MinAgeMs)
            && (r == Expired <==> now - stamp > MaxAgeMs)
  {
    ToNumberOfIntToString(stamp);
    assert ToNumber(IntToString(stamp)).v == stamp as real;
  }

  /** A stamp of either sign too large for a double reads as an infinity, so
      it is refused as invalid rather than timed. */
  lemma HugeStampInvalid(n: nat, now: int)
    requires n as real >= OverflowBound
    ensures CheckTimestamp(NatToString(n), now) == TsInvalid
    ensures CheckTimestamp("-" + NatToString(n), now) == TsInvalid
  {
    ToNumberOfHuge(n);
  }

  // ----- service request -----

  datatype RequestForm = RequestForm(
    email: FormValue, categoryId: FormValue, serviceId: FormValue, phone: FormValue,
    agreement: FormValue, honeypot: FormValue, ts: FormValue)

  /** The category title and the item of the first item in storage order whose
      id is `id`: what `findOne` on `content._id` with `$elemMatch` returns. */
  function FindService(db: seq<Category>, id: string): (r: Option<(Title, ContentItem)>)
    ensures r.Some? ==> exists i, k :: 0 <= i < |db| && 0 <= k < |db[i].content|
                          && db[i].content[k] == r.value.1 && db[i].title == r.value.0 && r.value.1.id == id
    ensures r.None? <==> forall i, k :: 0 <= i < |db| && 0 <= k < |db[i].content| ==> db[i].content[k].id != id
  {
    if |db| == 0 then None
    else
      var k := IndexOfItem(db[0].content, id);
      if k >= 0 then Some((db[0].title, db[0].content[k]))
      else
        var r := FindService(db[1..], id);
        assert r.None? ==> forall i, k :: 0 <= i < |db| && 0 <= k < |db[i].content| ==> db[i].content[k].id != id by {
          if r.None? {
            forall i, k | 0 <= i < |db| && 0 <= k < |db[i].content| ensures db[i].content[k].id != id {
              if i > 0 { assert db[i] == db[1..][i - 1]; }
            }
          }
        }
        if r.Some? then
          assert exists i, k :: 0 <= i < |db| && 0 <= k < |db[i].content|
                   && db[i].content[k] == r.value.1 && db[i].title == r.value.0 && r.value.1.id == id by {
            var i, k :| 0 <= i < |db[1..]| && 0 <= k < |db[1..][i].content|
                        && db[1..][i].content[k] == r.value.1 && db[1..][i].title == r.value.0 && r.value.1.id == id;
            assert db[i + 1] == db[1..][i];
          }
          r
        else r
  }

  /** JavaScript's unary `+` on a stored price. */
  function PriceToNumber(p: Price): Number {
    match p
    case NumberPrice(n) => n
    case TextPrice(s) => ToNumber(s)
    case FilePrice => NaN
  }

  /** The price written into a request: `"volumeBased"` stays, anything else
      becomes `+price`. */
  function SnapshotPrice(p: Price): (r: Price)
    ensures ValidRequestPrice(r)
    ensures p == TextPrice("volumeBased") <==> r == TextPrice("volumeBased")
  {
    if p == TextPrice("volumeBased") then p else NumberPrice(PriceToNumber(p))
  }

  /** A price entered in the admin form as a decimal integer (stored there as
      text) reaches the request as that number. */
  lemma SnapshotOfTypedPrice(i: int)
    requires -MaxSafeInteger <= i <= MaxSafeInteger
    ensures SnapshotPrice(TextPrice(IntToString(i))) == NumberPrice(Finite(i as real))
  {
    ToNumberOfIntToString(i);
  }

  /** A price typed with a fraction reaches the request as its decimal value. */
  lemma SnapshotOfFractionPrice()
    ensures SnapshotPrice(TextPrice("12.5")) == NumberPrice(Finite(12.5))
  {
    ToNumberOfTwelveAndAHalf();
  }

  /** `formData.get("serviceRequestTel")` as stored: absent unless a non-empty string. */
  function PhoneOf(v: FormValue): (r: Option<string>)
    ensures r.Some? <==> Filled(v)
    ensures r.Some? ==> r.value == v.text
  {
    if Filled(v) then Some(v.text) else None
  }

  /** The record the handler writes for the item found, before the schema is applied. */
  function RequestRecord(id: string, email: string, phone: FormValue, category: Title, item: ContentItem): ServiceRequest {
    ServiceRequest(id, email, PhoneOf(phone), category, Title(item.ee, item.ru),
                   SnapshotPrice(item.price), item.priceType, false)
  }

  /** The submission ladder up to the database step: `None` to go on, or the reply. */
  function RequestChecks(f: RequestForm, now: int): (r: Option<Reply<()>>)
    ensures !Agreed(f.agreement) ==> r == Some(Fail({ProceedAgreementWasNotProvided}))
    ensures Agreed(f.agreement) && HoneypotFilled(f.honeypot) ==> r == Some(Ok(()))
    ensures r.None? <==>
              && Agreed(f.agreement) && !HoneypotFilled(f.honeypot)
              && Filled(f.email) && Filled(f.ts) && Filled(f.categoryId) && Filled(f.serviceId)
              && CheckTimestamp(f.ts.text, now) == InWindow
              && EmailShape(f.email.text)
  {
    if !Agreed(f.agreement) then Some(Fail({ProceedAgreementWasNotProvided}))
    else if HoneypotFilled(f.honeypot) then Some(Ok(()))
    else if !Filled(f.email) || !Filled(f.ts) || !Filled(f.categoryId) || !Filled(f.serviceId) then
      Some(Fail({NoCredentialsProvided}))
    else match CheckTimestamp(f.ts.text, now)
      case TsInvalid => Some(Fail({InvalidTs}))
      case TooFast => Some(Ok(()))
      case Expired => Some(Fail({FormExpired}))
      case InWindow =>
        if !EmailShape(f.email.text) then Some(Fail({InvalidEmail})) else None
  }

  /** The public service-request action. The item is looked up by the service
      id alone; the submitted category id only has to be present. */
  function SubmitServiceRequest(catalogue: seq<Category>, requests: seq<ServiceRequest>, f: RequestForm,
                                now: int, freshId: string, dbDown: bool): (r: Step<seq<ServiceRequest>, ()>)
    ensures r.reply.Ok? || r.reply.Fail?
    ensures RequestChecks(f, now).Some? ==> r == Step(RequestChecks(f, now).value, requests)
    // at most one record is written, and only when every check passed
    ensures r.state != requests ==>
              && RequestChecks(f, now).None? && !dbDown && ValidObjectId(f.serviceId.text)
              && FindService(catalogue, Canonical(f.serviceId.text)).Some?
              && var found := FindService(catalogue, Canonical(f.serviceId.text)).value;
                 && r.state == requests + [RequestRecord(freshId, f.email.text, f.phone, found.0, found.1)]
                 && ValidServiceRequest(r.state[|requests|])
                 && !r.state[|requests|].completed
                 && r.reply == Ok(())
    ensures RequestChecks(f, now).None? && r.state == requests ==> r.reply == Fail({ServerSideError})
  {
    match RequestChecks(f, now)
    case Some(reply) => Step(reply, requests)
    case None =>
      if dbDown || !ValidObjectId(f.serviceId.text) then Step(Fail({ServerSideError}), requests)
      else match FindService(catalogue, Canonical(f.serviceId.text))
        case None => Step(Fail({ServerSideError}), requests)
        case Some(found) =>
          var rec := RequestRecord(freshId, f.email.text, f.phone, found.0, found.1);
          if ValidServiceRequest(rec) then
            assert (requests + [rec])[|requests|] == rec;
            Step(Ok(()), requests + [rec])
          else Step(Fail({ServerSideError}), requests)
  }

  /** A request for an item created through the admin form is accepted and
      stored with the item's titles and the category's title. */
  lemma RequestForListedItem(catalogue: seq<Category>, requests: seq<ServiceRequest>, f: RequestForm,
                             now: int, freshId: string)
    requires RequestChecks(f, now).None? && CanonicalId(f.serviceId.text)
    requires FindService(catalogue, f.serviceId.text).Some?
    requires var found := FindService(catalogue, f.serviceId.text).value;
             TitleRequired(found.0) && found.1.ee != "" && found.1.ru != "" && found.1.priceType != ""
    ensures var r := SubmitServiceRequest(catalogue, requests, f, now, freshId, false);
            var found := FindService(catalogue, f.serviceId.text).value;
            && r.reply == Ok(())
            && |r.state| == |requests| + 1
            && r.state[|requests|].serviceTitle == Title(found.1.ee, found.1.ru)
            && r.state[|requests|].categoryTitle == found.0
            && r.state[|requests|].email == f.email.text
  {
    CanonicalIsCanonical(f.serviceId.text);
  }

  // ----- feedback -----

  datatype FeedbackForm = FeedbackForm(
    email: FormValue, message: FormValue, agreement: FormValue, honeypot: FormValue, ts: FormValue)

  function FeedbackChecks(f: FeedbackForm, now: int): (r: Option<Reply<()>>)
    ensures !Agreed(f.agreement) ==> r == Some(Fail({ProceedAgreementWasNotProvided}))
    ensures Agreed(f.agreement) && HoneypotFilled(f.honeypot) ==> r == Some(Ok(()))
    // the message size is checked before the e-mail shape
    ensures r == Some(Fail({InvalidEmail})) ==> Filled(f.message) && |f.message.text| <= MaxLength
    ensures r.None? <==>
              && Agreed(f.agreement) && !HoneypotFilled(f.honeypot)
              && Filled(f.email) && Filled(f.message) && Filled(f.ts)
              && CheckTimestamp(f.ts.text, now) == InWindow
              && |f.message.text| <= MaxLength && EmailShape(f.email.text)
  {
    if !Agreed(f.agreement) then Some(Fail({ProceedAgreementWasNotProvided}))
    else if HoneypotFilled(f.honeypot) then Some(Ok(()))
    else if !Filled(f.email) || !Filled(f.message) || !Filled(f.ts) then Some(Fail({NoCredentialsProvided}))
    else match CheckTimestamp(f.ts.text, now)
      case TsInvalid => Some(Fail({InvalidTs}))
      case TooFast => Some(Ok(()))
      case Expired => Some(Fail({FormExpired}))
      case InWindow =>
        if |f.message.text| > MaxLength then Some(Fail({HugeMessage}))
        else if !EmailShape(f.email.text) then Some(Fail({InvalidEmail}))
        else None
  }

  /** The public feedback action: one unread record `{email, message}` when
      every check passes. */
  function SubmitFeedback(feedback: seq<Feedback>, f: FeedbackForm, now: int, freshId: string, dbDown: bool): (r: Step<seq<Feedback>, ()>)
    ensures FeedbackChecks(f, now).Some? ==> r == Step(FeedbackChecks(f, now).value, feedback)
    ensures FeedbackChecks(f, now).None? && dbDown ==> r == Step(Fail({ErrorDuringRequest}), feedback)
    ensures r.state != feedback <==> FeedbackChecks(f, now).None? && !dbDown
    ensures r.state != feedback ==>
              && r.reply == Ok(())
              && r.state == feedback + [Feedback(freshId, f.email.text, f.message.text, false)]
              && ValidFeedback(r.state[|feedback|])
  {
    match FeedbackChecks(f, now)
    case Some(reply) => Step(reply, feedback)
    case None =>
      if dbDown then Step(Fail({ErrorDuringRequest}), feedback)
      else
        assert |feedback + [Feedback(freshId, f.email.text, f.message.text, false)]| > |feedback|;
        Step(Ok(()), feedback + [Feedback(freshId, f.email.text, f.message.text, false)])
  }

  /** A bot that fills the honeypot is told the submission succeeded, and
      nothing is stored, whatever else it sent. */
  lemma HoneypotSilentlyDrops(feedback: seq<Feedback>, f: FeedbackForm, now: int, freshId: string)
    requires Agreed(f.agreement) && HoneypotFilled(f.honeypot)
    ensures SubmitFeedback(feedback, f, now, freshId, false) == Step(Ok(()), feedback)
  {
  }

  /** A form sent back within 1.5 s of being rendered also gets a silent `ok`. */
  lemma InstantSubmitSilentlyDrops(feedback: seq<Feedback>, f: FeedbackForm, stamp: int, now: int, freshId: string)
    requires Agreed(f.agreement) && !HoneypotFilled(f.honeypot)
    requires Filled(f.email) && Filled(f.message) && f.ts == Text(IntToString(stamp))
    requires -MaxSafeInteger <= stamp <= MaxSafeInteger && now - stamp < MinAgeMs
    ensures SubmitFeedback(feedback, f, now, freshId, false) == Step(Ok(()), feedback)
  {
    TimestampWindow(stamp, now);
  }

  /** A stamp too large for a double is refused as invalid, not silently
      dropped as too fast, and nothing is stored. */
  lemma HugeStampRefused(feedback: seq<Feedback>, f: FeedbackForm, n: nat, now: int, freshId: string, dbDown: bool)
    requires Agreed(f.agreement) && !HoneypotFilled(f.honeypot)
    requires Filled(f.email) && Filled(f.message) && f.ts == Text(NatToString(n))
    requires n as real >= OverflowBound
    ensures SubmitFeedback(feedback, f, now, freshId, dbDown) == Step(Fail({InvalidTs}), feedback)
  {
    HugeStampInvalid(n, now);
  }
}

=== FILE: route_url.dfy ===
/** How the router reads an action URL back: the path ends at the first `?`
    or `#`, splits into segments at `/` (an http URL treats `\` as `/` too),
    and is percent-decoded before the dynamic segments become route
    parameters; a malformed escape makes the decode fail, and the path is then
    matched as it is. Only the route of the image delete action is matched. */
module RouteUrl {
  import opened Common

  /** The characters that end the path of a URL: the query and fragment delimiters. */
  predicate EndsPath(c: char) {
    c == '?' || c == '#'
  }

  /** Segment separators of an http(s) URL path. */
  predicate Separator(c: char) {
    c == '/' || c == '\\'
  }

  predicate SeparatorFree(s: string) {
    forall i :: 0 <= i < |s| ==> !Separator(s[i])
  }

  /** A string that reads back unchanged as one path segment: no delimiter,
      no separator and no `%`. */
  predicate SegmentSafe(s: string) {
    forall i :: 0 <= i < |s| ==> !EndsPath(s[i]) && !Separator(s[i]) && s[i] != '%'
  }

  /** `location.search`: empty, or the query with its leading `?`. */
  predicate IsSearch(search: string) {
    search == "" || search[0] == '?'
  }

  /** The path of a same-origin URL: everything before the first `?` or `#`. */
  function PathOf(url: string): (r: string)
    ensures |r| <= |url| && r == url[..|r|]
    ensures forall i :: 0 <= i < |r| ==> !EndsPath(r[i])
    ensures |r| < |url| ==> EndsPath(url[|r|])
  {
    if |url| == 0 || EndsPath(url[0]) then "" else [url[0]] + PathOf(url[1..])
  }

  /** A path without delimiters, followed by nothing or by a delimiter and
      anything, is the path of the whole. */
  lemma {:induction false} PathOfSearch(path: string, search: string)
    requires NoDelimiter(path)
    requires search == "" || EndsPath(search[0])
    ensures PathOf(path + search) == path
  {
    if |path| == 0 {
      assert path + search == search;
    } else {
      assert (path + search)[1..] == path[1..] + search;
      PathOfSearch(path[1..], search);
    }
  }

  /** The segments of a path, split at every separator. */
  function Segments(path: string): (r: seq<string>)
    ensures |r| >= 1
    ensures forall k, i :: 0 <= k < |r| && 0 <= i < |r[k]| ==> !Separator(r[k][i])
  {
    if |path| == 0 then [""]
    else if Separator(path[0]) then [""] + Segments(path[1..])
    else
      var rest := Segments(path[1..]);
      [[path[0]] + rest[0]] + rest[1..]
  }

  /** Joining segments with `/`, the inverse of `Segments` on separator-free segments. */
  function JoinSegments(segs: seq<string>): (r: string)
    requires |segs| >= 1
  {
    if |segs| == 1 then segs[0] else segs[0] + "/" + JoinSegments(segs[1..])
  }

  /** A separator-free segment followed by `/` and the rest splits off as the first segment. */
  lemma {:induction false} SegmentsOfCons(seg: string, rest: string)
    requires SeparatorFree(seg)
    ensures Segments(seg + "/" + rest) == [seg] + Segments(rest)
  {
    if |seg| == 0 {
      assert seg + "/" + rest == "/" + rest;
      assert ("/" + rest)[1..] == rest;
    } else {
      assert (seg + "/" + rest)[1..] == seg[1..] + "/" + rest;
      SegmentsOfCons(seg[1..], rest);
      assert [seg[0]] + seg[1..] == seg;
    }
  }

  /** Appending `/` and a separator-free segment adds that segment at the end. */
  lemma {:induction false} SegmentsOfSnoc(prefix: string, seg: string)
    requires SeparatorFree(seg)
    ensures Segments(prefix + "/" + seg) == Segments(prefix) + [seg]
  {
    if |prefix| == 0 {
      assert prefix + "/" + seg == "" + "/" + seg;
      SegmentsOfCons("", seg);
      SegmentsOfPlain(seg);
    } else {
      assert (prefix + "/" + seg)[1..] == prefix[1..] + "/" + seg;
      SegmentsOfSnoc(prefix[1..], seg);
    }
  }

  lemma {:induction false} SegmentsOfPlain(seg: string)
    requires SeparatorFree(seg)
    ensures Segments(seg) == [seg]
  {
    if |seg| > 0 {
      SegmentsOfPlain(seg[1..]);
      assert [seg[0]] + seg[1..] == seg;
    }
  }

  /** Splitting undoes joining, for segments without separators. */
  lemma {:induction false} SegmentsOfJoin(segs: seq<string>)
    requires |segs| >= 1
    requires forall k, i :: 0 <= k < |segs| && 0 <= i < |segs[k]| ==> !Separator(segs[k][i])
    ensures Segments(JoinSegments(segs)) == segs
  {
    if |segs| == 1 {
      SegmentsOfPlain(segs[0]);
    } else {
      SegmentsOfJoin(segs[1..]);
      SegmentsOfCons(segs[0], JoinSegments(segs[1..]));
    }
  }

  /** A string without the delimiters that end a path. */
  predicate NoDelimiter(s: string) {
    forall i :: 0 <= i < |s| ==> !EndsPath(s[i])
  }

  lemma NoDelimiterConcat(a: string, b: string)
    requires NoDelimiter(a) && NoDelimiter(b)
    ensures NoDelimiter(a + b)
  {
  }

  /** A `%` at `i` followed by two hexadecimal digits. */
  predicate EscapeAt(s: string, i: int) {
    0 <= i && i + 2 < |s| && s[i] == '%' && IsHexDigit(s[i + 1]) && IsHexDigit(s[i + 2])
  }

  /** `decodeURIComponent` accepts the string: every `%` starts an escape. */
  predicate Decodable(s: string) {
    forall i :: 0 <= i < |s| && s[i] == '%' ==> EscapeAt(s, i)
  }

  /** Escapes never straddle the seam of two decodable strings. */
  lemma DecodableConcat(a: string, b: string)
    requires Decodable(a) && Decodable(b)
    ensures Decodable(a + b)
  {
    var s := a + b;
    forall i | 0 <= i < |s| && s[i] == '%' ensures EscapeAt(s, i) {
      if i < |a| { assert EscapeAt(a, i); } else { assert EscapeAt(b, i - |a|); }
    }
  }

  function HexValue(c: char): (r: nat)
    requires IsHexDigit(c)
    ensures r < 16
  {
    if '0' <= c <= '9' then c as int - '0' as int
    else if 'a' <= c <= 'f' then c as int - 'a' as int + 10
    else c as int - 'A' as int + 10
  }

  function HexDigit(v: nat): (r: char)
    requires v < 16
    ensures IsHexDigit(r) && HexValue(r) == v
  {
    if v < 10 then ('0' as int + v) as char else ('A' as int + v - 10) as char
  }

  /** Every escape replaced by the character with that code. */
  function PercentDecode(s: string): (r: string)
    ensures |r| <= |s|
    ensures NoPercent(s) ==> r == s
  {
    if |s| == 0 then ""
    else if EscapeAt(s, 0) then [(HexValue(s[1]) * 16 + HexValue(s[2])) as char] + PercentDecode(s[3..])
    else [s[0]] + PercentDecode(s[1..])
  }

  /** The escape the browser writes for a character of code below 256. */
  function Escape(c: char): (r: string)
    requires c as int < 256
    ensures |r| == 3 && EscapeAt(r, 0)
  {
    ['%', HexDigit(c as int / 16), HexDigit(c as int % 16)]
  }

  /** Decoding reads an escape back as the character it encodes. */
  lemma DecodeEscape(c: char, rest: string)
    requires c as int < 256
    ensures PercentDecode(Escape(c) + rest) == [c] + PercentDecode(rest)
  {
    var s := Escape(c) + rest;
    assert EscapeAt(s, 0);
    assert s[3..] == rest;
  }

  predicate NoPercent(s: string) {
    forall i :: 0 <= i < |s| ==> s[i] != '%'
  }

  /** A character other than `%` passes through decoding as it is. */
  lemma DecodePlainHead(c: char, t: string)
    requires c != '%'
    ensures PercentDecode([c] + t) == [c] + PercentDecode(t)
  {
    var s := [c] + t;
    assert s[0] == c && s[1..] == t;
  }

  /** One step of `DecodeAfterPlain`: a plain first character in front of a
      prefix that already passes through. */
  lemma DecodePlainStep(x: string, rest: string)
    requires |x| > 0 && x[0] != '%'
    requires PercentDecode(x[1..] + rest) == x[1..] + PercentDecode(rest)
    ensures PercentDecode(x + rest) == x + PercentDecode(rest)
  {
    HeadSplit(x, rest);
    DecodePlainHead(x[0], x[1..] + rest);
    HeadSplit(x, PercentDecode(rest));
  }

  lemma HeadSplit(x: string, y: string)
    requires |x| > 0
    ensures x + y == [x[0]] + (x[1..] + y)
  {
    assert x == [x[0]] + x[1..];
  }

  lemma DecodeEmptyPrefix(x: string, rest: string)
    requires |x| == 0
    ensures PercentDecode(x + rest) == x + PercentDecode(rest)
  {
    assert x + rest == rest;
    assert x + PercentDecode(rest) == PercentDecode(rest);
  }

  /** Text without `%` passes through decoding unchanged, whatever follows it. */
  lemma {:induction false} DecodeAfterPlain(x: string, rest: string)
    requires NoPercent(x)
    ensures PercentDecode(x + rest) == x + PercentDecode(rest)
  {
    if |x| > 0 {
      DecodeAfterPlain(x[1..], rest);
      DecodePlainStep(x, rest);
    } else {
      DecodeEmptyPrefix(x, rest);
    }
  }

  /** One escape between plain texts decodes to its character and is the only escape. */
  lemma DecodeOneEscape(x: string, c: char, y: string)
    requires NoPercent(x) && NoPercent(y) && c as int < 256
    ensures Decodable(x + Escape(c) + y)
    ensures PercentDecode(x + Escape(c) + y) == x + [c] + y
  {
    var e := Escape(c);
    assert Decodable(e) by {
      forall i | 0 <= i < |e| && e[i] == '%' ensures EscapeAt(e, i) { assert i == 0; }
    }
    DecodableConcat(x, e);
    DecodableConcat(x + e, y);
    assert x + e + y == x + (e + y);
    DecodeAfterPlain(x, e + y);
    DecodeEscape(c, y);
  }

  /** The route parameters of `/admin/gallery/:selectedGalleryCategory/:image/delete`. */
  datatype ImageDeleteParams = ImageDeleteParams(category: string, image: string)

  /** The segment as the router hands it over: decoded when the whole path decodes. */
  function RouteParam(path: string, seg: string): string {
    if Decodable(path) then PercentDecode(seg) else seg
  }

  /** Matching a URL against the image delete route: the path has six
      segments, the fixed ones in place and both dynamic ones non-empty. */
  function MatchImageDelete(url: string): (r: Option<ImageDeleteParams>)
    ensures r.Some? <==>
              var segs := Segments(PathOf(url));
              && |segs| == 6 && segs[0] == "" && segs[1] == "admin" && segs[2] == "gallery"
              && segs[3] != "" && segs[4] != "" && segs[5] == "delete"
    ensures r.Some? ==>
              var path := PathOf(url);
              var segs := Segments(path);
              r.value == ImageDeleteParams(RouteParam(path, segs[3]), RouteParam(path, segs[4]))
  {
    var path := PathOf(url);
    var segs := Segments(path);
    if |segs| == 6 && segs[0] == "" && segs[1] == "admin" && segs[2] == "gallery"
       && segs[3] != "" && segs[4] != "" && segs[5] == "delete"
    then Some(ImageDeleteParams(RouteParam(path, segs[3]), RouteParam(path, segs[4])))
    else None
  }
}

=== FILE: search_params.dfy ===
/** The two `URLSearchParams` operations the loaders use to read and rewrite a
    query: `get` (first value of a key) and `set` (overwrite the first pair of a
    key, drop the other pairs of that key, or append when the key is absent). */
module SearchParams {
  import opened Common

  /** Some pair of `q` has key `k`. */
  predicate HasKey(q: Query, k: string) {
    exists i :: 0 <= i < |q| && q[i].key == k
  }

  /** `searchParams.get(k)`: the value of the first pair with key `k`, or null. */
  function Get(q: Query, k: string): (r: Option<string>)
    ensures r.Some? <==> HasKey(q, k)
    ensures r.Some? ==> exists i :: 0 <= i < |q| && q[i] == Param(k, r.value)
                                    && forall j :: 0 <= j < i ==> q[j].key != k
  {
    if |q| == 0 then None
    else if q[0].key == k then Some(q[0].value)
    else
      var r := Get(q[1..], k);
      assert HasKey(q, k) ==> HasKey(q[1..], k) by {
        if HasKey(q, k) {
          var i :| 0 <= i < |q| && q[i].key == k;
          assert q[1..][i - 1].key == k;
        }
      }
      assert r.Some? ==> HasKey(q, k) by {
        if r.Some? {
          var i :| 0 <= i < |q[1..]| && q[1..][i].key == k;
          assert q[i + 1].key == k;
        }
      }
      if r.Some? then
        assert exists i :: 0 <= i < |q| && q[i] == Param(k, r.value)
                           && forall j :: 0 <= j < i ==> q[j].key != k by {
          var i :| 0 <= i < |q[1..]| && q[1..][i] == Param(k, r.value)
                   && forall j :: 0 <= j < i ==> q[1..][j].key != k;
          assert q[i + 1] == Param(k, r.value);
          assert forall j :: 0 <= j < i + 1 ==> q[j].key != k by {
            forall j | 0 <= j < i + 1 ensures q[j].key != k {
              if j > 0 { assert q[j] == q[1..][j - 1]; }
            }
          }
        }
        r
      else r
  }

  /** The pairs of `q` whose key is not `k`, in their original order. */
  function Without(q: Query, k: string): (r: Query)
    ensures forall i :: 0 <= i < |r| ==> r[i].key != k
    ensures |r| <= |q|
  {
    if |q| == 0 then []
    else if q[0].key == k then Without(q[1..], k)
    else [q[0]] + Without(q[1..], k)
  }

  /** `searchParams.set(k, v)`. */
  function Set(q: Query, k: string, v: string): Query
  {
    if |q| == 0 then [Param(k, v)]
    else if q[0].key == k then [Param(k, v)] + Without(q[1..], k)
    else [q[0]] + Set(q[1..], k, v)
  }

  /** After `set(k, v)`, `get(k)` reads `v`. */
  lemma {:induction false} GetAfterSet(q: Query, k: string, v: string)
    ensures Get(Set(q, k, v), k) == Some(v)
  {
    if |q| == 0 || q[0].key == k {
    } else {
      GetAfterSet(q[1..], k, v);
      assert Set(q, k, v)[1..] == Set(q[1..], k, v);
    }
  }

  /** `set(k, v)` does not change what `get` reads for any other key. */
  lemma {:induction false} GetOtherAfterSet(q: Query, k: string, v: string, other: string)
    requires other != k
    ensures Get(Set(q, k, v), other) == Get(q, other)
  {
    if |q| == 0 {
    } else if q[0].key == k {
      WithoutKeepsGet(q[1..], k, other);
      assert Set(q, k, v)[1..] == Without(q[1..], k);
    } else {
      GetOtherAfterSet(q[1..], k, v, other);
      assert Set(q, k, v)[1..] == Set(q[1..], k, v);
    }
  }

  lemma {:induction false} WithoutKeepsGet(q: Query, k: string, other: string)
    requires other != k
    ensures Get(Without(q, k), other) == Get(q, other)
  {
    if |q| == 0 {
    } else if q[0].key == k {
      WithoutKeepsGet(q[1..], k, other);
    } else {
      WithoutKeepsGet(q[1..], k, other);
      assert Without(q, k)[1..] == Without(q[1..], k);
    }
  }

  lemma {:induction false} WithoutTwice(q: Query, k: string)
    ensures Without(Without(q, k), k) == Without(q, k)
  {
    if |q| == 0 {
    } else if q[0].key == k {
      WithoutTwice(q[1..], k);
    } else {
      WithoutTwice(q[1..], k);
      assert Without(q, k)[1..] == Without(q[1..], k);
    }
  }

  /** `set(k, v)` leaves every pair with another key in place and in order. */
  lemma {:induction false} SetKeepsOtherPairs(q: Query, k: string, v: string)
    ensures Without(Set(q, k, v), k) == Without(q, k)
  {
    if |q| == 0 {
    } else if q[0].key == k {
      WithoutTwice(q[1..], k);
      assert Set(q, k, v)[1..] == Without(q[1..], k);
    } else {
      SetKeepsOtherPairs(q[1..], k, v);
      assert Set(q, k, v)[1..] == Set(q[1..], k, v);
    }
  }

  /** Number of pairs with key `k`. */
  function CountKey(q: Query, k: string): nat {
    if |q| == 0 then 0 else (if q[0].key == k then 1 else 0) + CountKey(q[1..], k)
  }

  lemma {:induction false} WithoutHasNoKey(q: Query, k: string)
    ensures CountKey(Without(q, k), k) == 0
  {
    if |q| == 0 {
    } else if q[0].key == k {
      WithoutHasNoKey(q[1..], k);
    } else {
      WithoutHasNoKey(q[1..], k);
      assert Without(q, k)[1..] == Without(q[1..], k);
    }
  }

  /** After `set(k, v)` exactly one pair carries key `k`. */
  lemma {:induction false} SetLeavesOnePair(q: Query, k: string, v: string)
    ensures CountKey(Set(q, k, v), k) == 1
  {
    if |q| == 0 {
    } else if q[0].key == k {
      WithoutHasNoKey(q[1..], k);
      assert Set(q, k, v)[1..] == Without(q[1..], k);
    } else {
      SetLeavesOnePair(q[1..], k, v);
      assert Set(q, k, v)[1..] == Set(q[1..], k, v);
    }
  }
}

=== FILE: service_catalogue.dfy ===
/** The service catalogue: the `Service` collection of categories, each with a
    unique bilingual title and an ordered `content` array of priced items, and
    the admin handlers that list, create, rename and delete categories and
    append, change and pull their items. */
module ServiceCatalogue {
  import opened Common
  import opened JsNumber

  /** The `price` of a content item (schema type Mixed): a number, a string,
      or an uploaded file when the form field held one. */
  datatype Price = NumberPrice(n: Number) | TextPrice(s: string) | FilePrice

  /** The schema's price validator: a number, or exactly the string `"volumeBased"`. */
  predicate ValidPrice(p: Price) {
    p.NumberPrice? || p == TextPrice("volumeBased")
  }

  /** `additionalInfo`: both languages optional. */
  datatype AdditionalInfo = AdditionalInfo(ru: Option<string>, ee: Option<string>)

  datatype ContentItem = ContentItem(id: string, ee: string, ru: string, price: Price,
                                     priceType: string, additionalInfo: AdditionalInfo)

  datatype Category = Category(id: string, title: Title, content: seq<ContentItem>)

  /** A content item as the schema's validators accept it: a valid price and
      non-empty `ee`, `ru` and `priceType`. */
  predicate ValidContentItem(it: ContentItem) {
    ValidPrice(it.price) && it.ee != "" && it.ru != "" && it.priceType != ""
  }

  function CategoryTitles(db: seq<Category>): (r: seq<Title>)
    ensures |r| == |db| && forall i :: 0 <= i < |db| ==> r[i] == db[i].title
  {
    seq(|db|, i requires 0 <= i < |db| => db[i].title)
  }

  function CategoryIds(db: seq<Category>): (r: seq<string>)
    ensures |r| == |db| && forall i :: 0 <= i < |db| ==> r[i] == db[i].id
  {
    seq(|db|, i requires 0 <= i < |db| => db[i].id)
  }

  function ItemIds(content: seq<ContentItem>): (r: seq<string>)
    ensures |r| == |content| && forall i :: 0 <= i < |content| ==> r[i] == content[i].id
  {
    seq(|content|, i requires 0 <= i < |content| => content[i].id)
  }

  /** Item ids are stored ids, distinct within their category. */
  predicate ContentOk(content: seq<ContentItem>) {
    Distinct(ItemIds(content)) && forall k :: 0 <= k < |content| ==> CanonicalId(content[k].id)
  }

  /** The collection respects the schema's title rules and the id discipline. */
  predicate CatalogueOk(db: seq<Category>) {
    && Distinct(CategoryIds(db))
    && UniqueTitles(CategoryTitles(db))
    && forall i :: 0 <= i < |db| ==> CanonicalId(db[i].id) && TitleRequired(db[i].title) && ContentOk(db[i].content)
  }

  function CategoryKey(c: Category): string { c.id }

  function ItemKey(item: ContentItem): string { item.id }

  /** Position of the category with id `id`, or -1. */
  function IndexOfId(db: seq<Category>, id: string): (r: int)
    ensures -1 <= r < |db|
    ensures r >= 0 ==> db[r].id == id && forall j :: 0 <= j < r ==> db[j].id != id
    ensures r == -1 <==> forall j :: 0 <= j < |db| ==> db[j].id != id
  {
    IndexOf(db, CategoryKey, id)
  }

  /** Position of the first item with id `id`, or -1. */
  function IndexOfItem(content: seq<ContentItem>, id: string): (r: int)
    ensures -1 <= r < |content|
    ensures r >= 0 ==> content[r].id == id && forall j :: 0 <= j < r ==> content[j].id != id
    ensures r == -1 <==> forall j :: 0 <= j < |content| ==> content[j].id != id
  {
    IndexOf(content, ItemKey, id)
  }

  /** The titles of every category except the one at `i`. */
  function OtherTitles(db: seq<Category>, i: nat): (r: seq<Title>)
    requires i < |db|
    ensures forall j :: 0 <= j < |db| && j != i ==> db[j].title in r
    ensures forall t :: t in r ==> exists j :: 0 <= j < |db| && j != i && db[j].title == t
  {
    var r := CategoryTitles(db[..i] + db[i + 1..]);
    forall j | 0 <= j < |db| && j != i ensures db[j].title in r {
      if j < i { assert r[j] == db[j].title; } else { assert r[j - 1] == db[j].title; }
    }
    forall t | t in r ensures exists j :: 0 <= j < |db| && j != i && db[j].title == t {
      var k :| 0 <= k < |r| && r[k] == t;
      if k < i { assert db[k].title == t; } else { assert db[k + 1].title == t; }
    }
    r
  }

  // ----- admin/services loader and create action -----

  /** `GET /admin/services`: every category in storage order, or a server error. */
  function ListCategories(db: seq<Category>, dbDown: bool): (r: Reply<seq<Category>>)
    ensures dbDown <==> r == Fail({ServerSideError})
    ensures r.Ok? ==> r.value == db
  {
    if dbDown then Fail({ServerSideError}) else Ok(db)
  }

  /** `POST /admin/services`: create a category with an empty content array;
      the database assigns `freshId`. No folder is involved. */
  function CreateCategory(db: seq<Category>, nameEE: FormValue, nameRU: FormValue, query: Query,
                          freshId: string, dbDown: bool): (r: Step<seq<Category>, ()>)
    requires CatalogueOk(db)
    requires CanonicalId(freshId) && freshId !in CategoryIds(db)
    ensures CatalogueOk(r.state)
    ensures !Filled(nameEE) || !Filled(nameRU) ==> r == Step(Fail(MissingNames(nameEE, nameRU)), db)
    ensures Filled(nameEE) && Filled(nameRU) && dbDown ==> r == Step(Fail({ServerSideError}), db)
    ensures Filled(nameEE) && Filled(nameRU) && !dbDown ==>
              var t := Title(nameEE.text, nameRU.text);
              match DuplicateKey(CategoryTitles(db), t)
              case Some(k) => r == Step(Fail({k}), db)
              case None => r == Step(Redirect(Location("/admin/services", query)), db + [Category(freshId, t, [])])
  {
    if !Filled(nameEE) || !Filled(nameRU) then Step(Fail(MissingNames(nameEE, nameRU)), db)
    else if dbDown then Step(Fail({ServerSideError}), db)
    else
      var t := Title(nameEE.text, nameRU.text);
      match DuplicateKey(CategoryTitles(db), t)
      case Some(k) => Step(Fail({k}), db)
      case None =>
        var db' := db + [Category(freshId, t, [])];
        AppendUniqueTitle(CategoryTitles(db), t);
        assert CategoryTitles(db') == CategoryTitles(db) + [t];
        assert CategoryIds(db') == CategoryIds(db) + [freshId];
        Step(Redirect(Location("/admin/services", query)), db')
  }

  // ----- rename -----

  /** What the rename page loads: the category without its content. */
  datatype CategoryHeader = CategoryHeader(id: string, title: Title)

  /** `GET /admin/services/:selectedServiceCategory/rename`: a missing
      parameter is a 400; every other failure, a missing record included, a 500. */
  function LoadRename(db: seq<Category>, param: Option<string>, dbDown: bool): (r: Reply<CategoryHeader>)
    ensures !FilledParam(param) <==> r == Throw(400)
    ensures r.Ok? || r == Throw(400) || r == Throw(500)
    ensures r.Ok? <==> FilledParam(param) && !dbDown && ValidObjectId(param.value)
                       && IndexOfId(db, Canonical(param.value)) >= 0
    ensures r.Ok? ==> exists i :: 0 <= i < |db| && db[i].id == Canonical(param.value)
                                  && r.value == CategoryHeader(db[i].id, db[i].title)
  {
    if !FilledParam(param) then Throw(400)
    else if dbDown || !ValidObjectId(param.value) then Throw(500)
    else
      var i := IndexOfId(db, Canonical(param.value));
      if i < 0 then Throw(500) else Ok(CategoryHeader(db[i].id, db[i].title))
  }

  /** `POST /admin/services/:selectedServiceCategory/rename`: replace the whole
      title of the category `categoryId`, then redirect to its page. */
  function Rename(db: seq<Category>, nameEE: FormValue, nameRU: FormValue, categoryId: FormValue,
                  query: Query, dbDown: bool): (r: Step<seq<Category>, ()>)
    requires CatalogueOk(db)
    ensures CatalogueOk(r.state)
    ensures !Filled(nameEE) || !Filled(nameRU) || !Filled(categoryId) ==>
              r == Step(Fail(MissingNames(nameEE, nameRU) + Flag(!Filled(categoryId), NoCategoryId)), db)
    ensures r.state != db ==> r.reply.Redirect?
    ensures Filled(nameEE) && Filled(nameRU) && Filled(categoryId) && (dbDown || !ValidObjectId(categoryId.text)) ==>
              r == Step(Fail({ServerSideError}), db)
    // an id that matches no record still redirects, and changes nothing
    ensures Filled(nameEE) && Filled(nameRU) && Filled(categoryId) && !dbDown && ValidObjectId(categoryId.text)
            && IndexOfId(db, Canonical(categoryId.text)) < 0 ==>
              r == Step(Redirect(Location("/admin/services/" + categoryId.text, query)), db)
    ensures Filled(nameEE) && Filled(nameRU) && Filled(categoryId) && !dbDown && ValidObjectId(categoryId.text)
            && IndexOfId(db, Canonical(categoryId.text)) >= 0 ==>
              var i := IndexOfId(db, Canonical(categoryId.text));
              var t := Title(nameEE.text, nameRU.text);
              match DuplicateKey(OtherTitles(db, i), t)
              case Some(k) => r == Step(Fail({k}), db)
              case None =>
                && r.reply == Redirect(Location("/admin/services/" + categoryId.text, query))
                && r.state == db[i := Category(db[i].id, t, db[i].content)]
  {
    if !Filled(nameEE) || !Filled(nameRU) || !Filled(categoryId) then
      Step(Fail(MissingNames(nameEE, nameRU) + Flag(!Filled(categoryId), NoCategoryId)), db)
    else if dbDown || !ValidObjectId(categoryId.text) then Step(Fail({ServerSideError}), db)
    else
      var back := Redirect(Location("/admin/services/" + categoryId.text, query));
      var i := IndexOfId(db, Canonical(categoryId.text));
      if i < 0 then Step(back, db)
      else
        var t := Title(nameEE.text, nameRU.text);
        match DuplicateKey(OtherTitles(db, i), t)
        case Some(k) => Step(Fail({k}), db)
        case None =>
          RetitleKeepsCatalogueOk(db, i, t);
          Step(back, db[i := Category(db[i].id, t, db[i].content)])
  }

  /** Giving one category a required title that no other category uses keeps
      the catalogue well formed. */
  lemma RetitleKeepsCatalogueOk(db: seq<Category>, i: nat, t: Title)
    requires CatalogueOk(db) && i < |db| && TitleRequired(t)
    requires DuplicateKey(OtherTitles(db, i), t) == None
    ensures CatalogueOk(db[i := Category(db[i].id, t, db[i].content)])
  {
    var db' := db[i := Category(db[i].id, t, db[i].content)];
    assert CategoryIds(db') == CategoryIds(db);
    forall j | 0 <= j < |db| && j != i ensures db[j].title.ee != t.ee && db[j].title.ru != t.ru {
      var others := OtherTitles(db, i);
      assert db[j].title in others;
    }
    forall a, b | 0 <= a < b < |db'|
      ensures CategoryTitles(db')[a].ee != CategoryTitles(db')[b].ee
      ensures CategoryTitles(db')[a].ru != CategoryTitles(db')[b].ru
    {
      if a != i && b != i {
        assert CategoryTitles(db)[a] == CategoryTitles(db')[a];
        assert CategoryTitles(db)[b] == CategoryTitles(db')[b];
      }
    }
  }

  /** Renaming a category to the title it already has changes nothing. */
  lemma RenameToSameTitle(db: seq<Category>, i: nat, query: Query)
    requires CatalogueOk(db) && i < |db|
    ensures var r := Rename(db, Text(db[i].title.ee), Text(db[i].title.ru), Text(db[i].id), query, false);
            r.state == db && r.reply.Redirect?
  {
    var id := db[i].id;
    CanonicalIsCanonical(id);
    var k := IndexOfId(db, id);
    assert k == i;
    var t := db[i].title;
    forall x | x in OtherTitles(db, i) ensures x.ee != t.ee && x.ru != t.ru {
      var j :| 0 <= j < |db| && j != i && db[j].title == x;
      if j < i { assert CategoryTitles(db)[j] == x; } else { assert CategoryTitles(db)[j] == x; }
    }
    assert db[i := Category(id, t, db[i].content)] == db;
  }

  // ----- delete a category -----

  /** `deleteOne({ _id })`. */
  function RemoveCategory(db: seq<Category>, id: string): (r: seq<Category>)
    ensures forall c :: c in r <==> c in db && c.id != id
  {
    if |db| == 0 then []
    else if db[0].id == id then RemoveCategory(db[1..], id)
    else [db[0]] + RemoveCategory(db[1..], id)
  }

  /** Deleting categories keeps the catalogue well formed. */
  lemma {:induction false} RemoveCategoryKeepsOk(db: seq<Category>, id: string)
    requires CatalogueOk(db)
    ensures CatalogueOk(RemoveCategory(db, id))
  {
    if |db| > 0 {
      TailCatalogueOk(db);
      RemoveCategoryKeepsOk(db[1..], id);
      if db[0].id != id {
        ConsCatalogueOk(db, RemoveCategory(db[1..], id));
      }
    }
  }

  lemma TailCatalogueOk(db: seq<Category>)
    requires CatalogueOk(db) && |db| > 0
    ensures CatalogueOk(db[1..])
  {
    assert CategoryIds(db[1..]) == CategoryIds(db)[1..];
    assert CategoryTitles(db[1..]) == CategoryTitles(db)[1..];
  }

  lemma ConsCatalogueOk(db: seq<Category>, rest: seq<Category>)
    requires CatalogueOk(db) && |db| > 0 && CatalogueOk(rest)
    requires forall c :: c in rest ==> c in db[1..]
    ensures CatalogueOk([db[0]] + rest)
  {
    var r := [db[0]] + rest;
    forall c | c in rest ensures c.id != db[0].id && c.title.ee != db[0].title.ee && c.title.ru != db[0].title.ru {
      var k :| 0 <= k < |db[1..]| && db[1..][k] == c;
      assert db[k + 1] == c;
      assert CategoryIds(db)[0] != CategoryIds(db)[k + 1];
      assert CategoryTitles(db)[0] == db[0].title && CategoryTitles(db)[k + 1] == c.title;
    }
    forall a, b | 0 <= a < b < |r| ensures CategoryIds(r)[a] != CategoryIds(r)[b] {
      assert r[b] == rest[b - 1] && r[b] in rest;
      if a > 0 { assert CategoryIds(rest)[a - 1] != CategoryIds(rest)[b - 1]; }
    }
    forall a, b | 0 <= a < b < |r|
      ensures CategoryTitles(r)[a].ee != CategoryTitles(r)[b].ee && CategoryTitles(r)[a].ru != CategoryTitles(r)[b].ru
    {
      assert r[b] == rest[b - 1] && r[b] in rest;
      if a > 0 { assert CategoryTitles(rest)[a - 1] == r[a].title && CategoryTitles(rest)[b - 1] == r[b].title; }
    }
  }

  /** `POST /admin/services/:id/delete`: delete the category (and with it all
      of its items); `ok` even when nothing matched. */
  function DeleteCategory(db: seq<Category>, itemId: FormValue, dbDown: bool): (r: Step<seq<Category>, ()>)
    requires CatalogueOk(db)
    ensures CatalogueOk(r.state)
    ensures !Filled(itemId) ==> r == Step(Fail({NoItemProvided}), db)
    ensures Filled(itemId) && (dbDown || !ValidObjectId(itemId.text)) ==> r == Step(FailWithError, db)
    ensures r.reply.Ok? <==> Filled(itemId) && !dbDown && ValidObjectId(itemId.text)
    ensures r.reply.Ok? ==> forall c :: c in r.state <==> c in db && c.id != Canonical(itemId.text)
  {
    if !Filled(itemId) then Step(Fail({NoItemProvided}), db)
    else if dbDown || !ValidObjectId(itemId.text) then Step(FailWithError, db)
    else
      RemoveCategoryKeepsOk(db, Canonical(itemId.text));
      Step(Ok(()), RemoveCategory(db, Canonical(itemId.text)))
  }

  // ----- append an item -----

  /** What the form's price field is stored as: the submitted value itself. */
  function SubmittedPrice(v: FormValue): (r: Price)
    requires v != Missing
    ensures v.Text? <==> r.TextPrice?
    ensures v.Text? ==> r.s == v.text
  {
    if v.Text? then TextPrice(v.text) else FilePrice
  }

  /** `formData.get(x) || ""` for an additional-info field that passed validation. */
  function InfoText(v: FormValue): string {
    TextOrEmpty(v)
  }

  /** The validation of the new-service form; a price fails only when empty,
      since `typeof +x` is always `"number"`. */
  function NewServiceErrors(titleEE: FormValue, titleRU: FormValue, price: FormValue, priceType: FormValue,
                            categoryId: FormValue, infoRU: FormValue, infoEE: FormValue): (r: set<ErrorKey>)
    ensures NewServiceTitleEE in r <==> !Filled(titleEE)
    ensures NewServiceTitleRU in r <==> !Filled(titleRU)
    ensures NoNewServicePrice in r <==> price == Missing || price == Text("")
    ensures CategoryToAppendItemIn in r <==> !Filled(categoryId)
    ensures NewServicePriceType in r <==> !Filled(priceType)
    ensures InvalidAdditionalInfo in r <==> infoRU == Blob || infoEE == Blob
    ensures r <= {NewServiceTitleEE, NewServiceTitleRU, NoNewServicePrice, CategoryToAppendItemIn,
                  NewServicePriceType, InvalidAdditionalInfo}
  {
    Flag(!Filled(titleEE), NewServiceTitleEE)
    + Flag(!Filled(titleRU), NewServiceTitleRU)
    + Flag(price == Missing || price == Text(""), NoNewServicePrice)
    + Flag(!Filled(categoryId), CategoryToAppendItemIn)
    + Flag(!Filled(priceType), NewServicePriceType)
    + Flag(infoRU == Blob || infoEE == Blob, InvalidAdditionalInfo)
  }

  /** No item of any category has id `id`. */
  predicate ItemIdUnused(db: seq<Category>, id: string) {
    forall i, k :: 0 <= i < |db| && 0 <= k < |db[i].content| ==> db[i].content[k].id != id
  }

  /** `POST .../new-service`: validate, then `$push` one item at the end of the
      category `categoryId`; the database gives the item `freshItemId`. The
      update runs no validators, so the price is stored exactly as submitted. */
  function NewService(db: seq<Category>, titleEE: FormValue, titleRU: FormValue, price: FormValue,
                      priceType: FormValue, categoryId: FormValue, infoRU: FormValue, infoEE: FormValue,
                      query: Query, freshItemId: string, dbDown: bool): (r: Step<seq<Category>, ()>)
    requires CatalogueOk(db)
    requires CanonicalId(freshItemId) && ItemIdUnused(db, freshItemId)
    ensures CatalogueOk(r.state)
    ensures var errs := NewServiceErrors(titleEE, titleRU, price, priceType, categoryId, infoRU, infoEE);
            errs != {} ==> r == Step(Fail(errs), db)
    ensures r.state != db ==> r.reply.Redirect?
    ensures NewServiceErrors(titleEE, titleRU, price, priceType, categoryId, infoRU, infoEE) == {} ==>
              if dbDown || !ValidObjectId(categoryId.text) then r == Step(Fail({ServerSideError}), db)
              else
                && r.reply == Redirect(Location("/admin/services/" + categoryId.text, query))
                && var i := IndexOfId(db, Canonical(categoryId.text));
                   var item := ContentItem(freshItemId, titleEE.text, titleRU.text, SubmittedPrice(price), priceType.text,
                                           AdditionalInfo(Some(InfoText(infoRU)), Some(InfoText(infoEE))));
                   if i < 0 then r.state == db
                   else r.state == db[i := Category(db[i].id, db[i].title, db[i].content + [item])]
  {
    var errs := NewServiceErrors(titleEE, titleRU, price, priceType, categoryId, infoRU, infoEE);
    if errs != {} then Step(Fail(errs), db)
    else if dbDown || !ValidObjectId(categoryId.text) then Step(Fail({ServerSideError}), db)
    else
      var back := Redirect(Location("/admin/services/" + categoryId.text, query));
      var i := IndexOfId(db, Canonical(categoryId.text));
      if i < 0 then Step(back, db)
      else
        var item := ContentItem(freshItemId, titleEE.text, titleRU.text, SubmittedPrice(price), priceType.text,
                                AdditionalInfo(Some(InfoText(infoRU)), Some(InfoText(infoEE))));
        var content' := db[i].content + [item];
        AppendKeepsContentOk(db[i].content, item);
        ReplaceContentKeepsCatalogueOk(db, i, content');
        Step(back, db[i := Category(db[i].id, db[i].title, content')])
  }

  /** Appending an item under an unused stored id keeps the ids distinct. */
  lemma AppendKeepsContentOk(content: seq<ContentItem>, item: ContentItem)
    requires ContentOk(content) && CanonicalId(item.id)
    requires forall k :: 0 <= k < |content| ==> content[k].id != item.id
    ensures ContentOk(content + [item])
  {
    assert ItemIds(content + [item]) == ItemIds(content) + [item.id];
  }

  lemma ReplaceContentKeepsCatalogueOk(db: seq<Category>, i: nat, content: seq<ContentItem>)
    requires CatalogueOk(db) && i < |db| && ContentOk(content)
    ensures CatalogueOk(db[i := Category(db[i].id, db[i].title, content)])
  {
    var db' := db[i := Category(db[i].id, db[i].title, content)];
    assert CategoryIds(db') == CategoryIds(db);
    assert CategoryTitles(db') == CategoryTitles(db);
  }

  /** A numeric price typed into the form is stored as a string, which the
      schema's own price rule rejects: the appended item is not a valid
      content item. */
  lemma NumericPriceStoredAsText(db: seq<Category>, i: nat, freshItemId: string)
    requires CatalogueOk(db) && i < |db|
    requires CanonicalId(freshItemId) && ItemIdUnused(db, freshItemId)
    ensures var r := NewService(db, Text("Lõikus"), Text("Стрижка"), Text("25"), Text("tk"), Text(db[i].id),
                                Missing, Missing, [], freshItemId, false);
            && r.reply.Redirect?
            && |r.state[i].content| == |db[i].content| + 1
            && var item := r.state[i].content[|db[i].content|];
               item.price == TextPrice("25") && !ValidContentItem(item)
  {
    CanonicalIsCanonical(db[i].id);
    OwnCategoryIndex(db, i);
    assert TextPrice("25") != TextPrice("volumeBased");
  }

  // ----- change an item -----

  /** What the change page loads: the parent parameter and the first matching item. */
  datatype ItemView = ItemView(parentId: string, item: ContentItem)

  /** The items of `content` whose printed id equals `param` (a plain string comparison). */
  function ItemsWithPrintedId(content: seq<ContentItem>, param: string): (r: seq<ContentItem>)
    ensures forall it :: it in r <==> it in content && it.id == param
    ensures |r| > 0 ==> IndexOfItem(content, param) >= 0 && r[0] == content[IndexOfItem(content, param)]
  {
    if |content| == 0 then []
    else if content[0].id == param then [content[0]] + ItemsWithPrintedId(content[1..], param)
    else ItemsWithPrintedId(content[1..], param)
  }

  /** `GET .../:selectedServiceCategoryItem/change`. The category is found by
      parsed id; the item by comparing its printed id with the raw parameter,
      so an item id written in upper case is not found. */
  function LoadItem(db: seq<Category>, category: Option<string>, item: Option<string>, dbDown: bool): (r: Reply<ItemView>)
    ensures !FilledParam(category) || !FilledParam(item) ==>
              r == Fail(Flag(!FilledParam(category), NoParentItemProvided) + Flag(!FilledParam(item), NoItemProvided))
    ensures r.Ok? || r.Fail? || r == FailWithError
    ensures r.Ok? <==>
              && FilledParam(category) && FilledParam(item) && !dbDown && ValidObjectId(category.value)
              && IndexOfId(db, Canonical(category.value)) >= 0
              && IndexOfItem(db[IndexOfId(db, Canonical(category.value))].content, item.value) >= 0
    ensures r.Ok? ==>
              var c := db[IndexOfId(db, Canonical(category.value))];
              && r.value.parentId == category.value
              && r.value.item == c.content[IndexOfItem(c.content, item.value)]
              && r.value.item.id == item.value
  {
    if !FilledParam(category) || !FilledParam(item) then
      Fail(Flag(!FilledParam(category), NoParentItemProvided) + Flag(!FilledParam(item), NoItemProvided))
    else if dbDown || !ValidObjectId(category.value) then FailWithError
    else
      var i := IndexOfId(db, Canonical(category.value));
      if i < 0 then FailWithError
      else
        var found := ItemsWithPrintedId(db[i].content, item.value);
        if |found| == 0 then
          assert IndexOfItem(db[i].content, item.value) < 0;
          FailWithError
        else Ok(ItemView(category.value, found[0]))
  }

  /** The validation of the change form: as for a new item, with the item id
      required and no additional info. */
  function ChangeErrors(titleEE: FormValue, titleRU: FormValue, price: FormValue, categoryId: FormValue,
                        itemId: FormValue, priceType: FormValue): (r: set<ErrorKey>)
    ensures NewServiceTitleEE in r <==> !Filled(titleEE)
    ensures NewServiceTitleRU in r <==> !Filled(titleRU)
    ensures NoNewServicePrice in r <==> price == Missing || price == Text("")
    ensures CategoryToAppendItemIn in r <==> !Filled(categoryId)
    ensures ContentItemToChange in r <==> !Filled(itemId)
    ensures NewServicePriceType in r <==> !Filled(priceType)
    ensures r <= {NewServiceTitleEE, NewServiceTitleRU, NoNewServicePrice, CategoryToAppendItemIn,
                  ContentItemToChange, NewServicePriceType}
  {
    Flag(!Filled(titleEE), NewServiceTitleEE)
    + Flag(!Filled(titleRU), NewServiceTitleRU)
    + Flag(price == Missing || price == Text(""), NoNewServicePrice)
    + Flag(!Filled(categoryId), CategoryToAppendItemIn)
    + Flag(!Filled(itemId), ContentItemToChange)
    + Flag(!Filled(priceType), NewServicePriceType)
  }

  /** The positional `$set` on `content.$`: the first item with id `id` gets the
      four new fields; its id and additional info, and every other item, stay. */
  function SetItemFields(content: seq<ContentItem>, id: string, ee: string, ru: string, price: Price, priceType: string): (r: seq<ContentItem>)
    ensures |r| == |content|
    ensures var k := IndexOfItem(content, id);
            && (forall j :: 0 <= j < |content| && j != k ==> r[j] == content[j])
            && (k >= 0 ==> r[k] == ContentItem(content[k].id, ee, ru, price, priceType, content[k].additionalInfo))
    ensures ItemIds(r) == ItemIds(content)
  {
    var k := IndexOfItem(content, id);
    if k < 0 then content
    else content[k := ContentItem(content[k].id, ee, ru, price, priceType, content[k].additionalInfo)]
  }

  /** `POST .../change`: validate, then update the first item with id
      `itemId` of the category `categoryId`, and redirect to the category page
      whether or not anything matched. */
  function ChangeItem(db: seq<Category>, titleEE: FormValue, titleRU: FormValue, price: FormValue,
                      categoryId: FormValue, itemId: FormValue, priceType: FormValue,
                      query: Query, dbDown: bool): (r: Step<seq<Category>, ()>)
    requires CatalogueOk(db)
    ensures CatalogueOk(r.state)
    ensures var errs := ChangeErrors(titleEE, titleRU, price, categoryId, itemId, priceType);
            errs != {} ==> r == Step(Fail(errs), db)
    ensures r.state != db ==> r.reply.Redirect?
    ensures ChangeErrors(titleEE, titleRU, price, categoryId, itemId, priceType) == {} ==>
              if dbDown || !ValidObjectId(categoryId.text) || !ValidObjectId(itemId.text) then
                r == Step(Fail({ServerSideError}), db)
              else
                && r.reply == Redirect(Location("/admin/services/" + categoryId.text, query))
                && |r.state| == |db|
                && var i := IndexOfId(db, Canonical(categoryId.text));
                   && (forall j :: 0 <= j < |db| && j != i ==> r.state[j] == db[j])
                   && (i >= 0 ==>
                         && r.state[i].id == db[i].id && r.state[i].title == db[i].title
                         && r.state[i].content == SetItemFields(db[i].content, Canonical(itemId.text), titleEE.text,
                                                                titleRU.text, SubmittedPrice(price), priceType.text))
  {
    var errs := ChangeErrors(titleEE, titleRU, price, categoryId, itemId, priceType);
    if errs != {} then Step(Fail(errs), db)
    else if dbDown || !ValidObjectId(categoryId.text) || !ValidObjectId(itemId.text) then Step(Fail({ServerSideError}), db)
    else
      var back := Redirect(Location("/admin/services/" + categoryId.text, query));
      var i := IndexOfId(db, Canonical(categoryId.text));
      if i < 0 then Step(back, db)
      else
        var content' := SetItemFields(db[i].content, Canonical(itemId.text), titleEE.text, titleRU.text,
                                      SubmittedPrice(price), priceType.text);
        assert forall k :: 0 <= k < |content'| ==> content'[k].id == ItemIds(content')[k];
        ReplaceContentKeepsCatalogueOk(db, i, content');
        Step(back, db[i := Category(db[i].id, db[i].title, content')])
  }

  /** After a change, the change page shows the new values. */
  lemma ChangeThenLoad(db: seq<Category>, i: nat, k: nat, ee: string, ru: string, p: string, pt: string)
    requires CatalogueOk(db) && i < |db| && k < |db[i].content|
    requires ee != "" && ru != "" && p != "" && pt != ""
    ensures var c := db[i];
            var it := c.content[k];
            var r := ChangeItem(db, Text(ee), Text(ru), Text(p), Text(c.id), Text(it.id), Text(pt), [], false);
            var view := LoadItem(r.state, Some(c.id), Some(it.id), false);
            view == Ok(ItemView(c.id, ContentItem(it.id, ee, ru, TextPrice(p), pt, it.additionalInfo)))
  {
    var c := db[i];
    var it := c.content[k];
    CanonicalIsCanonical(c.id);
    CanonicalIsCanonical(it.id);
    OwnCategoryIndex(db, i);
    var r := ChangeItem(db, Text(ee), Text(ru), Text(p), Text(c.id), Text(it.id), Text(pt), [], false);
    var content' := SetItemFields(c.content, it.id, ee, ru, TextPrice(p), pt);
    assert r.state[i] == Category(c.id, c.title, content');
    OwnItemIndex(c.content, k);
    OwnCategoryIndex(r.state, i);
    OwnItemIndex(content', k);
    assert content'[k] == ContentItem(it.id, ee, ru, TextPrice(p), pt, it.additionalInfo);
  }

  /** With distinct ids, a category's own id finds that category. */
  lemma OwnCategoryIndex(db: seq<Category>, i: nat)
    requires CatalogueOk(db) && i < |db|
    ensures IndexOfId(db, db[i].id) == i
  {
    var m := IndexOfId(db, db[i].id);
    assert CategoryIds(db)[m] == CategoryIds(db)[i];
  }

  /** With distinct ids, an item's own id finds that item. */
  lemma OwnItemIndex(content: seq<ContentItem>, k: nat)
    requires ContentOk(content) && k < |content|
    ensures IndexOfItem(content, content[k].id) == k
  {
    var m := IndexOfItem(content, content[k].id);
    assert ItemIds(content)[m] == ItemIds(content)[k];
  }

  // ----- pull an item -----

  /** `$pull: { content: { _id } }`: every item with that id goes, the rest keep their order. */
  function PullItems(content: seq<ContentItem>, id: string): (r: seq<ContentItem>)
    ensures forall it :: it in r <==> it in content && it.id != id
    ensures |r| <= |content|
  {
    if |content| == 0 then []
    else if content[0].id == id then PullItems(content[1..], id)
    else [content[0]] + PullItems(content[1..], id)
  }

  /** Pulling items keeps the remaining item ids distinct. */
  lemma {:induction false} PullKeepsContentOk(content: seq<ContentItem>, id: string)
    requires ContentOk(content)
    ensures ContentOk(PullItems(content, id))
    decreases |content|
  {
    if |content| > 0 {
      TailContentOk(content);
      PullKeepsContentOk(content[1..], id);
      if content[0].id != id {
        var rest := PullItems(content[1..], id);
        forall it | it in rest ensures it.id != content[0].id {
          HeadIdUnique(content, it);
        }
        ConsContentOk(content[0], rest);
      }
    }
  }

  lemma TailContentOk(content: seq<ContentItem>)
    requires ContentOk(content) && |content| > 0
    ensures ContentOk(content[1..])
  {
    assert ItemIds(content[1..]) == ItemIds(content)[1..];
  }

  /** No later item of a well-formed content shares the first item's id. */
  lemma HeadIdUnique(content: seq<ContentItem>, it: ContentItem)
    requires ContentOk(content) && |content| > 0 && it in content[1..]
    ensures it.id != content[0].id
  {
    var k :| 0 <= k < |content[1..]| && content[1..][k] == it;
    assert ItemIds(content)[k + 1] == it.id && ItemIds(content)[0] == content[0].id;
  }

  lemma ConsContentOk(x: ContentItem, rest: seq<ContentItem>)
    requires ContentOk(rest) && CanonicalId(x.id)
    requires forall it :: it in rest ==> it.id != x.id
    ensures ContentOk([x] + rest)
  {
    var r := [x] + rest;
    forall a, b | 0 <= a < b < |r| ensures ItemIds(r)[a] != ItemIds(r)[b] {
      assert ItemIds(r)[b] == rest[b - 1].id;
      if a == 0 {
        assert rest[b - 1] in rest;
      } else {
        assert ItemIds(r)[a] == ItemIds(rest)[a - 1];
      }
    }
  }

  /** `POST .../:itemId/delete`: pull the item from the category; `ok` even
      when nothing matched. */
  function DeleteItem(db: seq<Category>, category: Option<string>, item: Option<string>, dbDown: bool): (r: Step<seq<Category>, ()>)
    requires CatalogueOk(db)
    ensures CatalogueOk(r.state)
    ensures !FilledParam(category) || !FilledParam(item) ==>
              r == Step(Fail(Flag(!FilledParam(category), NoParentItemProvided) + Flag(!FilledParam(item), NoItemProvided)), db)
    ensures (FilledParam(category) && FilledParam(item)
             && (dbDown || !ValidObjectId(category.value) || !ValidObjectId(item.value))) ==> r == Step(FailWithError, db)
    ensures r.reply.Ok? <==> FilledParam(category) && FilledParam(item) && !dbDown
                             && ValidObjectId(category.value) && ValidObjectId(item.value)
    ensures r.reply.Ok? ==>
              && |r.state| == |db|
              && var i := IndexOfId(db, Canonical(category.value));
                 && (forall j :: 0 <= j < |db| && j != i ==> r.state[j] == db[j])
                 && (i >= 0 ==> r.state[i] == Category(db[i].id, db[i].title, PullItems(db[i].content, Canonical(item.value))))
  {
    if !FilledParam(category) || !FilledParam(item) then
      Step(Fail(Flag(!FilledParam(category), NoParentItemProvided) + Flag(!FilledParam(item), NoItemProvided)), db)
    else if dbDown || !ValidObjectId(category.value) || !ValidObjectId(item.value) then Step(FailWithError, db)
    else
      var i := IndexOfId(db, Canonical(category.value));
      if i < 0 then Step(Ok(()), db)
      else
        var content' := PullItems(db[i].content, Canonical(item.value));
        PullKeepsContentOk(db[i].content, Canonical(item.value));
        ReplaceContentKeepsCatalogueOk(db, i, content');
        Step(Ok(()), db[i := Category(db[i].id, db[i].title, content')])
  }

  /** Pulling an id that no item carries leaves the content as it was. */
  lemma {:induction false} PullAbsent(content: seq<ContentItem>, id: string)
    requires forall k :: 0 <= k < |content| ==> content[k].id != id
    ensures PullItems(content, id) == content
  {
    if |content| > 0 {
      PullAbsent(content[1..], id);
    }
  }

  /** Deleting a just-appended item restores the category: append and pull are inverse. */
  lemma {:induction false} PullAppended(content: seq<ContentItem>, item: ContentItem)
    requires forall k :: 0 <= k < |content| ==> content[k].id != item.id
    ensures PullItems(content + [item], item.id) == content
  {
    if |content| == 0 {
      assert [item][1..] == [];
    } else {
      assert (content + [item])[1..] == content[1..] + [item];
      PullAppended(content[1..], item);
    }
  }

  /** The new-service form with every field filled appends the item to the
      category it names. */
  lemma NewServiceAppends(db: seq<Category>, i: nat, freshItemId: string, ee: string, ru: string, price: string, pt: string)
    requires CatalogueOk(db) && i < |db|
    requires CanonicalId(freshItemId) && ItemIdUnused(db, freshItemId)
    requires ee != "" && ru != "" && price != "" && pt != ""
    ensures var item := ContentItem(freshItemId, ee, ru, TextPrice(price), pt, AdditionalInfo(Some(""), Some("")));
            NewService(db, Text(ee), Text(ru), Text(price), Text(pt), Text(db[i].id), Missing, Missing, [], freshItemId, false).state
              == db[i := Category(db[i].id, db[i].title, db[i].content + [item])]
  {
    CanonicalIsCanonical(db[i].id);
    OwnCategoryIndex(db, i);
  }

  /** Deleting the last item of a category, when no other item of it shares
      its id, restores the category as it was before the item was appended. */
  lemma DeleteAppended(db: seq<Category>, i: nat, item: ContentItem)
    requires CatalogueOk(db) && i < |db| && CanonicalId(item.id)
    requires forall k :: 0 <= k < |db[i].content| ==> db[i].content[k].id != item.id
    ensures var db' := db[i := Category(db[i].id, db[i].title, db[i].content + [item])];
            CatalogueOk(db') && DeleteItem(db', Some(db[i].id), Some(item.id), false) == Step(Ok(()), db)
  {
    var id := db[i].id;
    var db' := db[i := Category(id, db[i].title, db[i].content + [item])];
    AppendKeepsContentOk(db[i].content, item);
    ReplaceContentKeepsCatalogueOk(db, i, db[i].content + [item]);
    DeleteItemAt(db', i, item.id);
    PullAppended(db[i].content, item);
    assert db'[i := Category(id, db[i].title, db[i].content)] == db;
  }

  /** The delete route, given a stored category id and a stored-form item id,
      pulls that id from that category. */
  lemma DeleteItemAt(db: seq<Category>, i: nat, itemId: string)
    requires CatalogueOk(db) && i < |db| && CanonicalId(itemId)
    ensures DeleteItem(db, Some(db[i].id), Some(itemId), false)
              == Step(Ok(()), db[i := Category(db[i].id, db[i].title, PullItems(db[i].content, itemId))])
  {
    CanonicalIsCanonical(db[i].id);
    CanonicalIsCanonical(itemId);
    OwnCategoryIndex(db, i);
  }

  /** Adding an item through the form and deleting it through its delete
      route gives back the catalogue as it was. */
  lemma NewServiceThenDelete(db: seq<Category>, i: nat, freshItemId: string, ee: string, ru: string, price: string, pt: string)
    requires CatalogueOk(db) && i < |db|
    requires CanonicalId(freshItemId) && ItemIdUnused(db, freshItemId)
    requires ee != "" && ru != "" && price != "" && pt != ""
    ensures var r := NewService(db, Text(ee), Text(ru), Text(price), Text(pt), Text(db[i].id), Missing, Missing,
                                [], freshItemId, false);
            DeleteItem(r.state, Some(db[i].id), Some(freshItemId), false) == Step(Ok(()), db)
  {
    var item := ContentItem(freshItemId, ee, ru, TextPrice(price), pt, AdditionalInfo(Some(""), Some("")));
    NewServiceAppends(db, i, freshItemId, ee, ru, price, pt);
    DeleteAppended(db, i, item);
  }
}

=== FILE: sitemap.dfy ===
/** The sitemap: every public page in every site language, in the Sitemaps
    XML format, protocol version 0.9 (sitemaps.org). */
module Sitemap {

  const Site := "https://abik.ee"
  const Langs: seq<string> := ["ee", "ru"]
  const Pages: seq<string> := ["/", "/privacy-policy"]

  const Namespace := "http://www.sitemaps.org/schemas/sitemap/0.9"
  const ContentType := "application/xml; charset=utf-8"

  /** One `<url>` element. */
  datatype Url = Url(loc: string, changefreq: string, priority: string)

  function Loc(page: string, lang: string): string {
    Site + page + "?lang=" + lang
  }

  function UrlOf(page: string, lang: string): (r: Url)
    ensures r.changefreq == "weekly"
    ensures r.priority == "1.0" <==> page == "/"
    ensures r.priority == "1.0" || r.priority == "0.3"
  {
    Url(Loc(page, lang), "weekly", if page == "/" then "1.0" else "0.3")
  }

  /** The entries of one page, one per language. */
  function PageUrls(page: string, langs: seq<string>): (r: seq<Url>)
    ensures |r| == |langs| && forall l :: 0 <= l < |langs| ==> r[l] == UrlOf(page, langs[l])
  {
    seq(|langs|, l requires 0 <= l < |langs| => UrlOf(page, langs[l]))
  }

  lemma Distribute(a: nat, d: nat, n: nat)
    ensures (a + d) * n == a * n + d * n && d * n >= 0
  {
  }

  lemma MulStep(a: int, n: int)
    ensures (a + 1) * n == n + a * n
  {
  }

  /** `pages.flatMap(p => langs.map(l => ...))`: page-major order. */
  function Urls(pages: seq<string>, langs: seq<string>): (r: seq<Url>)
    ensures |r| == |pages| * |langs|
  {
    if |pages| == 0 then []
    else
      MulStep(|pages| - 1, |langs|);
      PageUrls(pages[0], langs) + Urls(pages[1..], langs)
  }

  /** Entry `p * |langs| + l` is page `p` in language `l`. */
  lemma {:induction false} UrlAt(pages: seq<string>, langs: seq<string>, p: int, l: int)
    requires 0 <= p < |pages| && 0 <= l < |langs|
    ensures p * |langs| + l < |Urls(pages, langs)|
    ensures Urls(pages, langs)[p * |langs| + l] == UrlOf(pages[p], langs[l])
  {
    var n := |langs|;
    var k := p * n + l;
    Offset(p, l, n, |pages|);
    var head, rest := PageUrls(pages[0], langs), Urls(pages[1..], langs);
    assert Urls(pages, langs) == head + rest;
    if p == 0 {
      assert Urls(pages, langs)[k] == head[l];
    } else {
      var k' := (p - 1) * n + l;
      UrlAt(pages[1..], langs, p - 1, l);
      assert pages[1..][p - 1] == pages[p];
      assert Urls(pages, langs)[k] == rest[k'];
    }
  }

  /** The index arithmetic of the page-major layout. */
  lemma Offset(p: nat, l: nat, n: nat, m: nat)
    requires p < m && l < n
    ensures p * n + l < m * n
    ensures p == 0 ==> p * n + l == l
    ensures p > 0 ==> p * n + l == n + ((p - 1) * n + l)
  {
    var d: nat := m - (p + 1);
    Distribute(p + 1, d, n);
    MulStep(p, n);
    if p > 0 { MulStep(p - 1, n); }
  }

  /** The document: the XML declaration, the `<urlset>` in the 0.9 namespace,
      and its entries. */
  datatype Document = Document(namespace: string, urls: seq<Url>, contentType: string)

  function Loader(): (r: Document)
    ensures r.namespace == Namespace && r.contentType == ContentType
    ensures |r.urls| == |Pages| * |Langs|
  {
    Document(Namespace, Urls(Pages, Langs), ContentType)
  }

  /** The four entries, in order. */
  lemma FourEntries()
    ensures Loader().urls == [
      Url("https://abik.ee/?lang=ee", "weekly", "1.0"),
      Url("https://abik.ee/?lang=ru", "weekly", "1.0"),
      Url("https://abik.ee/privacy-policy?lang=ee", "weekly", "0.3"),
      Url("https://abik.ee/privacy-policy?lang=ru", "weekly", "0.3")]
  {
    var home, policy := PageUrls("/", Langs), PageUrls("/privacy-policy", Langs);
    assert Pages[1..] == ["/privacy-policy"] && Pages[1..][1..] == [];
    assert Loader().urls == home + policy;
    HomeEntries();
    PolicyEntries();
  }

  lemma HomeEntries()
    ensures PageUrls("/", Langs) == [Url("https://abik.ee/?lang=ee", "weekly", "1.0"),
                                     Url("https://abik.ee/?lang=ru", "weekly", "1.0")]
  {
    assert Loc("/", "ee") == "https://abik.ee/?lang=ee";
    assert Loc("/", "ru") == "https://abik.ee/?lang=ru";
  }

  lemma PolicyEntries()
    ensures PageUrls("/privacy-policy", Langs) == [Url("https://abik.ee/privacy-policy?lang=ee", "weekly", "0.3"),
                                                   Url("https://abik.ee/privacy-policy?lang=ru", "weekly", "0.3")]
  {
    PolicyLoc("ee");
    PolicyLoc("ru");
    assert |"/privacy-policy"| != |"/"|;
    var u := PageUrls("/privacy-policy", Langs);
    assert u[0] == Url("https://abik.ee/privacy-policy?lang=ee", "weekly", "0.3");
    assert u[1] == Url("https://abik.ee/privacy-policy?lang=ru", "weekly", "0.3");
  }

  lemma PolicyLoc(lang: string)
    ensures Loc("/privacy-policy", lang) == "https://abik.ee/privacy-policy?lang=" + lang
  {
    assert Site + "/privacy-policy" == "https://abik.ee/privacy-policy";
  }
}
